=== FILE: README.md ===
# treestamps, modelled in Dafny

treestamps records when files were last processed by a program. Each
directory tree gets a hidden YAML document (`.{program}_treestamps.yaml`)
that maps paths, written relative to the tree's root, to times. The
modelled parts are:

- **`Treestamps` store.** It has a root directory and a table from
  absolute paths to times. The time of a path is the largest time recorded
  at the path or at any of its ancestors.
- **`set`.** It records a time unless a later one is already there,
  optionally compacts the table below the path, and appends the entry to a
  write-ahead log (`.{program}_treestamps.wal.yaml`).
- **`loadf_tree`.** It reads the documents of the root's ancestors, then
  walks down the tree. It replays each log found over its document, checks
  each document's configuration blocks against the store's own, and
  imports the entries. Every file it reads, except the store's own
  document, is marked as consumed.
- **`dumpf`.** It writes the table, with the configuration blocks, as the
  root's document and then deletes the consumed files.
- **`Grovestamps`.** One store per directory of a list of paths, each
  loaded on creation and dumped together.
- **Configuration objects.** `CommonConfig`, `TreestampsConfig` and
  `GrovestampsConfig`, including the normaliser that puts configuration
  values in canonical form so that they can be compared.

The modules follow the package:

| module | file | models |
|---|---|---|
| `Paths` | paths.dfy | pure paths: parsing, printing, `relative_to`, `_get_absolute_path`, the file-name templates |
| `Values` | values.dfy | YAML/config values and the total order `sorted` uses on them |
| `Ordering` | ordering.dfy | a generic insertion sort and sorted-set construction, standing for Python's `sorted` |
| `Normalize` | normalize.dfy | `CommonConfig.normalize_config` |
| `Config` | config.dfy | `CommonConfig.__post_init__`, `TreestampsConfig`, `get_config_dict` |
| `Fs` | fs.dfy | the filesystem the program sees: directories, files holding parsed documents, symlinks, `get_dir`, `_is_path_skipped` |
| `Timestamps` | table.dfy | the table, `max_none`, `get`, `_compact_timestamps_below` |
| `Documents` | docs.dfy | a YAML mapping as an ordered list of entries, with the dict operations the loader and the dumper use |
| `Wal` | wal.dfy | the text of the write-ahead log: the line `set` writes and the reading of that line |
| `Tree` | tree.dfy | `Treestamps.__init__`, `get`, `set`, `_write_ahead_log`, `_close_wal` |
| `Load` | load.dfy | `load_map`, its configuration gate, `loadf`, the walks down and up the tree, `loadf_tree` |
| `Dump` | dump.dfy | `_serialize_timestamps`, the configuration blocks, `dumps`, `_dumpf`, `cleanup_old_timestamps`, `dumpf`, and the dump/load round trip |
| `Grove` | grove.dfy | `GrovestampsConfig.__post_init__`, `Grovestamps.__init__`, `Grovestamps.dump` |
| `Optional` | option.dfy | the `Option` type |

**Representation.**

- **Paths.** A path is its list of components, and `[]` is "/".
- **Relative paths.** They are given as a `PathArg` with an `absolute`
  flag.
- **Working directory.** The process's working directory, the filesystem
  and the glob matcher are parameters (`Fs.Env`).
- **Times.** They are integers.
- **Clock.** The current time `set` reads from the clock is a parameter
  too.
- **Documents.** A YAML document is the value the YAML library would have
  parsed it into. A mapping is the list of its entries in order, with
  string keys. The reader is set to allow duplicate keys
  (treestamps/tree/init.py:66-67); it then keeps the first value of a
  repeated key and yields each key once. A mapping held with repeated
  keys therefore reads as its first entry for each key: `Load.AsDict`
  keeps the first, so the loader sees what the library would give it.

Every operation follows the code as written, including the four defects
listed under "## Findings". Each corrected version is a separate member,
and none of the operations uses them. Where the specification and the
code differ, the model follows the code. `normalize_config` keeps duplicates in lists: the code
(treestamps/config.py:32-33) sorts a list or tuple into a tuple and keeps
its duplicates, while its docstring and the unit test
(tests/unit/test_classmethods.py:38-48) expect unique items.
`Normalize.NormalizeKeepsDuplicates` exhibits the code's behaviour.

Three helpers, `_close_wal`, `_get_relative_path_str` and
`_get_dumpable_program_config`, are defined twice, in
treestamps/tree/dump.py and treestamps/tree/write.py, with the same
bodies. The model has one definition of each.

## Model

| member | source | states |
|---|---|---|
| Paths.Parent | treestamps/tree/get.py:23-25 | "/" is its own parent. Any other path is its parent followed by its last component. |
| Paths.IsRelativeTo | treestamps/tree/init.py:50 | A path is relative to a root exactly when it is the root followed by further components. The test is on components, not on text. |
| Paths.Absolute | treestamps/tree/init.py:49 | `absolute()` leaves an absolute path as it is. A relative path is put below the working directory, with its own components after the working directory's. |
| Paths.ParsePath | treestamps/tree/config.py:20 | `Path(s)` keeps only proper components (not empty, not ".", no "/"). It is absolute exactly when the text starts with "/". |
| Paths.ParsePrintRoundTrip | treestamps/tree/dump.py:16-18 | Printing a path and parsing the text gives the path back. |
| Paths.PathStrInjective | treestamps/tree/dump.py:16-18 | Two paths with proper components that print the same are the same path. |
| Paths.Resolve | treestamps/tree/init.py:44-63 | A result always lies inside the root. The result is None exactly for an absolute path that is neither inside nor above the root. An absolute path inside the root is kept. A path above the root becomes the root. A relative path is taken under the working directory when that lands inside the root, and under the root otherwise. |
| Paths.ResolveInside | treestamps/tree/init.py:49-52 | An absolute path inside the tree resolves to itself whatever the working directory. |
| Paths.ResolveIdempotent | treestamps/tree/init.py:44-63 | Resolving an already resolved path changes nothing. |
| Paths.ResolveRelativeKey | treestamps/tree/init.py:44-57 | From the root, or from a working directory neither inside the tree nor above its root, the relative key of a path of the tree resolves back to that path. |
| Paths.KeysResolveExactly | treestamps/tree/init.py:49-55 | Every relative key of the tree resolves back to its path exactly when the working directory is the root or lies off the root's line. From a directory inside the tree, or above its root, some key lands on another path. |
| Paths.RelativeTo | treestamps/tree/dump.py:16-18 | `relative_to` gives the components that, after the root, make up the path. |
| Paths.RelativePathStr | treestamps/tree/dump.py:16-18 | The key written for a path of the tree is relative: it is "." exactly for the root, and otherwise a text that does not start with "/". |
| Paths.RelativePathStrRoundTrip | treestamps/tree/dump.py:16-18 | The relative key written for a path of the tree parses back to the relative path, and the root joined with it is the path. |
| Paths.RelativePathStrInjective | treestamps/tree/dump.py:20-29 | Distinct paths of one tree get distinct keys, so serialising loses no entry to a key clash. |
| Paths.PathLeTotal | treestamps/grove.py:39 | The order `sorted` uses on paths is a total order. |
| Paths.FileNames | treestamps/tree/init.py:39-42 | The document name and the log name of a program differ. |
| Paths.FileNameRoundTrip | treestamps/tree/init.py:29-32 | The program name can be read back from the document file name. |
| Paths.FileNamesDiffer | treestamps/tree/init.py:29-37 | No program's document name is any program's log name. |
| Paths.FileNameInjective | treestamps/tree/init.py:29-32 | Distinct programs use distinct document names. |
| Values.EncodePrefixFree | treestamps/config.py:27-33 | No value's code is a proper prefix of another's, and equal codes mean equal values. The order below rests on this. |
| Values.LeTotal | treestamps/config.py:32-33 | The order `sorted` applies to config values is a total order. |
| Values.EntryLeTotal | treestamps/config.py:26-31 | The order on `(key, value)` items is a total order. |
| Values.StrLeTotal | treestamps/config.py:34-35 | The order on strings, by code point with a proper prefix first, is a total order. |
| Ordering.Sort | treestamps/config.py:33 | `sorted` gives a sorted rearrangement of its input. |
| Ordering.SortPermutation | treestamps/config.py:33 | Any two rearrangements of one sequence sort to the same result. |
| Ordering.SortedElements | treestamps/grove.py:39 | `sorted(set)` holds each element of the set once, in strictly ascending order. |
| Normalize.Normalize | treestamps/config.py:22-36 | Scalars are returned unchanged. Lists, sets and mappings keep their kind. |
| Normalize.NormalizeListItems | treestamps/config.py:32-33 | A list or tuple becomes a rearrangement of its normalised items. |
| Normalize.NormalizeListSorted | treestamps/config.py:32-33 | Those items are in ascending order. |
| Normalize.NormalizeSetElements | treestamps/config.py:34-35 | A set becomes the set of its normalised elements. |
| Normalize.NormalizeSetSorted | treestamps/config.py:34-35 | Those elements are held once each, in ascending order (the canonical form of a frozenset). |
| Normalize.NormalizeMapItems | treestamps/config.py:25-31 | A mapping becomes a rearrangement of its items with normalised values. |
| Normalize.NormalizeMapSorted | treestamps/config.py:25-31 | Those items are sorted. |
| Normalize.NormalizeMapKeys | treestamps/config.py:25-31 | A normalised mapping has exactly the keys of the original. |
| Normalize.NormalizeMapValues | treestamps/config.py:28-29 | Every value of a normalised mapping is the normalised value of that key in the original. |
| Normalize.NormalizeIsNormal | treestamps/config.py:22-36 | Every result is in canonical form: lists sorted, sets strictly sorted, mappings sorted by item, at every depth. |
| Normalize.NormalFixpoint | treestamps/config.py:22-36 | A value in canonical form is left as it is. |
| Normalize.NormalizeFixesExactlyNormal | treestamps/config.py:22-36 | The normaliser leaves a value unchanged if and only if it is in canonical form. |
| Normalize.NormalizeIdempotent | treestamps/config.py:22-36 | Normalising twice is normalising once, which is what lets `load_map` compare a normalised block with a normalised config. |
| Normalize.NormalizeListPermutation | treestamps/config.py:32-33 | Any reordering of a list normalises to the same tuple. |
| Normalize.NormalizeSetOrder | treestamps/config.py:34-35 | A set normalises to the same value whatever its insertion order and repeats. |
| Normalize.NormalizeIntList | treestamps/config.py:33 | A list of integers normalises to the one sorted rearrangement of it. |
| Normalize.NormalizeKeepsDuplicates | treestamps/config.py:33 | Duplicates in a list survive normalisation, so [c, b, a, b] becomes [a, b, b, c]. |
| Config.FilterEntries | treestamps/config.py:46-50 | The filter keeps exactly the items whose key is listed, so the keys left are the intersection. |
| Config.FilterProgramConfig | treestamps/config.py:43-54 | None or an empty mapping, and any mapping when no keys are given, are kept as they are. Otherwise the result is the mapping restricted to the listed keys. |
| Config.MakeCommonConfig | treestamps/config.py:38-56 | `ignore` and `program_config_keys` become sets of the given strings. The program config keeps its None-ness, is in canonical form, and keeps exactly the allowed keys. Each value it keeps is the normalised value the given config holds under that key. |
| Config.PostInitSetsOnly | treestamps/config.py:40-41 | The order and repetition of `ignore` and `program_config_keys` do not matter. |
| Config.FilterKeepsAllowed | treestamps/config.py:46-53 | Filtering a mapping whose keys are all allowed changes nothing. |
| Config.PostInitIdempotent | treestamps/config.py:38-56 | Running `__post_init__` again on its own output, as `Grovestamps` does when it rebuilds each tree's config, changes nothing. |
| Config.IgnoreValue | treestamps/tree/config.py:22-27 | The `ignore` field as a value is the set of exactly its strings, in canonical form. |
| Config.IgnoreValueInjective | treestamps/tree/config.py:22-27 | Distinct `ignore` sets give distinct values. |
| Config.ConfigDict | treestamps/tree/config.py:8 | The block has exactly the keys "ignore" and "symlinks", holding the config's own values, and is in canonical form. |
| Config.ConfigDictFields | treestamps/tree/config.py:22-27 | Two configs have equal blocks if and only if their `ignore` and `symlinks` agree. |
| Config.MakeTreeConfig | treestamps/tree/config.py:17-20 | The common post-initialisation holds, and the path is `Path(path)`. |
| Fs.Skipped | treestamps/tree/load.py:16-20 | A path is skipped when an ignore glob matches it, and a symlink is skipped whenever symlinks are not allowed. Otherwise nothing skips a path, so with no globs only disallowed symlinks are skipped. |
| Fs.ArgParent | treestamps/tree/init.py:27 | `path.parent` keeps absoluteness and drops the last component. The parent of "." or "/" is itself. |
| Fs.GetDir | treestamps/tree/init.py:23-27 | A directory stands for itself, and anything else stands for its parent. |
| Fs.GetDirOfFileInDir | treestamps/tree/init.py:23-27 | A file in a directory and the directory itself give the same directory. |
| Fs.ChildDirs | treestamps/tree/load.py:117-118 | The walk visits exactly the directories directly inside a directory. |
| Timestamps.MaxNone | treestamps/tree/get.py:10-13 | The result is None if and only if both arguments are. Otherwise it is one of them and at least each present one. |
| Timestamps.Walk | treestamps/tree/get.py:22-27 | The loop of `get` gives the maximum of its start value and of every entry at the path or an ancestor, "/" excluded. |
| Timestamps.Get | treestamps/tree/get.py:15-27 | The time is None exactly when no entry governs the path. Otherwise it is the time of some governing entry and at least every governing entry's time. |
| Timestamps.GetUnique | treestamps/tree/get.py:22-27 | The time of a path is determined by its governing entries: any value meeting that description is `get`'s result. |
| Timestamps.GetGoverned | treestamps/tree/get.py:22-27 | Entries outside the path's ancestry do not change its time. |
| Timestamps.GetDominates | treestamps/tree/get.py:22-27 | A time recorded at a directory holds for everything below it. |
| Timestamps.GetGrowsDownwards | treestamps/tree/get.py:22-27 | The time below a path is at least the time of the path. |
| Timestamps.GetMonotone | treestamps/tree/get.py:22-27 | Raising or adding governing entries never lowers a path's time. |
| Timestamps.GetAfterPut | treestamps/tree/set.py:72 | Storing a time that is not below the old entry joins it into the time of every path the entry governs and changes no other path's time. |
| Timestamps.Compact | treestamps/tree/set.py:16-32 | When the root is a directory with an entry, exactly the entries at or below it with earlier times are dropped, and the rest keep their times. Otherwise nothing changes. |
| Timestamps.CompactPreservesGet | treestamps/tree/set.py:16-32 | Compaction below any path but "/" changes no path's time. |
| Timestamps.CompactPreservesAllGets | treestamps/tree/set.py:16-32 | Compaction below any path but "/" changes no path's time, for all paths at once. |
| Timestamps.CompactAtFilesystemRootLoses | treestamps/tree/set.py:16-32 | Compacting below "/" drops a path's own time, because `get` never counts the entry at "/". |
| Timestamps.CompactKeepingGet | treestamps/tree/set.py:75-76 | Corrected compaction changes no path's time, only drops entries, and keeps the root's own entry. |
| Tree.Init | treestamps/tree/init.py:72-89 | The root is the absolute `get_dir` of the configured path. The document and the log sit in the root under the program's two distinct names. Nothing is loaded, logged or consumed. |
| Tree.Get | treestamps/tree/get.py:15-27 | A path that does not resolve has no time. Otherwise its time is the hierarchical time of the resolved path. |
| Tree.CloseWal | treestamps/tree/dump.py:43-49 | Only the log handle changes, and it ends closed. |
| Tree.WriteAheadLog | treestamps/tree/set.py:34-51 | The header is written when the log is first opened. Then one line follows with the relative key, quoted only when it holds a ':', and the time. The log file becomes consumed, and nothing else changes. |
| Tree.Accepts | treestamps/tree/set.py:64-69 | A path is refused when its own entry is non-zero and later than the new time. It is accepted when it has no entry of its own, even below a later ancestor time, when its entry is 0, and when its entry is not later. A refused path has a later time by `get` as well. |
| Tree.Set | treestamps/tree/set.py:53-80 | Nothing changes, and None is returned, exactly when the path does not resolve or a non-zero later time is already recorded at that path. Otherwise the time is recorded at the path and the line is logged as the code writes it. With `compact` on a directory, exactly the entries below the path with an earlier time are dropped. Every path's time is as after the new entry alone, unless the compaction is at "/". The time is returned. |
| Tree.SetAtFilesystemRootLoses | treestamps/tree/set.py:16-32 | In a store rooted at "/" holding only /n, `set("/", later, compact=True)` succeeds and leaves /n with no time, where it had one. |
| Tree.SetKeepingGet | treestamps/tree/set.py:53-80 | Corrected `set`, which compacts only below directories other than "/". It has the same outcome, log and consumed files as `set`, and equals it whenever no compaction at "/" happens. Every path's time is as after the new entry alone. |
| Tree.SetJoins | treestamps/tree/set.py:53-80 | After a successful `set` that does not compact at "/", every path below the set path has the maximum of its old time and the new time, and no other path's time changes. |
| Tree.SetMonotone | treestamps/tree/set.py:65-76 | With non-negative times and no compaction at "/", `set` never lowers any path's time. |
| Tree.SetTwice | treestamps/tree/set.py:65-72 | Two `set`s of one path leave the later of the two times at the path. |
| Tree.SetLogReadsBack | treestamps/tree/set.py:43-49 | The key `set` logs resolves under the root to the path that was set. The logged line reads back as that key and the time when the key holds a ':' or may be written plain. It is misread when the key starts with a quote and holds no ':'. |
| Wal.ReadQuotedDoubled | treestamps/tree/set.py:45-48 | A single-quoted key with its quotes doubled reads back as the key. |
| Wal.ReadPlainNoColon | treestamps/tree/set.py:45-49 | A plain key without ':' reads back up to the ": " before the time. |
| Wal.IntTextRoundTrip | treestamps/tree/set.py:49 | The decimal text of a time reads back as that time. |
| Wal.KeyTextAsWritten | treestamps/tree/set.py:44-48 | The writer quotes a key when, and only when, it holds a ':'. |
| Wal.WalLineAsWritten | treestamps/tree/set.py:44-49 | The line is one list item, from "- " to a line break. A key holding ':' is opened with a quote, and any other key is written as it is. |
| Wal.KeyText | treestamps/tree/set.py:44-48 | Corrected quoting: a key is written plain only when a YAML reader reads it back as the same string, and is quoted otherwise. |
| Wal.WalLineRoundTrip | treestamps/tree/set.py:43-49 | Every line written with the corrected quoting, for a key that fits on one line, reads back as its key and time. |
| Wal.WalLineAsWrittenReadsBack | treestamps/tree/set.py:43-49 | A line written as the code writes it is misread when its key starts with a quote and lacks a ':'. It reads back when its key is printable and either holds a ':' or may be written plain. |
| Wal.LeadingQuoteCounterexample | treestamps/tree/set.py:43-49 | The key `'x` is written as "- 'x: 5" and cannot be read back. |
| Documents.Find | treestamps/tree/load.py:30-31 | `d.get(k)` returns a value held under `k`. |
| Documents.FindKeys | treestamps/tree/load.py:30-31 | A lookup succeeds exactly for the keys of the mapping. |
| Documents.Put | treestamps/tree/dump.py:26 | `d[k] = v`: afterwards `k` holds `v` and every other key is unchanged. A new key is appended at the end, and a dict stays a dict. |
| Documents.Remove | treestamps/tree/load.py:63 | After `pop`, the key is absent, other keys are unchanged, and exactly the other entries remain. |
| Documents.Pop | treestamps/tree/load.py:30-31 | `d.pop(k, default)` returns the default when `k` is absent and otherwise a value held under `k`. The rest of the mapping is what is left. |
| Documents.Update | treestamps/tree/dump.py:66 | After `d.update(m)`, each key holds its last value in `m`, or its old value if `m` lacks it. A dict stays a dict. |
| Documents.UpdateFresh | treestamps/tree/dump.py:64-67 | Updating with keys the mapping lacks appends them in order. |
| Documents.ApplyWalItem | treestamps/tree/load.py:70-73 | A log item that is a mapping is applied with `update`. Any other item changes nothing, as when `update` raises and the error is reported. |
| Documents.Replay | treestamps/tree/load.py:69-73 | Replaying the log over a dict gives a dict. |
| Documents.ReplayUnwritten | treestamps/tree/load.py:69-73 | A key no log item writes keeps its value from the document. |
| Documents.ReplayLastWriteWins | treestamps/tree/load.py:69-73 | A key takes the value that the last log item writing it gives it. |
| Load.PopConfigMatches | treestamps/tree/load.py:28-39 | Both blocks are popped, whatever the outcome. Without `check_config` the gate passes. With it, the gate passes exactly when the normalised `treestamps_config` block (default `{}`) equals `get_config_dict()` and the normalised `config` block (default None) equals the program config, both as structural equality of values. |
| Load.PopConfigMatchesRest | treestamps/tree/load.py:30-31 | What the gate leaves is the document with the two block keys removed. |
| Load.GateAcceptsOwnBlocks | treestamps/tree/load.py:28-39 | A document carrying the config's own blocks passes. |
| Load.GateRefusesMissingBlock | treestamps/tree/load.py:30-35 | With checking on, a document without a `treestamps_config` block is refused. |
| Load.GateRefusesOtherTreeSettings | treestamps/tree/load.py:32-35 | With checking on, a document written under other `ignore` or `symlinks` settings is refused. |
| Load.WalItems | treestamps/tree/load.py:63-69 | The log's items are a list's or a set's elements. A value that cannot be iterated (None, bool, int) aborts the load. |
| Load.AsDict | treestamps/tree/load.py:58 | `dict(yaml)` has unique keys, answers every lookup as the parsed mapping does, and leaves a dict unchanged. |
| Load.ImportEntry | treestamps/tree/load.py:41-51 | A key that does not resolve changes nothing. Otherwise the time is stored at the resolved path exactly when `get` has no time for it or an earlier one. Only the table changes. |
| Load.ImportEntryGrows | treestamps/tree/load.py:46-49 | Importing an entry never lowers the time of any path of the tree. |
| Load.ImportEntryJoins | treestamps/tree/load.py:46-49 | For a path of the tree, importing an entry joins its time into the path's time when the resolved key governs the path, and otherwise changes nothing, whether or not the entry is stored. |
| Load.ImportEntryMonotone | treestamps/tree/load.py:41-51 | Importing an entry into a store with later times gives later times. |
| Load.ImportAllMonotone | treestamps/tree/load.py:75-76 | Importing the same entries into a store with later times gives later times. |
| Load.ImportOne | treestamps/tree/load.py:45-51 | Only integer times are imported: any other value makes the comparison raise and is skipped. No path of the tree loses time. |
| Load.ImportAll | treestamps/tree/load.py:75-76 | Importing all entries changes only the table and never lowers a path's time. |
| Load.LoadMapWith | treestamps/tree/load.py:53-76 | An empty or non-mapping document changes nothing. A document that the configuration gate refuses changes nothing. No document lowers any path's time. |
| Load.ReplayAndImport | treestamps/tree/load.py:62-76 | Without a log, the entries are imported as they are. A log that cannot be iterated aborts the document. |
| Load.GatePassed | treestamps/tree/load.py:58-66 | A dict that passes the gate goes on to the log and the import with what the gate left. |
| Load.LoadMapAsWritten | treestamps/tree/load.py:53-76 | As written, relative keys are resolved against the process's working directory. Only the table changes, and it only grows. |
| Load.LoadMap | treestamps/tree/load.py:53-76 | Corrected, relative keys are resolved under the document's directory. Only the table changes, and it only grows. |
| Load.LoadMapWithMonotone | treestamps/tree/load.py:53-76 | Loading one document into a store of the same configuration with later times gives later times. |
| Load.PlainDocument | treestamps/tree/load.py:53-76 | With the gate off, a dict without the reserved keys is imported entry by entry. |
| Load.SingleEntryDocument | treestamps/tree/load.py:53-76 | A one-entry document imports just that entry. |
| Load.ImportIntoEmpty | treestamps/tree/load.py:46-49 | Into an empty table, a plain name lands under the directory it is resolved against. |
| Load.LoadMapPlacesUnderDocument | treestamps/tree/load.py:88-93 | With the corrected loader, a key lands under the document's directory, where it was written from. |
| Load.LoadAsWrittenUnderWorkingDirectory | treestamps/tree/load.py:46 | As written, a plain key lands under the working directory whenever that lies in the tree. |
| Load.LoadFromSubdirectoryMisplaces | treestamps/tree/init.py:49-52 | The key `n` of the root's document, loaded from the working directory root/sub, is stored as root/sub/n. The corrected loader stores it as root/n, and as written root/n ends with no time. |
| Load.DeeperEntryUnseen | treestamps/tree/get.py:22-27 | A time at root/sub/n says nothing about root/n. |
| Load.Loadf | treestamps/tree/load.py:88-97 | A document is loaded with its own directory as root, and its relative keys are made absolute against the process's working directory, as `load_map` does. A missing file changes nothing. Only the table changes, and it only grows. |
| Load.LoadfMonotone | treestamps/tree/load.py:88-97 | Loading a file into a store of the same configuration with later times gives later times. |
| Load.LoadfRefusesMissingBlock | treestamps/tree/load.py:58-61 | With checking on, a document file without a `treestamps_config` block leaves the store unchanged. |
| Load.ConsumeChild | treestamps/tree/load.py:99-108 | A file's times are loaded, as `loadf` loads them. Unless the file is the store's own document, it is marked consumed. The table only grows. |
| Load.FoundSplit | treestamps/tree/load.py:110-120 | The files the walk from a directory finds are its own two files plus what the walks from its child directories find. |
| Load.ConsumeAll | treestamps/tree/load.py:110-120 | The walk adds to the consumed files exactly the stamp files (other than the store's own document) in the directories it enters. These are all directories reached through existing, unskipped directories. The table only grows. |
| Load.ConsumeAllLoads | treestamps/tree/load.py:110-120 | Every file the walk down finds has its times in the result: for every path of the tree, the result's time is at least the time loading that file alone would give. |
| Load.ConsumeChildren | treestamps/tree/load.py:117-118 | Walking the child directories consumes what each child's walk finds. |
| Load.ConsumeChildrenLoads | treestamps/tree/load.py:117-118 | Every file the walks from the child directories find has its times in the result. |
| Load.LoadParents | treestamps/tree/load.py:122-131 | The upward walk changes only the table, which only grows. |
| Load.LoadParentsReadsOnlyLoaded | treestamps/tree/load.py:122-131 | The upward walk reads only the two files of the directories above the path, stopping at the first skipped path and before "/". |
| Load.LoadParentsLoads | treestamps/tree/load.py:122-131 | Both files of every directory the upward walk enters have their times in the result. |
| Load.LoadTree | treestamps/tree/load.py:133-136 | `loadf_tree` consumes exactly the files the walk down from the root finds, resolving keys against the working directory. It changes nothing else besides the table, and it never lowers the time of a path of the tree. |
| Load.LoadTreeLoads | treestamps/tree/load.py:133-136 | `loadf_tree` loads every timestamp file up and down the tree. The files of each ancestor directory the walk up enters, the store's own document when the root is entered, and every file the walk down finds all have their times in the result. |
| Load.LoadTreeKeepsOwnDocument | treestamps/tree/load.py:105-106 | Loading never marks the store's own document as consumed. |
| Dump.TreePaths | treestamps/tree/dump.py:20-29 | The paths serialised are exactly the table's paths inside the tree, each once. |
| Dump.Serialize | treestamps/tree/dump.py:20-29 | The serialised table is a dict. |
| Dump.SerializeExact | treestamps/tree/dump.py:20-29 | The document holds one entry per path of the tree, under its relative key. |
| Dump.SerializeFinds | treestamps/tree/dump.py:23-26 | Every path of the table inside the tree is written under its relative key with its own time. |
| Dump.SerializeKeys | treestamps/tree/dump.py:23-28 | Every key written is the relative key of a path of the table inside the tree; paths outside are skipped. |
| Dump.DumpableConfig | treestamps/tree/dump.py:51-62 | The blocks are `config`, only when the program config is not None, and `treestamps_config` with `get_config_dict()`. There are no other keys. |
| Dump.PrepareDump | treestamps/tree/dump.py:64-67 | The blocks replace any entries under their keys, all other keys are untouched, and the log ends closed. |
| Dump.Dumps | treestamps/tree/dump.py:74-79 | `dumps` gives the merged document, closes the log, and deletes nothing. |
| Dump.DumpToFile | treestamps/tree/write.py:37-42 | The merged document is written at the path and no other file changes. |
| Dump.Write | treestamps/tree/dump.py:72 | Writing a file stores the value there and changes no other file. |
| Dump.Cleanup | treestamps/tree/dump.py:31-41 | Every consumed file but the store's own document is deleted, a missing one is tolerated, and nothing stays consumed. |
| Dump.CleanupIdempotent | treestamps/tree/dump.py:31-41 | Cleaning up a second time deletes nothing more. |
| Dump.Dumpf | treestamps/tree/dump.py:81-85 | The document is written at the dump path. The files left are the document plus the files that were not consumed, and those keep their contents. |
| Dump.DumpAfterLoadDeletesFound | treestamps/tree/dump.py:81-85 | Loading a tree and dumping it deletes exactly the files the walk down the tree found, and never the store's own document. |
| Dump.PopOwnBlocks | treestamps/tree/load.py:28-39 | A document carrying the store's own blocks after its entries passes the gate, which pops exactly those blocks. |
| Dump.LoadOwnDocument | treestamps/tree/load.py:53-76 | The document `_prepare_dump` builds passes the gate of a store with the same configuration and goes on to the import. |
| Dump.ImportStep | treestamps/tree/load.py:41-51 | Loaded from the root or from off the root's line, one serialised entry joins its time into every path it governs and changes no other path's time. |
| Dump.ImportJoin | treestamps/tree/load.py:75-76 | Loaded from the root or from off the root's line, the serialised entries join, path by path, their times with the times the store had. |
| Dump.ReloadPassesGate | treestamps/tree/dump.py:81-85 | Reloading the dump into a store of the same configuration, from any working directory, gets past the gate to the serialised entries. Their keys are resolved against that directory. |
| Dump.ReloadImports | treestamps/tree/load.py:62-76 | Without keys named like the blocks, the reload from any working directory imports the serialised entries, resolved against that directory, and nothing else. |
| Dump.DumpLoadRoundTrip | treestamps/tree/dump.py:81-85 | After dump then load into an empty store of the same tree, by a process working in the root or off the root's line, every path has the time the entries inside the tree gave it. |
| Dump.DumpLoadRoundTripInside | treestamps/tree/dump.py:20-29 | When every entry lies inside the tree, dump then load, from the root or off the root's line, gives every path its original time. |
| Dump.Reload | treestamps/tree/load.py:88-93 | Reloading the dumped document changes only the loader's table and never lowers a time of its tree. |
| Dump.WalNamedPathLosesDocument | treestamps/tree/load.py:63-69 | A time recorded for the root-level path "wal" is dumped under the key `wal`, which the loader takes as the log, so the reload imports nothing. |
| Grove.ArgLeTotal | treestamps/grove.py:39 | The order `sorted` uses on paths, relative or absolute, is a total order. |
| Grove.SortKeyInjective | treestamps/grove.py:39 | Distinct paths with proper components have distinct pathlib sort keys (`str(p).split("/")`), so the order never falls back to its tie-break. |
| Grove.SortKey | treestamps/grove.py:39 | For a path with proper components, the pathlib sort key shows whether the path is absolute (an empty first part), whether it is "/" or ".", and its components in order. |
| Grove.ArgLe | treestamps/grove.py:39 | Paths with different sort keys are ordered as pathlib orders them, comparing the keys component by component. Absolute paths come before relative ones. |
| Grove.OrderPaths | treestamps/grove.py:21-39 | The result holds exactly the given paths that survive the symlink filter, each once. Directories come before the other paths, and each group is in pathlib's ascending order. |
| Grove.OrderPathsIdempotent | treestamps/grove.py:21-39 | Ordering the paths a second time changes nothing. |
| Grove.OrderPathsForgetsInputOrder | treestamps/grove.py:29-39 | The ordered paths depend only on which paths were given. |
| Grove.TreeConfigFor | treestamps/grove.py:41-48 | The tree config rebuilt from the grove config's dict has the grove's common fields unchanged and the tree's path. |
| Grove.Planted | treestamps/grove.py:64-68 | Each tree is a valid store for its path's config, rooted at its `get_dir`, with the log closed. |
| Grove.PlantedDumpPath | treestamps/grove.py:61-67 | A tree writes its document in the directory it was made for. |
| Grove.PlantedConsumes | treestamps/grove.py:67-68 | A tree has consumed every stamp file its walk down from its root found. |
| Grove.FirstFor | treestamps/grove.py:60-63 | The first path whose directory is a given one: none before it has that directory. |
| Grove.Plant | treestamps/grove.py:60-69 | After the first n paths, there is one tree per distinct directory, each for the first path with that directory, listed in the order they were made. |
| Grove.Choose | treestamps/grove.py:60-69 | Over all paths, there is one directory for each distinct `get_dir`, listed once each in order of its first path, and that first path is chosen for it. |
| Grove.Grow | treestamps/grove.py:64-69 | Each chosen path becomes a loaded tree. |
| Grove.New | treestamps/grove.py:54-69 | `Grovestamps(config)` has a tree exactly for each directory of the paths. Each tree is made and loaded from the first path with that directory, in order. |
| Grove.RunJob | treestamps/tree/dump.py:81-85 | One tree's dump writes its document and deletes the files it consumed, except those spared. |
| Grove.DumpfRunsJob | treestamps/tree/dump.py:81-85 | Sparing nothing, a job is exactly that tree's `dumpf`. |
| Grove.RunJobs | treestamps/grove.py:73-76 | The trees' dumps run in order. Kept files that exist survive, and so do kept documents. The last tree's document is on disk at the end with the content it wrote. |
| Grove.RunJobsSpares | treestamps/grove.py:73-76 | A file that no tree writes and none deletes keeps its content through the dumps. |
| Grove.RunJobsKeepsDocument | treestamps/grove.py:73-76 | A tree's document is on disk at the end, with the content it wrote, when no later tree rewrites or consumes it. |
| Grove.RunJobsDeletesConsumed | treestamps/grove.py:73-76 | A file the dumps remove was consumed by one of the trees. |
| Grove.RunJobsWritesDocuments | treestamps/grove.py:73-76 | A file the dumps add is the document of one of the trees. |
| Grove.RunJobsLastDeletes | treestamps/grove.py:73-76 | The last tree dumps after every other has written its document, so a file it consumed, other than its own document, is gone at the end. |
| Grove.DumpGroveAsWritten | treestamps/grove.py:71-76 | As written, every tree dumps in order and is left closed with nothing consumed. Only consumed files disappear. A tree's document is on disk with its serialised table when no later tree rewrites or consumes it, and the last tree's document always is. |
| Grove.DumpGrove | treestamps/grove.py:71-76 | Corrected, every tree dumps in order, sparing the grove's documents. Afterwards every tree's document is on disk. |
| Grove.DumpGroveChanges | treestamps/grove.py:71-76 | The corrected dump removes only files a tree consumed, never a document of the grove, and adds only documents. |
| Grove.GroveDumpLosesChildDocument | treestamps/grove.py:71-76 | With the directory /x/y and the file /x/f, the grove dump as written deletes the document of /x/y; the corrected dump keeps it. |
| Grove.LastTreeDeletesDocument | treestamps/grove.py:71-76 | When the last tree consumed another tree's document, the dump as written deletes it and the corrected dump keeps it. |

## Left out

- YAML text: parsing and emitting documents (`_config_yaml`, `loads`, the YAML calls in `loadf`, `_dumpf` and `dumps`; treestamps/tree/init.py:65-70, treestamps/tree/load.py:78-86) are library calls. A document is the value the library parses, and the files of the filesystem hold such values. The write-ahead log is the exception: its lines are modelled as text (`Wal`), because `set` writes them by hand.
- Wal.ParseWalLine: reads only the two key forms the writer produces, a plain key up to ": " and a single-quoted key, and takes every plain key as a string. A YAML reader types plain scalars. `2023`, `1.5`, `null`, `~` and `true` become a number, null or a boolean, which `Path()` then refuses. It also strips trailing spaces and reads other indicators (`"`, `#`, `&`, `*`, `[`, `{`, ...) and " #" differently. Where this reader and YAML could disagree, nothing is claimed: the round trips are stated only for keys `Wal.PlainSafe` admits or that are quoted.
- Wal.WalLineRoundTrip: holds for printable one-line keys only. A key with a line break or a control character is not modelled, since the log is read line by line.
- Wal.WalLineAsWrittenReadsBack: says nothing about keys the code writes plain that `Wal.PlainSafe` rejects. `Wal.PlainSafe` is stricter than YAML's resolver (every key starting with a digit, a sign or an indicator is rejected), so some keys that do read back are not covered.
- Tree.SetLogReadsBack: the same restriction as Wal.WalLineAsWrittenReadsBack.
- `_dumpf_init_wal` (treestamps/tree/set.py:38) is not part of this model: it is called when the log is first opened but defined in none of the modelled files. Opening the log is modelled as writing the header.
- Floating-point times: times are integers. A value read from a document is imported only when it is an integer, and YAML booleans and floats are not times.
- Load.ImportOne: skips every value that is not an integer. The source stores any value when the path has no time yet (treestamps/tree/load.py:48 short-circuits before the comparison that would raise). A string or None in the table then makes later comparisons raise. The table holds only integers.
- Timestamps.Compact: the clause that drops entries whose time is None (treestamps/tree/set.py:27) has no counterpart, because the table holds no None.
- Values.Le: a total order on all values, where Python has none. Values of different kinds are ordered by a kind tag (None, bool, int, str, list, set, mapping), and bool is not compared with int numerically. Two Nones, or two dicts, are ordered, where Python raises. Sets are compared element-wise on their normalised sequence, where Python's `<` on sets is inclusion. So `sorted` of a list of sets can depend on the list's order in Python but not here, and Normalize.NormalizeListPermutation does not hold for such lists in the source.
- Load.PopConfigMatches: compares values structurally, so a block holding `1` where the configuration holds `True` (or `0` for `False`) is refused, where Python's `==` treats them as equal and accepts it. A faithful gate would also need Normalize to sort booleans among integers as Python does, which Values.Le does not.
- Normalize.Normalize: a frozenset given as input is treated like a set. The code passes frozensets through unnormalised (neither `set` nor `list` matches), so their elements are not normalised.
- Dictionary and set iteration order: serialisation visits the table in path order rather than insertion order, and `iterdir` lists child directories in path order. `get` gives every path the same time either way. The order of entries in a dumped file can differ, and so can the redundant entries a reload stores: loading {x: 10, x/y: 5} in path order skips x/y, while insertion order {x/y: 5, x: 10} stores both.
- Symlink cycles, `resolve()`, and the filesystem changing during a walk: the filesystem is a fixed value, and the walk down a tree terminates because it only enters existing directories.
- Glob matching (`Path.match`) is a parameter of the environment, not a model of glob syntax.
- Exceptions caught and reported by the source (reading a file, a bad log item, a bad time) are modelled as the skip that follows them. The messages, `verbose` output, `Printer` and `cprint` are not modelled.
- The clock: the time `set` takes when none is given is a parameter.
- The deprecated aliases `load()` and `dump()` (treestamps/tree/load.py:138-145, treestamps/tree/dump.py:87-89) behave as `loadf_tree` and `dumpf`, and are not modelled separately.
- `loads` (treestamps/tree/load.py:78-86) is `load_map` after parsing YAML text, which is out of scope as above.
- Documents.ApplyWalItem: a log item that is a list of pairs, which `dict.update` applies, changes nothing in the model. Only mappings are applied. The writer only ever logs mappings.
- Documents: keys are strings. In a hand-edited document, a plain key that YAML types otherwise (`2023:`, `true:`, `null:`) reaches `Path()` as an int, a bool or None. `Path()` raises inside the `try` of treestamps/tree/load.py:44-51, so the source skips that entry. The model cannot express such a key. The same text read as a string key would be imported.
- Grove.New: builds the trees after choosing every directory, where the source builds each tree inside the loop. Loading reads files but changes none, so the trees are the same.
- The older single-module implementation treestamps.py and treestamps/tree/common.py are not part of this model. They are superseded by the package modules modelled here.
- Tree.SetTwice: assumes the first time is non-zero and not below a time already recorded at the path. Without that, the first `set` may be refused, or a zero time may be overwritten by an earlier one, because the source treats a recorded 0 as no time (treestamps/tree/set.py:68).
- Dump.DumpLoadRoundTrip: excludes tables with a root-level path named `config`, `treestamps_config` or `wal`. Their keys collide with the blocks `load_map` pops (see Dump.WalNamedPathLosesDocument).
- Dump.DumpLoadRoundTrip: holds only when the loading process works in the root or off the root's line. From a working directory inside the tree, or above its root, keys are misplaced (Paths.KeysResolveExactly, and the first row of "## Findings"). Dump.DumpLoadRoundTripInside, Dump.ImportStep and Dump.ImportJoin carry the same condition.
- Tree.SetJoins: excludes a `set` that compacts at "/", where it is false (Tree.SetAtFilesystemRootLoses). Tree.SetMonotone carries the same condition. Tree.SetKeepingGet keeps every time without it.
- Grove.ArgLe: follows pathlib from Python 3.12 on, which compares `str(p).split("/")`. Python 3.10 and 3.11 compare `["/"] + parts` for absolute paths, which puts a relative path whose first name sorts below "/" (for example `-x`) before the absolute ones.
- Paths.ParsePath: reads any run of leading slashes as "/". pathlib keeps exactly two leading slashes as a root of their own.

## Findings

| source | as written | input that shows it | evidently intended | confidence | as-written member | corrected member |
|---|---|---|---|---|---|---|
| treestamps/tree/load.py:46 with treestamps/tree/init.py:49-52 | A relative key of a document is made absolute against the process's working directory, and is kept when that lands inside the document's tree. | A store rooted at /r holds only /r/n. Its document has the key `n`. Loading it with working directory /r/sub stores the time at /r/sub/n, and /r/n has no time. From a working directory above the root the keys go astray too: with root /h/u/p and working directory /h/u, the key `p/f` of /h/u/p/p/f lands on /h/u/p/f. | Keys are relative to the directory of the document they were written in, as `_serialize_timestamps` wrote them. | not executed | Load.LoadMapAsWritten, Load.LoadFromSubdirectoryMisplaces, Load.Loadf, Paths.KeysResolveExactly | Load.LoadMap, Load.LoadMapPlacesUnderDocument |
| treestamps/tree/set.py:44-48 | The log key is quoted only when it contains ':'. | A file named `'x` at the root, set to time 5, is logged as `- 'x: 5`. The reader takes the leading quote as opening a quoted scalar that never closes. | A key is written plain only when YAML reads it back as itself, and quoted otherwise. | not executed | Wal.KeyTextAsWritten, Wal.WalLineAsWrittenReadsBack, Wal.LeadingQuoteCounterexample | Wal.KeyText, Wal.WalLineRoundTrip |
| treestamps/tree/set.py:16-32 with treestamps/tree/get.py:23 | Compaction below a directory drops entries older than the directory's entry, but `get` never counts an entry at "/". | A store rooted at "/" holds only /a at time 5. `set("/", 9, compact=True)` records 9 at "/" and drops /a, so `get("/a")` goes from 5 to None. | Compaction never changes the time `get` reports. It does not compact below "/". | not executed | Timestamps.Compact, Timestamps.CompactAtFilesystemRootLoses, Tree.Set, Tree.SetAtFilesystemRootLoses | Timestamps.CompactKeepingGet, Timestamps.CompactPreservesAllGets, Tree.SetKeepingGet |
| treestamps/grove.py:71-76 with treestamps/tree/load.py:110-120 and treestamps/tree/dump.py:31-41 | Each tree of a grove consumes, and on dump deletes, the documents below it, even when another tree of the same grove writes one of them. | Paths [/x/f, /x/y], with /x/y a directory that already holds a document. The trees are /x/y, then /x. The tree for /x consumed /x/y's document, so dumping the grove writes that document and then deletes it. | Dumping a grove leaves every tree's document on disk. | not executed | Grove.DumpGroveAsWritten, Grove.GroveDumpLosesChildDocument, Grove.LastTreeDeletesDocument | Grove.DumpGrove, Grove.DumpGroveChanges |

=== FILE: config.dfy ===
/**
  The configuration records of treestamps/config.py and
  treestamps/tree/config.py: `__post_init__` turns `ignore` and
  `program_config_keys` into sets, filters `program_config` down to the
  allowed keys and normalises it; `get_config_dict` is the
  `{ignore, symlinks}` block that gates stored documents.
 */
module Config {
  import opened Ordering
  import opened Values
  import opened Normalize
  import opened Paths

  /** The fields of a `CommonConfig` once `__post_init__` has run. */
  datatype CommonConfig = CommonConfig(
    programName: string,
    verbose: int,
    symlinks: bool,
    ignore: set<string>,
    checkConfig: bool,
    programConfig: Value,          // Null for None, otherwise a mapping
    programConfigKeys: set<string>)

  /** A `TreestampsConfig`: the common fields and the path the tree is for. */
  datatype TreeConfig = TreeConfig(common: CommonConfig, path: PathArg)

  /** The declared type `Mapping | None` of `program_config`. */
  predicate IsConfigValue(v: Value) {
    v.Null? || v.Map?
  }

  /** `filter(lambda pair: pair[0] in keys, items)`. */
  function FilterEntries(es: seq<Entry>, keys: set<string>): (r: seq<Entry>)
    ensures forall e :: e in r <==> e in es && e.key in keys
    ensures Keys(r) == Keys(es) * keys
  {
    if es == [] then []
    else
      var rest := FilterEntries(es[1..], keys);
      assert es == [es[0]] + es[1..];
      (if es[0].key in keys then [es[0]] else []) + rest
  }

  /**
    The key filter of `__post_init__`: a truthy config is cut down to the
    allowed keys when there are any; an empty config, None, or an empty key
    set leave the config as it is.
   */
  function FilterProgramConfig(pc: Value, keys: set<string>): (r: Value)
    requires IsConfigValue(pc)
    ensures IsConfigValue(r) && (r.Null? <==> pc.Null?)
    ensures !Truthy(pc) || keys == {} ==> r == pc
    ensures Truthy(pc) && keys != {} ==>
              r.Map? && Keys(r.entries) == Keys(pc.entries) * keys
              && forall e :: e in r.entries <==> e in pc.entries && e.key in keys
  {
    if Truthy(pc) && keys != {} then Map(FilterEntries(pc.entries, keys)) else pc
  }

  /** The keys a post-initialised mapping config may have. */
  function AllowedKeys(pc: Value, keys: set<string>): set<string>
    requires pc.Map?
  {
    if Truthy(pc) && keys != {} then Keys(pc.entries) * keys else Keys(pc.entries)
  }

  /** `CommonConfig(...)` followed by `__post_init__`. */
  function MakeCommonConfig(
    programName: string, verbose: int, symlinks: bool, ignore: seq<string>,
    checkConfig: bool, programConfig: Value, programConfigKeys: seq<string>): (r: CommonConfig)
    requires IsConfigValue(programConfig)
    ensures r.programName == programName && r.verbose == verbose && r.symlinks == symlinks
    ensures r.checkConfig == checkConfig
    ensures r.ignore == (set s | s in ignore)
    ensures r.programConfigKeys == (set s | s in programConfigKeys)
    ensures IsConfigValue(r.programConfig) && IsNormal(r.programConfig)
    ensures r.programConfig.Null? <==> programConfig.Null?
    ensures r.programConfig.Map? ==>
              Keys(r.programConfig.entries) == AllowedKeys(programConfig, r.programConfigKeys)
    ensures r.programConfig.Map? ==>
              forall e :: e in r.programConfig.entries ==>
                exists v :: Entry(e.key, v) in programConfig.entries && e.value == Normalize.Normalize(v)
    ensures PostInitialised(r)
  {
    var keys := set s | s in programConfigKeys;
    var filtered := FilterProgramConfig(programConfig, keys);
    var pc := Normalize.Normalize(filtered);
    NormalizeIsNormal(filtered);
    FilteredValues(filtered, programConfig);
    CommonConfig(programName, verbose, symlinks, (set s | s in ignore), checkConfig, pc, keys)
  }

  /**
    Normalising a mapping cut down from `pc` keeps its keys, and each value
    it holds is the normalised value of an entry of `pc` under that key.
   */
  lemma FilteredValues(filtered: Value, pc: Value)
    requires filtered.Map? ==> pc.Map? && forall e :: e in filtered.entries ==> e in pc.entries
    ensures filtered.Map? ==> Keys(Normalize.Normalize(filtered).entries) == Keys(filtered.entries)
    ensures filtered.Map? ==>
              forall e :: e in Normalize.Normalize(filtered).entries ==>
                exists v :: Entry(e.key, v) in pc.entries && e.value == Normalize.Normalize(v)
  {
    if filtered.Map? {
      NormalizeMapKeys(filtered.entries);
      NormalizeMapValues(filtered.entries);
      forall e | e in Normalize.Normalize(filtered).entries
        ensures exists v :: Entry(e.key, v) in pc.entries && e.value == Normalize.Normalize(v)
      {
        var i :| 0 <= i < |filtered.entries| && filtered.entries[i].key == e.key
                 && e.value == Normalize.Normalize(filtered.entries[i].value);
        assert filtered.entries[i] in pc.entries;
        assert Entry(e.key, filtered.entries[i].value) == filtered.entries[i];
      }
    }
  }

  /** What `__post_init__` guarantees of the stored fields. */
  predicate PostInitialised(c: CommonConfig) {
    && IsConfigValue(c.programConfig)
    && IsNormal(c.programConfig)
    && (c.programConfig.Map? && Truthy(c.programConfig) && c.programConfigKeys != {} ==>
          Keys(c.programConfig.entries) <= c.programConfigKeys)
  }

  /** Order and repetition in `ignore` and `program_config_keys` do not matter. */
  lemma PostInitSetsOnly(
    programName: string, verbose: int, symlinks: bool, ignore1: seq<string>, ignore2: seq<string>,
    checkConfig: bool, programConfig: Value, keys1: seq<string>, keys2: seq<string>)
    requires IsConfigValue(programConfig)
    requires forall s :: s in ignore1 <==> s in ignore2
    requires forall s :: s in keys1 <==> s in keys2
    ensures MakeCommonConfig(programName, verbose, symlinks, ignore1, checkConfig, programConfig, keys1)
         == MakeCommonConfig(programName, verbose, symlinks, ignore2, checkConfig, programConfig, keys2)
  {
    assert (set s | s in ignore1) == (set s | s in ignore2);
    assert (set s | s in keys1) == (set s | s in keys2);
  }

  lemma {:induction false} FilterKeepsAllowed(es: seq<Entry>, keys: set<string>)
    requires Keys(es) <= keys
    ensures FilterEntries(es, keys) == es
  {
    if es != [] {
      assert es[0].key in Keys(es);
      assert Keys(es[1..]) <= Keys(es) by {
        forall k | k in Keys(es[1..]) ensures k in Keys(es) {
          var e :| e in es[1..] && e.key == k;
          assert e in es;
        }
      }
      FilterKeepsAllowed(es[1..], keys);
      assert es == [es[0]] + es[1..];
    }
  }

  /** A set as the sequence a caller would pass in. */
  function Listed(s: set<string>): (r: seq<string>)
    ensures forall x :: x in r <==> x in s
  {
    StrLeTotal();
    SortedElements(s, StrLe)
  }

  /**
    Running `__post_init__` again on the fields of a post-initialised
    config gives the same config back; the grove relies on this when it
    builds each tree's config from its own fields.
   */
  lemma PostInitIdempotent(c: CommonConfig)
    requires PostInitialised(c)
    ensures MakeCommonConfig(c.programName, c.verbose, c.symlinks, Listed(c.ignore),
                             c.checkConfig, c.programConfig, Listed(c.programConfigKeys)) == c
  {
    var keys := set s | s in Listed(c.programConfigKeys);
    assert keys == c.programConfigKeys;
    assert (set s | s in Listed(c.ignore)) == c.ignore;
    var pc := c.programConfig;
    if Truthy(pc) && keys != {} {
      FilterKeepsAllowed(pc.entries, keys);
    }
    assert FilterProgramConfig(pc, keys) == pc;
    NormalFixpoint(pc);
  }

  /*
    The `{ignore, symlinks}` block of treestamps/tree/config.py.
  */

  const IgnoreKey: string := "ignore"
  const SymlinksKey: string := "symlinks"

  /** The frozenset `ignore` as a set value: its strings in ascending order. */
  function IgnoreValue(ignore: set<string>): (r: Value)
    ensures r.Set? && (forall x :: x in r.elems <==> exists s :: s in ignore && x == Str(s))
    ensures IsNormal(r)
  {
    StrLeTotal();
    var ss := SortedElements(ignore, StrLe);
    StrsMembers(ss, ignore);
    StrsStrictlySorted(ss);
    Set(Strs(ss))
  }

  /** The string values of a sequence listing exactly the strings of `ignore`. */
  lemma StrsMembers(ss: seq<string>, ignore: set<string>)
    requires forall s :: s in ss <==> s in ignore
    ensures forall x :: x in Strs(ss) <==> exists s :: s in ignore && x == Str(s)
  {
    var vs := Strs(ss);
    forall x ensures x in vs <==> exists s :: s in ignore && x == Str(s) {
      if x in vs {
        var i :| 0 <= i < |vs| && vs[i] == x;
        assert ss[i] in ignore;
      }
      if exists s :: s in ignore && x == Str(s) {
        var s :| s in ignore && x == Str(s);
        var i :| 0 <= i < |ss| && ss[i] == s;
        assert vs[i] == x;
      }
    }
  }

  lemma StrOrder(a: string, b: string)
    ensures Le(Str(a), Str(b)) == StrLe(a, b)
  {
    assert ([4] + EncodeStr(a))[1..] == EncodeStr(a);
    assert ([4] + EncodeStr(b))[1..] == EncodeStr(b);
  }

  lemma StrsStrictlySorted(ss: seq<string>)
    requires StrictlySorted(ss, StrLe)
    ensures StrictlySorted(Strs(ss), Le)
  {
    var vs := Strs(ss);
    forall i, j | 0 <= i < j < |vs| ensures Le(vs[i], vs[j]) && vs[i] != vs[j] {
      StrOrder(ss[i], ss[j]);
    }
  }

  /** `get_config_dict`: exactly the keys "ignore" and "symlinks", with the config's own values. */
  function ConfigDict(c: CommonConfig): (r: Value)
    ensures r.Map? && Keys(r.entries) == {IgnoreKey, SymlinksKey}
    ensures |r.entries| == 2
    ensures r.entries[0] == Entry(IgnoreKey, IgnoreValue(c.ignore))
    ensures r.entries[1] == Entry(SymlinksKey, Bool(c.symlinks))
    ensures IsNormal(r)
  {
    assert IgnoreKey[0] == 'i' && SymlinksKey[0] == 's';
    TwoEntryMap(IgnoreKey, IgnoreValue(c.ignore), SymlinksKey, Bool(c.symlinks));
    Map([Entry(IgnoreKey, IgnoreValue(c.ignore)), Entry(SymlinksKey, Bool(c.symlinks))])
  }

  /** A mapping of two normal values whose keys differ in their first character, smaller first, is normal. */
  lemma TwoEntryMap(k1: string, v1: Value, k2: string, v2: Value)
    requires k1 != [] && k2 != [] && k1[0] < k2[0]
    requires IsNormal(v1) && IsNormal(v2)
    ensures Keys([Entry(k1, v1), Entry(k2, v2)]) == {k1, k2}
    ensures IsNormal(Map([Entry(k1, v1), Entry(k2, v2)]))
  {
    var es := [Entry(k1, v1), Entry(k2, v2)];
    assert es[0] in es && es[1] in es;
    EntryLeByFirstChar(k1, v1, k2, v2);
  }

  /** Items whose keys differ in their first character are ordered by it. */
  lemma EntryLeByFirstChar(k1: string, v1: Value, k2: string, v2: Value)
    requires k1 != [] && k2 != [] && k1[0] < k2[0]
    ensures EntryLe(Entry(k1, v1), Entry(k2, v2))
  {
    var a, b := EncodeEntry(Entry(k1, v1)), EncodeEntry(Entry(k2, v2));
    assert a == [1] + (EncodeStr(k1) + Encode(v1));
    assert b == [1] + (EncodeStr(k2) + Encode(v2));
    assert a[1..] == EncodeStr(k1) + Encode(v1) && b[1..] == EncodeStr(k2) + Encode(v2);
  }

  /** Distinct ignore sets give distinct set values. */
  lemma IgnoreValueInjective(a: set<string>, b: set<string>)
    requires IgnoreValue(a) == IgnoreValue(b)
    ensures a == b
  {
    forall s | s in a ensures s in b {
      assert Str(s) in IgnoreValue(b).elems;
    }
    forall s | s in b ensures s in a {
      assert Str(s) in IgnoreValue(a).elems;
    }
  }

  /** The block determines the two fields it is made from, and is determined by them. */
  lemma ConfigDictFields(a: CommonConfig, b: CommonConfig)
    ensures ConfigDict(a) == ConfigDict(b) <==> a.ignore == b.ignore && a.symlinks == b.symlinks
  {
    var x, y := ConfigDict(a), ConfigDict(b);
    if x == y {
      assert x.entries[0] == y.entries[0] && x.entries[1] == y.entries[1];
      IgnoreValueInjective(a.ignore, b.ignore);
    }
  }

  /** `TreestampsConfig(...)`: the common post-initialisation, then `Path(path)`. */
  function MakeTreeConfig(
    programName: string, verbose: int, symlinks: bool, ignore: seq<string>,
    checkConfig: bool, programConfig: Value, programConfigKeys: seq<string>, path: string): (r: TreeConfig)
    requires IsConfigValue(programConfig)
    ensures PostInitialised(r.common)
    ensures r.common.ignore == (set s | s in ignore)
    ensures ValidPath(r.path.parts) && (r.path.absolute <==> path != [] && path[0] == '/')
  {
    TreeConfig(
      MakeCommonConfig(programName, verbose, symlinks, ignore, checkConfig, programConfig, programConfigKeys),
      ParsePath(path))
  }
}

=== FILE: docs.dfy ===
/**
  The dictionary operations treestamps/tree/load.py and
  treestamps/tree/dump.py apply to a document: a mapping is a sequence of
  entries in insertion order, `pop` and `update` are the dict methods, and
  the write-ahead log is replayed as a sequence of `update`s.
 */
module Documents {
  import opened Optional
  import opened Values

  /** No key occurs twice: what a dict holds. */
  predicate UniqueKeys(es: seq<Entry>) {
    forall i, j :: 0 <= i < j < |es| ==> es[i].key != es[j].key
  }

  /** `d.get(k)`: the value of the first entry with key `k`. */
  function Find(es: seq<Entry>, k: string): (r: Option<Value>)
    ensures r.Some? ==> Entry(k, r.value) in es
  {
    if es == [] then None
    else if es[0].key == k then Some(es[0].value)
    else Find(es[1..], k)
  }

  /** `k in d`: `Find` finds exactly the keys of the mapping. */
  lemma {:induction false} FindKeys(es: seq<Entry>, k: string)
    ensures Find(es, k).Some? <==> k in Keys(es)
  {
    if es != [] {
      assert es == [es[0]] + es[1..];
      assert Keys(es) == {es[0].key} + Keys(es[1..]);
      FindKeys(es[1..], k);
    }
  }

  /** In a dict, the entry holding a key is the one `Find` returns. */
  lemma {:induction false} FindUnique(es: seq<Entry>, k: string, v: Value)
    requires UniqueKeys(es) && Entry(k, v) in es
    ensures Find(es, k) == Some(v)
  {
    if es[0] != Entry(k, v) {
      assert es[0].key != k;
      assert Entry(k, v) in es[1..];
      FindUnique(es[1..], k, v);
    }
  }

  /** `d.get(k, default)`. */
  function FindOr(es: seq<Entry>, k: string, default: Value): (r: Value)
    ensures Find(es, k).None? ==> r == default
    ensures Find(es, k).Some? ==> Entry(k, r) in es
  {
    match Find(es, k)
    case None => default
    case Some(v) => v
  }

  /** Looking a key up in two mappings one after the other. */
  lemma {:induction false} FindAppend(a: seq<Entry>, b: seq<Entry>, k: string)
    ensures Find(a + b, k) == if Find(a, k).Some? then Find(a, k) else Find(b, k)
  {
    if a == [] {
      assert a + b == b;
    } else {
      assert (a + b)[0] == a[0] && (a + b)[1..] == a[1..] + b;
      if a[0].key != k {
        FindAppend(a[1..], b, k);
      }
    }
  }

  /** The first entry of a mapping and the rest. */
  lemma Cons(e: Entry, es: seq<Entry>)
    ensures ([e] + es)[0] == e && ([e] + es)[1..] == es
    ensures forall j :: Find([e] + es, j) == if e.key == j then Some(e.value) else Find(es, j)
  {
    assert ([e] + es)[1..] == es;
  }

  /** A mapping with one entry in front is a dict when the rest is and lacks its key. */
  lemma ConsUnique(e: Entry, es: seq<Entry>)
    ensures UniqueKeys([e] + es) <==> Find(es, e.key).None? && UniqueKeys(es)
  {
    var r := [e] + es;
    FindKeys(es, e.key);
    if Find(es, e.key).None? && UniqueKeys(es) {
      forall i, j | 0 <= i < j < |r| ensures r[i].key != r[j].key {
        if i == 0 {
          assert r[j] == es[j - 1];
          assert r[j] in es;
        } else {
          assert r[i] == es[i - 1] && r[j] == es[j - 1];
        }
      }
    }
    if UniqueKeys(r) {
      forall i, j | 0 <= i < j < |es| ensures es[i].key != es[j].key {
        assert es[i] == r[i + 1] && es[j] == r[j + 1];
      }
      forall x | x in es ensures x.key != e.key {
        var i :| 0 <= i < |es| && es[i] == x;
        assert r[i + 1] == x && r[0] == e;
      }
    }
  }

  /** `d[k] = v`: replaces the value in place, or appends a new entry. */
  function Put(es: seq<Entry>, k: string, v: Value): (r: seq<Entry>)
    ensures Find(r, k) == Some(v)
    ensures forall j :: j != k ==> Find(r, j) == Find(es, j)
    ensures Find(es, k).None? ==> r == es + [Entry(k, v)]
    ensures UniqueKeys(es) ==> UniqueKeys(r)
  {
    if es == [] then
      ConsUnique(Entry(k, v), []);
      [Entry(k, v)]
    else if es[0].key == k then
      Cons(es[0], es[1..]);
      Cons(Entry(k, v), es[1..]);
      ConsUnique(es[0], es[1..]);
      ConsUnique(Entry(k, v), es[1..]);
      assert es == [es[0]] + es[1..];
      [Entry(k, v)] + es[1..]
    else
      var rest := Put(es[1..], k, v);
      PutStep(es[0], es[1..], k, v, rest);
      assert es == [es[0]] + es[1..];
      [es[0]] + rest
  }

  /** `Put` past a first entry with another key. */
  lemma PutStep(e: Entry, tail: seq<Entry>, k: string, v: Value, rest: seq<Entry>)
    requires e.key != k
    requires Find(rest, k) == Some(v)
    requires forall j :: j != k ==> Find(rest, j) == Find(tail, j)
    requires Find(tail, k).None? ==> rest == tail + [Entry(k, v)]
    requires UniqueKeys(tail) ==> UniqueKeys(rest)
    ensures Find([e] + rest, k) == Some(v)
    ensures forall j :: j != k ==> Find([e] + rest, j) == Find([e] + tail, j)
    ensures Find([e] + tail, k).None? ==> [e] + rest == [e] + tail + [Entry(k, v)]
    ensures UniqueKeys([e] + tail) ==> UniqueKeys([e] + rest)
  {
    Cons(e, tail);
    Cons(e, rest);
    if UniqueKeys([e] + tail) {
      ConsUnique(e, tail);
      ConsUnique(e, rest);
    }
  }

  /** `d.pop(k, ...)` as it leaves the dict: every entry with key `k` is gone, in order otherwise. */
  function Remove(es: seq<Entry>, k: string): (r: seq<Entry>)
    ensures Find(r, k) == None
    ensures forall j :: j != k ==> Find(r, j) == Find(es, j)
    ensures Find(es, k).None? ==> r == es
    ensures UniqueKeys(es) ==> UniqueKeys(r)
    ensures forall e :: e in r <==> e in es && e.key != k
  {
    if es == [] then []
    else
      var rest := Remove(es[1..], k);
      Cons(es[0], es[1..]);
      assert es == [es[0]] + es[1..];
      if es[0].key == k then
        ConsUnique(es[0], es[1..]);
        rest
      else
        RemoveStep(es[0], es[1..], k, rest);
        [es[0]] + rest
  }

  /** `Remove` past a first entry with another key. */
  lemma RemoveStep(e: Entry, tail: seq<Entry>, k: string, rest: seq<Entry>)
    requires e.key != k
    requires Find(rest, k) == None
    requires forall j :: j != k ==> Find(rest, j) == Find(tail, j)
    requires Find(tail, k).None? ==> rest == tail
    requires UniqueKeys(tail) ==> UniqueKeys(rest)
    requires forall x :: x in rest <==> x in tail && x.key != k
    ensures Find([e] + rest, k) == None
    ensures forall j :: j != k ==> Find([e] + rest, j) == Find([e] + tail, j)
    ensures Find([e] + tail, k).None? ==> [e] + rest == [e] + tail
    ensures UniqueKeys([e] + tail) ==> UniqueKeys([e] + rest)
    ensures forall x :: x in [e] + rest <==> x in [e] + tail && x.key != k
  {
    Cons(e, tail);
    Cons(e, rest);
    if UniqueKeys([e] + tail) {
      ConsUnique(e, tail);
      ConsUnique(e, rest);
    }
  }

  /** Removing a key appended last gives the mapping from before. */
  lemma {:induction false} RemoveAppended(es: seq<Entry>, k: string, v: Value)
    requires Find(es, k).None?
    ensures Remove(es + [Entry(k, v)], k) == es
  {
    if es != [] {
      assert (es + [Entry(k, v)])[1..] == es[1..] + [Entry(k, v)];
      RemoveAppended(es[1..], k, v);
      assert es == [es[0]] + es[1..];
    }
  }

  /** `d.pop(k, default)`: the value (or the default) and the mapping without `k`. */
  function Pop(es: seq<Entry>, k: string, default: Value): (r: (Value, seq<Entry>))
    ensures Find(es, k).None? ==> r == (default, es)
    ensures Find(es, k).Some? ==> Entry(k, r.0) in es
    ensures forall e :: e in r.1 <==> e in es && e.key != k
  {
    (FindOr(es, k, default), Remove(es, k))
  }

  /** The value of the last entry with key `k`: the one a run of assignments leaves. */
  function FindLast(m: seq<Entry>, k: string): (r: Option<Value>)
    ensures r.Some? ==> Entry(k, r.value) in m
  {
    if m == [] then None
    else
      var init := m[..|m| - 1];
      assert m == init + [m[|m| - 1]];
      if m[|m| - 1].key == k then Some(m[|m| - 1].value)
      else FindLast(init, k)
  }

  /** `d.update(m)`: the entries of `m` assigned one after another. */
  function Update(es: seq<Entry>, m: seq<Entry>): (r: seq<Entry>)
    ensures forall k :: Find(r, k) == if FindLast(m, k).Some? then FindLast(m, k) else Find(es, k)
    ensures UniqueKeys(es) ==> UniqueKeys(r)
    decreases |m|
  {
    if m == [] then es
    else Put(Update(es, m[..|m| - 1]), m[|m| - 1].key, m[|m| - 1].value)
  }

  /** In a dict, the last key does not occur before it. */
  lemma UniqueLastFresh(m: seq<Entry>)
    requires m != [] && UniqueKeys(m)
    ensures Find(m[..|m| - 1], m[|m| - 1].key).None?
  {
    var init := m[..|m| - 1];
    FindKeys(init, m[|m| - 1].key);
    forall e | e in init ensures e.key != m[|m| - 1].key {
      var i :| 0 <= i < |init| && init[i] == e;
      assert m[i] == e;
    }
  }

  /** `update` with keys the mapping lacks appends them in order. */
  lemma {:induction false} UpdateFresh(es: seq<Entry>, m: seq<Entry>)
    requires forall e :: e in m ==> Find(es, e.key).None?
    requires UniqueKeys(m)
    ensures Update(es, m) == es + m
    decreases |m|
  {
    if m != [] {
      var init := m[..|m| - 1];
      var last := m[|m| - 1];
      assert m == init + [last];
      assert UniqueKeys(init);
      UpdateFresh(es, init);
      assert Find(init, last.key).None? by {
        UniqueLastFresh(m);
      }
      assert Find(es + init, last.key).None? by {
        FindAppend(es, init, last.key);
      }
      assert es + init + [last] == es + m;
    }
  }

  /*
    Replaying the write-ahead log.
  */

  /**
    One item of the `wal` list: `entries.update(item)`.  A mapping is
    applied; any other item changes nothing, as when `update` raises and
    the error is reported.  A list of pairs, which `update` would apply,
    is not modelled: it changes nothing here too.
   */
  function ApplyWalItem(es: seq<Entry>, item: Value): (r: seq<Entry>)
    ensures !item.Map? ==> r == es
  {
    if item.Map? then Update(es, item.entries) else es
  }

  /** The loop `for wal_entry in wal: entries.update(wal_entry)`. */
  function Replay(es: seq<Entry>, items: seq<Value>): (r: seq<Entry>)
    ensures UniqueKeys(es) ==> UniqueKeys(r)
    decreases |items|
  {
    if items == [] then es
    else ApplyWalItem(Replay(es, items[..|items| - 1]), items[|items| - 1])
  }

  /** The log item writes a value for key `k`. */
  predicate Writes(item: Value, k: string) {
    item.Map? && FindLast(item.entries, k).Some?
  }

  /** A key no log item writes keeps its value from the document. */
  lemma {:induction false} ReplayUnwritten(es: seq<Entry>, items: seq<Value>, k: string)
    requires forall i :: 0 <= i < |items| ==> !Writes(items[i], k)
    ensures Find(Replay(es, items), k) == Find(es, k)
    decreases |items|
  {
    if items != [] {
      ReplayUnwritten(es, items[..|items| - 1], k);
    }
  }

  /** Last write wins: a key takes the value the last log item writing it gives it. */
  lemma {:induction false} ReplayLastWriteWins(es: seq<Entry>, items: seq<Value>, k: string, i: int)
    requires 0 <= i < |items| && Writes(items[i], k)
    requires forall j :: i < j < |items| ==> !Writes(items[j], k)
    ensures Find(Replay(es, items), k) == FindLast(items[i].entries, k)
    decreases |items|
  {
    if i < |items| - 1 {
      ReplayLastWriteWins(es, items[..|items| - 1], k, i);
    }
  }

  /** An empty log leaves the document as it is. */
  lemma ReplayNothing(es: seq<Entry>)
    ensures Replay(es, []) == es
  {
  }
}

=== FILE: dump.dfy ===
/**
  Writing a store out (treestamps/tree/dump.py, treestamps/tree/write.py):
  the table as keys relative to the root, the configuration blocks merged
  over them, the log closed, and the consumed files deleted.  A document is
  the mapping the YAML writer is given; the text it emits is not modelled.
 */
module Dump {
  import opened Optional
  import opened Ordering
  import opened Values
  import opened Paths
  import opened Config
  import opened Fs
  import opened Timestamps
  import opened Tree
  import opened Documents
  import opened Load

  /*
    Serialisation.
  */

  /** The paths of the table inside the tree, in path order. */
  function TreePaths(t: Table, root: AbsPath): (r: seq<AbsPath>)
    ensures forall p :: p in r <==> p in t && IsRelativeTo(p, root)
    ensures forall i, j :: 0 <= i < j < |r| ==> r[i] != r[j]
  {
    PathLeTotal();
    SortedElements((set p | p in t && IsRelativeTo(p, root)), PathLe)
  }

  /** The entries of the table inside the tree: `Inside(t, root)`. */
  function Inside(t: Table, root: AbsPath): (r: Table)
    ensures forall p :: p in r <==> p in t && IsRelativeTo(p, root)
    ensures forall p :: p in r ==> r[p] == t[p]
  {
    map p | p in t && IsRelativeTo(p, root) :: t[p]
  }

  /**
    The loop of `_serialize_timestamps` over `ps`: each path's relative key
    is assigned its time in the dict `acc`.
   */
  function SerializeInto(acc: seq<Entry>, t: Table, root: AbsPath, ps: seq<AbsPath>): (r: seq<Entry>)
    requires forall i :: 0 <= i < |ps| ==> ps[i] in t && IsRelativeTo(ps[i], root)
    ensures UniqueKeys(acc) ==> UniqueKeys(r)
    decreases |ps|
  {
    if ps == [] then acc
    else SerializeInto(Put(acc, RelativePathStr(ps[0], root), Int(t[ps[0]])), t, root, ps[1..])
  }

  /** `_serialize_timestamps`: entries outside the tree have no relative key and are skipped. */
  function Serialize(s: Store): (r: seq<Entry>)
    ensures UniqueKeys(r)
  {
    var ps := TreePaths(s.timestamps, s.rootDir);
    SerializeInto([], s.timestamps, s.rootDir, ps)
  }

  /** One entry per path, in order. */
  function Entries(t: Table, root: AbsPath, ps: seq<AbsPath>): (r: seq<Entry>)
    requires forall i :: 0 <= i < |ps| ==> ps[i] in t && IsRelativeTo(ps[i], root)
    ensures |r| == |ps|
    ensures forall i :: 0 <= i < |ps| ==> r[i] == Entry(RelativePathStr(ps[i], root), Int(t[ps[i]]))
    decreases |ps|
  {
    if ps == [] then [] else [Entry(RelativePathStr(ps[0], root), Int(t[ps[0]]))] + Entries(t, root, ps[1..])
  }

  /** Every path of the table inside the tree is a list of proper components, as pathlib keeps them. */
  predicate ValidKeys(s: Store) {
    forall p :: p in s.timestamps && IsRelativeTo(p, s.rootDir) ==> ValidPath(p)
  }

  /** Appending an entry under another key leaves a missing key missing. */
  lemma FindAfterAppend(acc: seq<Entry>, e: Entry, k: string)
    requires Find(acc, k).None? && k != e.key
    ensures Find(acc + [e], k).None?
  {
    FindAppend(acc, [e], k);
    Cons(e, []);
    assert [e] + [] == [e];
  }

  /** Paths of the table inside the tree, each a list of proper components. */
  predicate Listed(t: Table, root: AbsPath, ps: seq<AbsPath>) {
    forall i :: 0 <= i < |ps| ==> ps[i] in t && IsRelativeTo(ps[i], root) && ValidPath(ps[i])
  }

  /** No path occurs twice. */
  predicate Distinct(ps: seq<AbsPath>) {
    forall i, j :: 0 <= i < j < |ps| ==> ps[i] != ps[j]
  }

  /** No path's key is in the document yet. */
  predicate KeysMissing(acc: seq<Entry>, root: AbsPath, ps: seq<AbsPath>)
    requires forall i :: 0 <= i < |ps| ==> IsRelativeTo(ps[i], root)
  {
    forall i :: 0 <= i < |ps| ==> Find(acc, RelativePathStr(ps[i], root)).None?
  }

  /** Distinct paths of the tree give distinct keys, so no assignment replaces another. */
  lemma {:induction false} SerializeIntoFresh(acc: seq<Entry>, t: Table, root: AbsPath, ps: seq<AbsPath>)
    requires Listed(t, root, ps) && Distinct(ps) && KeysMissing(acc, root, ps)
    ensures SerializeInto(acc, t, root, ps) == acc + Entries(t, root, ps)
    decreases |ps|
  {
    if ps == [] {
      assert acc + [] == acc;
    } else {
      var e := Entry(RelativePathStr(ps[0], root), Int(t[ps[0]]));
      var acc1 := acc + [e];
      SerializeIntoStep(acc, t, root, ps);
      SerializeIntoFreshTail(acc, t, root, ps);
      SerializeIntoFresh(acc1, t, root, ps[1..]);
      AppendAssoc(acc, [e], Entries(t, root, ps[1..]));
    }
  }

  lemma AppendAssoc(a: seq<Entry>, b: seq<Entry>, c: seq<Entry>)
    ensures a + (b + c) == (a + b) + c
  {
  }

  /** One step of the fold and of the entries: the first path's entry is appended. */
  lemma SerializeIntoStep(acc: seq<Entry>, t: Table, root: AbsPath, ps: seq<AbsPath>)
    requires ps != [] && Listed(t, root, ps)
    requires Find(acc, RelativePathStr(ps[0], root)).None?
    ensures var e := Entry(RelativePathStr(ps[0], root), Int(t[ps[0]]));
            && SerializeInto(acc, t, root, ps) == SerializeInto(acc + [e], t, root, ps[1..])
            && Entries(t, root, ps) == [e] + Entries(t, root, ps[1..])
  {
  }

  /** Dropping the first path keeps the paths listed and distinct. */
  lemma ListedTail(t: Table, root: AbsPath, ps: seq<AbsPath>)
    requires ps != [] && Listed(t, root, ps) && Distinct(ps)
    ensures Listed(t, root, ps[1..]) && Distinct(ps[1..])
    ensures forall i :: 0 <= i < |ps[1..]| ==> ps[1..][i] == ps[i + 1] && ps[i + 1] != ps[0]
  {
  }

  /** After the first entry is appended, the rest still meets the fold's conditions. */
  lemma SerializeIntoFreshTail(acc: seq<Entry>, t: Table, root: AbsPath, ps: seq<AbsPath>)
    requires ps != [] && Listed(t, root, ps) && Distinct(ps) && KeysMissing(acc, root, ps)
    ensures Find(acc, RelativePathStr(ps[0], root)).None?
    ensures Listed(t, root, ps[1..]) && Distinct(ps[1..])
    ensures KeysMissing(acc + [Entry(RelativePathStr(ps[0], root), Int(t[ps[0]]))], root, ps[1..])
  {
    var e := Entry(RelativePathStr(ps[0], root), Int(t[ps[0]]));
    ListedTail(t, root, ps);
    forall i | 0 <= i < |ps[1..]| ensures Find(acc + [e], RelativePathStr(ps[1..][i], root)).None? {
      var k := RelativePathStr(ps[i + 1], root);
      if k == e.key {
        RelativePathStrInjective(ps[i + 1], ps[0], root);
      }
      FindAfterAppend(acc, e, k);
    }
  }

  /** With proper components, the document holds one entry per path of the tree, in path order. */
  lemma SerializeExact(s: Store)
    requires ValidKeys(s)
    ensures var ps := TreePaths(s.timestamps, s.rootDir);
            Serialize(s) == Entries(s.timestamps, s.rootDir, ps)
  {
    TreePathsListed(s);
    SerializeIntoFresh([], s.timestamps, s.rootDir, TreePaths(s.timestamps, s.rootDir));
  }

  /** The sorted paths of the tree are listed, distinct, and cover exactly the entries inside it. */
  lemma TreePathsListed(s: Store)
    requires ValidKeys(s)
    ensures var ps := TreePaths(s.timestamps, s.rootDir);
            && Listed(s.timestamps, s.rootDir, ps) && Distinct(ps)
            && Collect(s.timestamps, ps) == Inside(s.timestamps, s.rootDir)
  {
  }

  /** Every path of the table inside the tree is written under its relative key with its own time. */
  lemma SerializeFinds(s: Store, p: AbsPath)
    requires ValidKeys(s)
    requires p in s.timestamps && IsRelativeTo(p, s.rootDir)
    ensures Find(Serialize(s), RelativePathStr(p, s.rootDir)) == Some(Int(s.timestamps[p]))
  {
    var ps := TreePaths(s.timestamps, s.rootDir);
    SerializeExact(s);
    var i :| 0 <= i < |ps| && ps[i] == p;
    var es := Entries(s.timestamps, s.rootDir, ps);
    assert es[i] in es;
    FindUnique(es, RelativePathStr(p, s.rootDir), Int(s.timestamps[p]));
  }

  /** Every key written is the relative key of a path of the table inside the tree. */
  lemma SerializeKeys(s: Store, k: string)
    requires ValidKeys(s)
    requires Find(Serialize(s), k).Some?
    ensures exists p :: p in s.timestamps && IsRelativeTo(p, s.rootDir) && RelativePathStr(p, s.rootDir) == k
  {
    var ps := TreePaths(s.timestamps, s.rootDir);
    var es := Serialize(s);
    SerializeExact(s);
    var e := Entry(k, Find(es, k).value);
    assert e in es;
    var i :| 0 <= i < |es| && es[i] == e;
    assert ps[i] in ps;
  }

  /*
    The configuration blocks.
  */

  /** A one-entry mapping, looked up from the front or from the back. */
  lemma OneEntry(a: Entry)
    ensures UniqueKeys([a])
    ensures forall k :: Find([a], k) == (if a.key == k then Some(a.value) else None)
    ensures forall k :: FindLast([a], k) == Find([a], k)
    ensures forall e :: e in [a] ==> e.key == a.key
  {
    assert [a][1..] == [] && [a][..0] == [];
  }

  /** A two-entry mapping of distinct keys, looked up from the front or from the back. */
  lemma TwoEntries(a: Entry, b: Entry)
    requires a.key != b.key
    ensures UniqueKeys([a, b])
    ensures forall k :: Find([a, b], k) == (if a.key == k then Some(a.value) else if b.key == k then Some(b.value) else None)
    ensures forall k :: FindLast([a, b], k) == Find([a, b], k)
    ensures forall e :: e in [a, b] ==> e.key == a.key || e.key == b.key
  {
    assert [a, b][1..] == [b] && [a, b][..1] == [a];
    OneEntry(a);
    OneEntry(b);
  }

  /**
    `_get_dumpable_program_config`: the `config` block when the program
    configuration is not None, then the `treestamps_config` block.
   */
  function DumpableConfig(c: CommonConfig): (r: seq<Entry>)
    ensures UniqueKeys(r) && r != []
    ensures Find(r, TreestampsConfigTag) == Some(ConfigDict(c))
    ensures Find(r, ConfigTag) == if c.programConfig.Null? then None else Some(c.programConfig)
    ensures forall k :: k != ConfigTag && k != TreestampsConfigTag ==> Find(r, k).None?
    ensures forall k :: FindLast(r, k) == Find(r, k)
    ensures forall e :: e in r ==> e.key == ConfigTag || e.key == TreestampsConfigTag
  {
    var ts := Entry(TreestampsConfigTag, ConfigDict(c));
    if c.programConfig.Null? then
      OneEntry(ts);
      [ts]
    else
      var pc := Entry(ConfigTag, c.programConfig);
      assert ConfigTag != TreestampsConfigTag by {
        assert |ConfigTag| != |TreestampsConfigTag|;
      }
      TwoEntries(pc, ts);
      [pc, ts]
  }

  /**
    `_prepare_dump`: the configuration blocks are merged over the document,
    replacing any entry of the same key, and the log is closed.
   */
  function PrepareDump(s: Store, yaml: seq<Entry>): (r: (Store, seq<Entry>))
    ensures r.0 == s.(walOpen := false)
    ensures Find(r.1, TreestampsConfigTag) == Some(ConfigDict(s.config.common))
    ensures Find(r.1, ConfigTag) == if s.config.common.programConfig.Null? then Find(yaml, ConfigTag)
                                    else Some(s.config.common.programConfig)
    ensures forall k :: k != ConfigTag && k != TreestampsConfigTag ==> Find(r.1, k) == Find(yaml, k)
    ensures UniqueKeys(yaml) ==> UniqueKeys(r.1)
  {
    (CloseWal(s), Update(yaml, DumpableConfig(s.config.common)))
  }

  /** `dumps`: the merged document; the store's consumed files stay on disk. */
  function Dumps(s: Store, yaml: seq<Entry>): (r: (Store, Value))
    ensures r.0 == s.(walOpen := false)
    ensures r.0.consumed == s.consumed
    ensures r.1 == Map(PrepareDump(s, yaml).1)
  {
    var (s1, doc) := PrepareDump(s, yaml);
    (s1, Map(doc))
  }

  /** `_dumpf(yaml, path)` and `_dump_to_file(path, yaml)`: the merged document is written at `path`. */
  function DumpToFile(s: Store, fs: FileSystem, path: AbsPath, yaml: seq<Entry>): (r: (Store, FileSystem))
    ensures r.0 == s.(walOpen := false)
    ensures path in r.1.files && r.1.files[path] == Map(PrepareDump(s, yaml).1)
    ensures r.1 == fs.(files := r.1.files)
    ensures forall f :: f != path ==> (f in r.1.files <==> f in fs.files)
    ensures forall f :: f != path && f in fs.files ==> r.1.files[f] == fs.files[f]
  {
    var prepared := PrepareDump(s, yaml);
    (prepared.0, Write(fs, path, Map(prepared.1)))
  }

  /** A file written with a value: that file holds it, no other file changes. */
  function Write(fs: FileSystem, path: AbsPath, v: Value): (r: FileSystem)
    ensures r == fs.(files := r.files)
    ensures path in r.files && r.files[path] == v
    ensures forall f :: f != path ==> (f in r.files <==> f in fs.files)
    ensures forall f :: f != path && f in fs.files ==> r.files[f] == fs.files[f]
  {
    fs.(files := fs.files[path := v])
  }

  /*
    Cleanup.
  */

  /**
    `cleanup_old_timestamps`: every consumed file but the store's own
    document is deleted, a missing one tolerated, and nothing is consumed
    any more.
   */
  function Cleanup(s: Store, fs: FileSystem): (r: (Store, FileSystem))
    ensures r.0 == s.(consumed := {})
    ensures r.1 == fs.(files := r.1.files)
    ensures s.consumed == {} ==> r.1 == fs
    ensures forall f :: f in r.1.files <==> f in fs.files && (f !in s.consumed || f == s.dumpPath)
    ensures forall f :: f in r.1.files ==> r.1.files[f] == fs.files[f]
  {
    if s.consumed == {} then (s, fs)
    else
      var deleted := s.consumed - {s.dumpPath};
      (s.(consumed := {}), fs.(files := map f | f in fs.files && f !in deleted :: fs.files[f]))
  }

  /** Cleaning up twice deletes nothing more. */
  lemma CleanupIdempotent(s: Store, fs: FileSystem)
    ensures var r := Cleanup(s, fs);
            Cleanup(r.0, r.1) == r
  {
  }

  /** `dumpf`: the serialised table is written at the dump path, then the consumed files are deleted. */
  function Dumpf(s: Store, fs: FileSystem): (r: (Store, FileSystem))
    ensures r.0 == s.(walOpen := false, consumed := {})
    ensures r.1 == fs.(files := r.1.files)
    ensures s.dumpPath in r.1.files
    ensures r.1.files[s.dumpPath] == Map(PrepareDump(s, Serialize(s)).1)
    ensures forall f :: f in r.1.files <==> f == s.dumpPath || (f in fs.files && f !in s.consumed)
    ensures forall f :: f in r.1.files && f != s.dumpPath ==> r.1.files[f] == fs.files[f]
  {
    var (s1, fs1) := DumpToFile(s, fs, s.dumpPath, Serialize(s));
    Cleanup(s1, fs1)
  }

  /**
    Loading a tree and dumping it deletes exactly the files the walk down
    the tree consumed, and never the store's own document.
   */
  lemma DumpAfterLoadDeletesFound(s: Store, env: Env)
    requires s.consumed == {}
    ensures var r := Dumpf(LoadTree(s, env), env.fs).1;
            && s.dumpPath in r.files
            && forall f :: f != s.dumpPath ==> (f in r.files <==> f in env.fs.files && f !in Found(env, s, s.rootDir))
  {
  }

  /*
    The round trip.
  */

  /** A key that `load_map` pops before importing. */
  predicate Reserved(k: string) {
    k == ConfigTag || k == TreestampsConfigTag || k == WalTag
  }

  /** The entries of the table at the paths `ps`. */
  function Collect(t: Table, ps: seq<AbsPath>): (r: Table)
    ensures forall p :: p in r <==> p in t && p in ps
    ensures forall p :: p in r ==> r[p] == t[p]
  {
    map p | p in t && p in ps :: t[p]
  }

  /** The store's own blocks after entries without them: the blocks are what is found under their keys. */
  lemma FindOwnBlocks(c: CommonConfig, es: seq<Entry>)
    requires Find(es, ConfigTag).None? && Find(es, TreestampsConfigTag).None?
    ensures Find(es + DumpableConfig(c), TreestampsConfigTag) == Some(ConfigDict(c))
    ensures Find(es + DumpableConfig(c), ConfigTag) == if c.programConfig.Null? then None else Some(c.programConfig)
  {
    FindAppend(es, DumpableConfig(c), TreestampsConfigTag);
    FindAppend(es, DumpableConfig(c), ConfigTag);
  }

  /** Removing two appended keys, the later first, leaves what they were appended to. */
  lemma RemoveAppendedPair(es: seq<Entry>, x: Entry, y: Entry)
    requires x.key != y.key && Find(es, x.key).None? && Find(es, y.key).None?
    ensures Remove(Remove(es + [x, y], y.key), x.key) == es
  {
    assert es + [x, y] == (es + [x]) + [y];
    assert Find(es + [x], y.key).None? by {
      FindAppend(es, [x], y.key);
      OneEntry(x);
    }
    RemoveAppended(es + [x], y.key, y.value);
    RemoveAppended(es, x.key, x.value);
  }

  /** Removing an appended key and then an absent one leaves what it was appended to. */
  lemma RemoveAppendedThenAbsent(es: seq<Entry>, y: Entry, k: string)
    requires Find(es, y.key).None? && Find(es, k).None?
    ensures Remove(Remove(es + [y], y.key), k) == es
  {
    RemoveAppended(es, y.key, y.value);
  }

  /** Removing the two block keys from entries followed by the store's own blocks leaves the entries. */
  lemma RemoveOwnBlocks(c: CommonConfig, es: seq<Entry>)
    requires Find(es, ConfigTag).None? && Find(es, TreestampsConfigTag).None?
    ensures Remove(Remove(es + DumpableConfig(c), TreestampsConfigTag), ConfigTag) == es
  {
    var ts := Entry(TreestampsConfigTag, ConfigDict(c));
    if c.programConfig.Null? {
      RemoveAppendedThenAbsent(es, ts, ConfigTag);
    } else {
      assert ConfigTag != TreestampsConfigTag by {
        assert |ConfigTag| != |TreestampsConfigTag|;
      }
      RemoveAppendedPair(es, Entry(ConfigTag, c.programConfig), ts);
    }
  }

  /** The configuration gate passes a document carrying the store's own blocks after its entries, and pops exactly them. */
  lemma PopOwnBlocks(c: CommonConfig, es: seq<Entry>)
    requires PostInitialised(c)
    requires Find(es, ConfigTag).None? && Find(es, TreestampsConfigTag).None?
    ensures PopConfigMatches(c, es + DumpableConfig(c)) == (true, es)
  {
    FindOwnBlocks(c, es);
    GateAcceptsOwnBlocks(c, es + DumpableConfig(c));
    PopConfigMatchesRest(c, es + DumpableConfig(c));
    RemoveOwnBlocks(c, es);
  }

  /**
    A dict of entries without the block keys, with the store's own blocks
    merged over it, passes the gate and goes on to the log and the import.
   */
  lemma LoadOwnDocument(s: Store, base: AbsPath, docDir: AbsPath, es: seq<Entry>)
    requires PostInitialised(s.config.common) && UniqueKeys(es)
    requires Find(es, ConfigTag).None? && Find(es, TreestampsConfigTag).None?
    ensures LoadMapWith(s, base, docDir, Map(Update(es, DumpableConfig(s.config.common))))
              == ReplayAndImport(s, base, docDir, es)
  {
    var c := s.config.common;
    var cfg := DumpableConfig(c);
    var doc := Update(es, cfg);
    assert doc == es + cfg by {
      UpdateFresh(es, cfg);
    }
    PopOwnBlocks(c, es);
    GatePassed(s, base, docDir, doc, es);
  }

  /**
    Importing one serialised entry into a store of the same tree joins its
    time into every path it governs and changes the time of no other path.
   */
  lemma ImportStep(s: Store, cwd: AbsPath, p: AbsPath, ts: int, q: AbsPath)
    requires IsRelativeTo(p, s.rootDir) && ValidPath(p) && KeysResolveFrom(cwd, s.rootDir)
    ensures var r := ImportOne(s, cwd, s.rootDir, Entry(RelativePathStr(p, s.rootDir), Int(ts)));
            Timestamps.Get(r.timestamps, q)
              == if Governs(p, q) then MaxNone(Timestamps.Get(s.timestamps, q), Some(ts))
                 else Timestamps.Get(s.timestamps, q)
  {
    var root := s.rootDir;
    var t := s.timestamps;
    var key := RelativePathStr(p, root);
    ResolveRelativeKey(cwd, root, p);
    assert Tree.Get(s, cwd, PathArg(true, p)) == Timestamps.Get(t, p);
    var r := ImportOne(s, cwd, root, Entry(key, Int(ts)));
    var prior := Timestamps.Get(t, p);
    if prior.None? || ts > prior.value {
      assert r.timestamps == t[p := ts];
      assert p != [] && p in t ==> t[p] <= ts by {
        if p != [] && p in t {
          assert Governs(p, p);
        }
      }
      GetAfterPut(t, p, ts, q);
    } else {
      assert r.timestamps == t;
      if Governs(p, q) {
        GetGrowsDownwards(t, p, q);
      }
    }
  }

  /** Joining a time in before or after another join gives the same. */
  lemma MaxNoneShift(a: Option<int>, c: Option<int>, x: Option<int>, g: bool)
    ensures MaxNone(if g then MaxNone(a, x) else a, c) == MaxNone(a, if g then MaxNone(c, x) else c)
  {
  }

  /** The paths of a sequence of distinct paths: the first one added to those of the rest. */
  lemma CollectCons(t: Table, ps: seq<AbsPath>)
    requires ps != [] && ps[0] in t && Distinct(ps)
    ensures ps[0] !in Collect(t, ps[1..])
    ensures Collect(t, ps) == Collect(t, ps[1..])[ps[0] := t[ps[0]]]
  {
    assert forall i :: 0 <= i < |ps[1..]| ==> ps[1..][i] == ps[i + 1];
    forall p ensures p in ps <==> p == ps[0] || p in ps[1..] {
      assert ps == [ps[0]] + ps[1..];
    }
  }

  /**
    Importing the entries of distinct paths of the tree joins, path by
    path, the times those entries give with the times the store had.
   */
  lemma {:induction false} ImportJoin(s: Store, cwd: AbsPath, t: Table, ps: seq<AbsPath>, q: AbsPath)
    requires Listed(t, s.rootDir, ps) && Distinct(ps) && KeysResolveFrom(cwd, s.rootDir)
    ensures var r := ImportAll(s, cwd, s.rootDir, Entries(t, s.rootDir, ps));
            Timestamps.Get(r.timestamps, q)
              == MaxNone(Timestamps.Get(s.timestamps, q), Timestamps.Get(Collect(t, ps), q))
    decreases |ps|
  {
    var root := s.rootDir;
    var es := Entries(t, root, ps);
    if ps == [] {
      assert Collect(t, ps) == map[];
    } else {
      var p, rest := ps[0], ps[1..];
      assert es[1..] == Entries(t, root, rest);
      var s1 := ImportOne(s, cwd, root, es[0]);
      assert ImportAll(s, cwd, root, es) == ImportAll(s1, cwd, root, es[1..]);
      ImportStep(s, cwd, p, t[p], q);
      ListedTail(t, root, ps);
      ImportJoin(s1, cwd, t, rest, q);
      var c := Collect(t, rest);
      CollectCons(t, ps);
      GetAfterPut(c, p, t[p], q);
      MaxNoneShift(Timestamps.Get(s.timestamps, q), Timestamps.Get(c, q), Some(t[p]), Governs(p, q));
    }
  }

  /** The document `dumpf` writes, loaded from the dump path by a process working in `cwd`. */
  function Reload(s: Store, fs: FileSystem, cwd: AbsPath, loader: Store): (r: Store)
    ensures r == loader.(timestamps := r.timestamps)
    ensures Grows(loader, r)
  {
    Loadf(loader, Dumpf(s, fs).1, cwd, s.dumpPath)
  }

  /**
    Reloading the dump into a store of the same configuration goes past the
    gate to the serialised entries, resolved against the working directory.
   */
  lemma ReloadPassesGate(s: Store, fs: FileSystem, cwd: AbsPath, loader: Store)
    requires Valid(s) && ValidKeys(s) && loader.config == s.config
    requires Find(Serialize(s), ConfigTag).None? && Find(Serialize(s), TreestampsConfigTag).None?
    ensures Reload(s, fs, cwd, loader) == ReplayAndImport(loader, cwd, s.rootDir, Serialize(s))
  {
    assert Parent(s.dumpPath) == s.rootDir;
    LoadOwnDocument(loader, cwd, s.rootDir, Serialize(s));
  }

  /** A serialised table without keys named like the blocks leaves none of them for the reader. */
  lemma SerializeUnreserved(s: Store)
    requires ValidKeys(s)
    requires forall p :: p in s.timestamps && IsRelativeTo(p, s.rootDir) ==> !Reserved(RelativePathStr(p, s.rootDir))
    ensures forall k :: Reserved(k) ==> Find(Serialize(s), k).None?
  {
    forall k | Reserved(k) ensures Find(Serialize(s), k).None? {
      if Find(Serialize(s), k).Some? {
        SerializeKeys(s, k);
      }
    }
  }

  /** With no key named like a block, the reloaded store is the empty-table store after importing the serialised entries. */
  lemma ReloadImports(s: Store, fs: FileSystem, cwd: AbsPath)
    requires Valid(s) && ValidKeys(s)
    requires forall p :: p in s.timestamps && IsRelativeTo(p, s.rootDir) ==> !Reserved(RelativePathStr(p, s.rootDir))
    ensures var loader := s.(timestamps := map[]);
            Reload(s, fs, cwd, loader) == ImportAll(loader, cwd, s.rootDir, Serialize(s))
  {
    var loader := s.(timestamps := map[]);
    SerializeUnreserved(s);
    ReloadPassesGate(s, fs, cwd, loader);
  }

  /**
    Dump then load: a store of the same tree and configuration with an
    empty table, loading the document `dumpf` wrote, gives every path the
    time the entries inside the tree gave it.  Keys named like the three
    blocks `load_map` pops are excluded, and the loading process works in
    the root or outside the root's line (`Paths.KeysResolveExactly` shows
    that any other working directory misplaces some key).
   */
  lemma DumpLoadRoundTrip(s: Store, fs: FileSystem, cwd: AbsPath)
    requires Valid(s) && ValidKeys(s) && KeysResolveFrom(cwd, s.rootDir)
    requires forall p :: p in s.timestamps && IsRelativeTo(p, s.rootDir) ==> !Reserved(RelativePathStr(p, s.rootDir))
    ensures var r := Reload(s, fs, cwd, s.(timestamps := map[]));
            forall q :: Timestamps.Get(r.timestamps, q) == Timestamps.Get(Inside(s.timestamps, s.rootDir), q)
  {
    var root := s.rootDir;
    var t := s.timestamps;
    var loader := s.(timestamps := map[]);
    var ps := TreePaths(t, root);
    ReloadImports(s, fs, cwd);
    SerializeExact(s);
    TreePathsListed(s);
    forall q ensures Timestamps.Get(Reload(s, fs, cwd, loader).timestamps, q) == Timestamps.Get(Inside(t, root), q) {
      ImportJoin(loader, cwd, t, ps, q);
    }
  }

  /** When every entry lies inside the tree, dump then load gives every path its time. */
  lemma DumpLoadRoundTripInside(s: Store, fs: FileSystem, cwd: AbsPath)
    requires Valid(s) && ValidKeys(s) && KeysResolveFrom(cwd, s.rootDir)
    requires forall p :: p in s.timestamps ==> IsRelativeTo(p, s.rootDir) && !Reserved(RelativePathStr(p, s.rootDir))
    ensures var r := Reload(s, fs, cwd, s.(timestamps := map[]));
            forall q :: Timestamps.Get(r.timestamps, q) == Timestamps.Get(s.timestamps, q)
  {
    DumpLoadRoundTrip(s, fs, cwd);
    assert Inside(s.timestamps, s.rootDir) == s.timestamps;
  }

  /**
    Why the round trip excludes the block names: a time recorded for the
    root-level path "wal" is written under the key "wal", which `load_map`
    pops as the log; an integer cannot be iterated, so nothing of the
    document is imported.
   */
  lemma WalNamedPathLosesDocument(s: Store, fs: FileSystem, cwd: AbsPath, ts: int)
    requires Valid(s) && ValidPath(s.rootDir)
    requires s.timestamps == map[s.rootDir + [WalTag] := ts]
    ensures Timestamps.Get(s.timestamps, s.rootDir + [WalTag]) == Some(ts)
    ensures Reload(s, fs, cwd, s.(timestamps := map[])).timestamps == map[]
  {
    var p := s.rootDir + [WalTag];
    assert Governs(p, p);
    var e := Entry(WalTag, Int(ts));
    SerializeWalOnly(s, ts);
    OneEntry(e);
    ReloadPassesGate(s, fs, cwd, s.(timestamps := map[]));
  }

  /** A listing without repeats whose only member is `p` is `[p]`. */
  lemma OnlyPath(ps: seq<AbsPath>, p: AbsPath)
    requires forall q :: q in ps <==> q == p
    requires forall i, j :: 0 <= i < j < |ps| ==> ps[i] != ps[j]
    ensures ps == [p]
  {
    assert p in ps;
    forall i | 0 <= i < |ps| ensures ps[i] == p {
      assert ps[i] in ps;
    }
    assert ps[0] == ps[|ps| - 1];
  }

  /** A table holding only the root-level path "wal" serialises to the single entry "wal". */
  lemma SerializeWalOnly(s: Store, ts: int)
    requires ValidPath(s.rootDir)
    requires s.timestamps == map[s.rootDir + [WalTag] := ts]
    ensures ValidKeys(s)
    ensures Serialize(s) == [Entry(WalTag, Int(ts))]
  {
    var root := s.rootDir;
    var t := s.timestamps;
    var p := root + [WalTag];
    assert ValidKeys(s);
    var ps := TreePaths(t, root);
    OnlyPath(ps, p);
    assert RelativeTo(p, root) == [WalTag];
    assert RelativePathStr(p, root) == WalTag;
    SerializeExact(s);
  }
}

=== FILE: fs.dfy ===
/**
  The filesystem as the tree store sees it: which absolute paths are
  directories, which are regular files (with the mapping a YAML reader
  would make of them), which are symlinks; the working directory; and
  `Path.match`, left uninterpreted.
 */
module Fs {
  import opened Ordering
  import opened Values
  import opened Paths
  import opened Config

  datatype FileSystem = FileSystem(
    dirs: set<AbsPath>,
    files: map<AbsPath, Value>,    // a file the reader cannot parse holds Null
    links: set<AbsPath>)

  datatype Env = Env(fs: FileSystem, cwd: AbsPath, matches: (AbsPath, string) -> bool)

  /** `_is_path_skipped`: an ignore glob matches, or the path is a symlink that is not allowed. */
  predicate Skipped(env: Env, c: CommonConfig, p: AbsPath): (r: bool)
    ensures !c.symlinks && p in env.fs.links ==> r
    ensures (exists g :: g in c.ignore && env.matches(p, g)) ==> r
    ensures r && (c.symlinks || p !in env.fs.links) ==> exists g :: g in c.ignore && env.matches(p, g)
    ensures c.ignore == {} && (c.symlinks || p !in env.fs.links) ==> !r
  {
    (exists g :: g in c.ignore && env.matches(p, g)) || (!c.symlinks && p in env.fs.links)
  }

  /** `Path(path).parent` of a possibly relative path; the parent of "." is ".". */
  function ArgParent(p: PathArg): (r: PathArg)
    ensures r.absolute == p.absolute
    ensures p.parts != [] ==> r.parts + [p.parts[|p.parts| - 1]] == p.parts
    ensures p.parts == [] ==> r == p
  {
    PathArg(p.absolute, if p.parts == [] then [] else p.parts[..|p.parts| - 1])
  }

  /** `get_dir`: a directory stands for itself, anything else for its parent. */
  function GetDir(env: Env, p: PathArg): (r: PathArg)
    ensures Absolute(env.cwd, p) in env.fs.dirs ==> r == p
    ensures Absolute(env.cwd, p) !in env.fs.dirs ==> r == ArgParent(p)
  {
    if Absolute(env.cwd, p) in env.fs.dirs then p else ArgParent(p)
  }

  /** A file named next to a directory is served by that directory. */
  lemma GetDirOfFileInDir(env: Env, dir: PathArg, name: string)
    requires Absolute(env.cwd, dir) in env.fs.dirs
    requires Absolute(env.cwd, PathArg(dir.absolute, dir.parts + [name])) !in env.fs.dirs
    ensures GetDir(env, PathArg(dir.absolute, dir.parts + [name])) == GetDir(env, dir) == dir
  {
    var f := PathArg(dir.absolute, dir.parts + [name]);
    assert f.parts[..|f.parts| - 1] == dir.parts;
  }

  /** The directories strictly below `p`. */
  function Below(fs: FileSystem, p: AbsPath): set<AbsPath> {
    set d | d in fs.dirs && p <= d && |p| < |d|
  }

  /** The directories directly inside `p`, as `iterdir` lists them, in path order. */
  function ChildDirs(fs: FileSystem, p: AbsPath): (r: seq<AbsPath>)
    ensures forall c :: c in r <==> c in fs.dirs && p <= c && |c| == |p| + 1
    ensures forall i :: 0 <= i < |r| ==> r[i] in Below(fs, p)
  {
    PathLeTotal();
    SortedElements((set c | c in fs.dirs && p <= c && |c| == |p| + 1), PathLe)
  }

  /** A directory inside `p` has fewer directories below it than `p` has. */
  lemma BelowShrinks(fs: FileSystem, p: AbsPath, c: AbsPath)
    requires c in Below(fs, p)
    ensures Below(fs, c) < Below(fs, p)
    ensures |Below(fs, c)| < |Below(fs, p)|
  {
    var a, b := Below(fs, c), Below(fs, p);
    assert c in b && c !in a;
    forall d | d in a ensures d in b {
      assert d[..|p|] == c[..|c|][..|p|];
    }
    assert b == a + (b - a) && a * (b - a) == {};
    assert c in b - a;
  }
}

=== FILE: grove.dfy ===
/**
  `Grovestamps` (treestamps/grove.py): a dictionary of trees, one per
  distinct directory among the configured paths, built in the order the
  configuration lists the paths and dumped in that order.
 */
module Grove {
  import opened Ordering
  import opened Values
  import opened Paths
  import opened Config
  import opened Fs
  import opened Tree
  import opened Load
  import opened Dump

  /*
    The configured paths.
  */

  /**
    `str(p).split("/")`, the list pathlib compares paths by from Python 3.12
    on: "/" gives ["", ""], another absolute path "" and its components,
    "." gives ["."], another relative path its components.  Absolute paths
    therefore come before relative ones.
   */
  function SortKey(p: PathArg): (r: seq<string>)
    ensures r != [] && (p.absolute ==> |r| >= 2)
    ensures ValidPath(p.parts) ==> (r[0] == "" <==> p.absolute)
    ensures ValidPath(p.parts) && p.absolute ==> (r[1] == "" <==> p.parts == [])
    ensures p.absolute && p.parts != [] ==> p.parts == r[1..]
    ensures ValidPath(p.parts) && !p.absolute ==> (r == ["."] <==> p.parts == [])
    ensures !p.absolute && p.parts != [] ==> p.parts == r
  {
    if p.absolute then (if p.parts == [] then ["", ""] else [""] + p.parts)
    else if p.parts == [] then ["."] else p.parts
  }

  /** Paths with proper components have distinct sort keys. */
  lemma SortKeyInjective(a: PathArg, b: PathArg)
    requires ValidPath(a.parts) && ValidPath(b.parts) && SortKey(a) == SortKey(b)
    ensures a == b
  {
  }

  /**
    The code of a path: its sort key's, then its own, which only decides
    between paths whose keys agree.
   */
  function ArgCode(p: PathArg): seq<int> {
    EncodeSeq(Strs(SortKey(p))) + ([if p.absolute then 1 else 0] + EncodeSeq(Strs(p.parts)))
  }

  /**
    The order `sorted` puts the configured paths in: paths whose sort keys
    differ are ordered as their keys are, component by component.
   */
  function ArgLe(a: PathArg, b: PathArg): (r: bool)
    ensures SortKey(a) != SortKey(b) ==> (r <==> PathLe(SortKey(a), SortKey(b)))
  {
    ArgCodeBySortKey(a, b);
    LexLe(ArgCode(a), ArgCode(b))
  }

  lemma ArgLeTotal()
    ensures TotalOrder(ArgLe)
  {
    LexTotal();
    forall a, b | ArgLe(a, b) && ArgLe(b, a) ensures a == b {
      var fa, fb := if a.absolute then 1 else 0, if b.absolute then 1 else 0;
      assert ArgCode(a) == ArgCode(b);
      EncodeSeqPrefixFree(Strs(SortKey(a)), Strs(SortKey(b)),
                          [fa] + EncodeSeq(Strs(a.parts)), [fb] + EncodeSeq(Strs(b.parts)));
      SplitEqual([fa], EncodeSeq(Strs(a.parts)), [fb], EncodeSeq(Strs(b.parts)));
      EncodeSeqPrefixFree(Strs(a.parts), Strs(b.parts), [], []);
      StrsInjective(a.parts, b.parts);
    }
  }

  /** The codes of paths with different sort keys compare as their keys do. */
  lemma ArgCodeBySortKey(a: PathArg, b: PathArg)
    ensures SortKey(a) != SortKey(b) ==> (LexLe(ArgCode(a), ArgCode(b)) <==> PathLe(SortKey(a), SortKey(b)))
  {
    if SortKey(a) == SortKey(b) {
      return;
    }
    var ka, kb := Strs(SortKey(a)), Strs(SortKey(b));
    if ka == kb {
      StrsInjective(SortKey(a), SortKey(b));
    }
    EncodeSeqNoPrefix(ka, kb);
    EncodeSeqNoPrefix(kb, ka);
    var x, y := EncodeSeq(ka), EncodeSeq(kb);
    LexLeAppend(x, y, [if a.absolute then 1 else 0] + EncodeSeq(Strs(a.parts)),
                [if b.absolute then 1 else 0] + EncodeSeq(Strs(b.parts)));
    assert Encode(List(ka)) == [5] + x && Encode(List(kb)) == [5] + y;
    assert ([5] + x)[1..] == x && ([5] + y)[1..] == y;
  }

  /** `path.is_dir()`, relative paths taken from the working directory. */
  predicate IsDirArg(env: Env, p: PathArg) {
    Absolute(env.cwd, p) in env.fs.dirs
  }

  /** A path survives the symlink filter: symlinks are allowed, or it is not one. */
  predicate Kept(env: Env, c: CommonConfig, p: PathArg) {
    c.symlinks || Absolute(env.cwd, p) !in env.fs.links
  }

  /** `GrovestampsConfig` after `__post_init__`. */
  datatype GroveConfig = GroveConfig(common: CommonConfig, paths: seq<PathArg>)

  /**
    `GrovestampsConfig.__post_init__` on the paths: symlinks dropped unless
    allowed, duplicates dropped, the directories in order, then the other
    paths in order.
   */
  function OrderPaths(env: Env, c: CommonConfig, inputs: seq<PathArg>): (r: seq<PathArg>)
    ensures forall p :: p in r <==> p in inputs && Kept(env, c, p)
    ensures forall i, j :: 0 <= i < j < |r| ==> r[i] != r[j]
    ensures forall i, j :: 0 <= i < j < |r| && IsDirArg(env, r[j]) ==> IsDirArg(env, r[i])
    ensures forall i, j :: 0 <= i < j < |r| && IsDirArg(env, r[i]) == IsDirArg(env, r[j]) ==> ArgLe(r[i], r[j])
  {
    ArgLeTotal();
    var dirs := SortedElements(DirsOf(env, c, inputs), ArgLe);
    var files := SortedElements(FilesOf(env, c, inputs), ArgLe);
    OrderedRuns(env, c, inputs, dirs, files);
    dirs + files
  }

  lemma OrderedRuns(env: Env, c: CommonConfig, inputs: seq<PathArg>, dirs: seq<PathArg>, files: seq<PathArg>)
    requires forall p :: p in dirs <==> p in DirsOf(env, c, inputs)
    requires forall p :: p in files <==> p in FilesOf(env, c, inputs)
    requires StrictlySorted(dirs, ArgLe) && StrictlySorted(files, ArgLe)
    ensures var r := dirs + files;
            && (forall p :: p in r <==> p in inputs && Kept(env, c, p))
            && (forall i, j :: 0 <= i < j < |r| ==> r[i] != r[j])
            && (forall i, j :: 0 <= i < j < |r| && IsDirArg(env, r[j]) ==> IsDirArg(env, r[i]))
            && (forall i, j :: 0 <= i < j < |r| && IsDirArg(env, r[i]) == IsDirArg(env, r[j]) ==> ArgLe(r[i], r[j]))
  {
    assert forall i :: 0 <= i < |dirs| ==> dirs[i] in DirsOf(env, c, inputs);
    assert forall i :: 0 <= i < |files| ==> files[i] in FilesOf(env, c, inputs);
    DirsThenFiles(env, dirs, files);
  }

  /** The kept directories among the inputs. */
  function DirsOf(env: Env, c: CommonConfig, inputs: seq<PathArg>): set<PathArg> {
    set p | p in inputs && Kept(env, c, p) && IsDirArg(env, p)
  }

  /** The kept paths among the inputs that are not directories. */
  function FilesOf(env: Env, c: CommonConfig, inputs: seq<PathArg>): set<PathArg> {
    set p | p in inputs && Kept(env, c, p) && !IsDirArg(env, p)
  }

  /** Two sorted runs, directories then the rest, concatenated. */
  lemma DirsThenFiles(env: Env, dirs: seq<PathArg>, files: seq<PathArg>)
    requires forall i :: 0 <= i < |dirs| ==> IsDirArg(env, dirs[i])
    requires forall i :: 0 <= i < |files| ==> !IsDirArg(env, files[i])
    requires StrictlySorted(dirs, ArgLe) && StrictlySorted(files, ArgLe)
    ensures var r := dirs + files;
            && (forall i, j :: 0 <= i < j < |r| ==> r[i] != r[j])
            && (forall i, j :: 0 <= i < j < |r| && IsDirArg(env, r[j]) ==> IsDirArg(env, r[i]))
            && (forall i, j :: 0 <= i < j < |r| && IsDirArg(env, r[i]) == IsDirArg(env, r[j]) ==> ArgLe(r[i], r[j]))
  {
    var r := dirs + files;
    forall i, j | 0 <= i < j < |r|
      ensures r[i] != r[j]
      ensures IsDirArg(env, r[j]) ==> IsDirArg(env, r[i])
      ensures IsDirArg(env, r[i]) == IsDirArg(env, r[j]) ==> ArgLe(r[i], r[j])
    {
      if j < |dirs| {
        assert r[i] == dirs[i] && r[j] == dirs[j];
      } else if i >= |dirs| {
        assert r[i] == files[i - |dirs|] && r[j] == files[j - |dirs|];
      } else {
        assert r[i] == dirs[i] && r[j] == files[j - |dirs|];
      }
    }
  }

  /** Ordering the paths a second time changes nothing. */
  lemma OrderPathsIdempotent(env: Env, c: CommonConfig, inputs: seq<PathArg>)
    ensures OrderPaths(env, c, OrderPaths(env, c, inputs)) == OrderPaths(env, c, inputs)
  {
    OrderPathsForgetsInputOrder(env, c, OrderPaths(env, c, inputs), inputs);
  }

  /** The ordered paths depend only on which paths were given, not on their order or repetition. */
  lemma OrderPathsForgetsInputOrder(env: Env, c: CommonConfig, a: seq<PathArg>, b: seq<PathArg>)
    requires forall p :: Kept(env, c, p) ==> (p in a <==> p in b)
    ensures OrderPaths(env, c, a) == OrderPaths(env, c, b)
  {
    assert DirsOf(env, c, a) == DirsOf(env, c, b);
    assert FilesOf(env, c, a) == FilesOf(env, c, b);
  }

  /*
    The trees.
  */

  /**
    `TreestampsConfig(**get_treestamps_config_dict(), path=top_path)`: the
    grove's fields without `paths`, through the common post-initialisation
    once more, with the path of the tree.
   */
  function TreeConfigFor(c: CommonConfig, top: PathArg): (r: TreeConfig)
    requires PostInitialised(c)
    ensures r.common == c && r.path == top
  {
    PostInitIdempotent(c);
    TreeConfig(MakeCommonConfig(c.programName, c.verbose, c.symlinks, Config.Listed(c.ignore),
                                c.checkConfig, c.programConfig, Config.Listed(c.programConfigKeys)), top)
  }

  /**
    One tree of the grove: `Treestamps(tree_config)` for `top`, then
    `load()`.  The rebuilt configuration is `TreeConfig(c, top)`, as
    `TreeConfigFor` shows.
   */
  function Planted(env: Env, c: CommonConfig, top: PathArg): (r: Store)
    requires PostInitialised(c)
    ensures Valid(r) && r.config == TreeConfig(c, top)
    ensures r.rootDir == Absolute(env.cwd, GetDir(env, top))
    ensures !r.walOpen
  {
    LoadTree(Init(env, TreeConfig(c, top)), env)
  }

  /** A tree of the grove writes its document in the directory it was made for. */
  lemma PlantedDumpPath(env: Env, c: CommonConfig, top: PathArg)
    requires PostInitialised(c)
    ensures Planted(env, c, top).dumpPath == Absolute(env.cwd, GetDir(env, top)) + [FileName(c.programName)]
  {
  }

  /** A tree of the grove has consumed every stamp file its walk down from its root found. */
  lemma PlantedConsumes(env: Env, c: CommonConfig, top: PathArg)
    requires PostInitialised(c)
    ensures var r := Planted(env, c, top);
            r.consumed == Found(env, Init(env, TreeConfig(c, top)), r.rootDir)
  {
  }

  /** The grove: its configuration, the directories in the order their trees were made, and the trees. */
  datatype Grove = Grove(config: GroveConfig, roots: seq<PathArg>, trees: map<PathArg, Store>)

  /** The index of the first path of `ps` whose directory is `k`; `|ps|` when there is none. */
  function FirstFor(env: Env, ps: seq<PathArg>, k: PathArg): (r: nat)
    ensures r <= |ps|
    ensures r < |ps| ==> GetDir(env, ps[r]) == k
    ensures forall j :: 0 <= j < r ==> GetDir(env, ps[j]) != k
    decreases |ps|
  {
    if ps == [] then 0
    else if GetDir(env, ps[0]) == k then 0
    else 1 + FirstFor(env, ps[1..], k)
  }

  /**
    What the loop of `Grovestamps.__init__` has decided after the first
    `n` paths: one tree per distinct `get_dir` of those paths, each for the
    first path with that directory, and the directories listed once each
    in the order their trees were made.
   */
  ghost predicate PlantedUpTo(env: Env, ps: seq<PathArg>, n: nat, roots: seq<PathArg>, tops: map<PathArg, PathArg>) {
    && (forall k :: k in tops <==> FirstFor(env, ps, k) < n)
    && (forall k :: k in roots <==> k in tops)
    && (forall i, j :: 0 <= i < j < |roots| ==> FirstFor(env, ps, roots[i]) < FirstFor(env, ps, roots[j]))
    && (forall k :: k in tops ==> FirstFor(env, ps, k) < |ps| && tops[k] == ps[FirstFor(env, ps, k)])
  }

  /**
    The loop of `Grovestamps.__init__` over the first `n` paths, as the
    directories in order and the path each directory's tree is made for.
   */
  function Plant(env: Env, ps: seq<PathArg>, n: nat): (r: (seq<PathArg>, map<PathArg, PathArg>))
    requires n <= |ps|
    ensures PlantedUpTo(env, ps, n, r.0, r.1)
  {
    if n == 0 then ([], map[])
    else
      var (roots, tops) := Plant(env, ps, n - 1);
      var k := GetDir(env, ps[n - 1]);
      if k in tops then
        PlantSeen(env, ps, n, roots, tops);
        (roots, tops)
      else
        PlantNew(env, ps, n, roots, tops);
        (roots + [k], tops[k := ps[n - 1]])
  }

  /** One more path whose directory has a tree already: nothing changes. */
  lemma PlantSeen(env: Env, ps: seq<PathArg>, n: nat, roots: seq<PathArg>, tops: map<PathArg, PathArg>)
    requires 0 < n <= |ps|
    requires PlantedUpTo(env, ps, n - 1, roots, tops)
    requires GetDir(env, ps[n - 1]) in tops
    ensures PlantedUpTo(env, ps, n, roots, tops)
  {
    FirstForLast(env, ps, n);
  }

  /** One more path whose directory has no tree yet: a tree for it, made last. */
  lemma PlantNew(env: Env, ps: seq<PathArg>, n: nat, roots: seq<PathArg>, tops: map<PathArg, PathArg>)
    requires 0 < n <= |ps|
    requires PlantedUpTo(env, ps, n - 1, roots, tops)
    requires GetDir(env, ps[n - 1]) !in tops
    ensures PlantedUpTo(env, ps, n, roots + [GetDir(env, ps[n - 1])], tops[GetDir(env, ps[n - 1]) := ps[n - 1]])
  {
    var k := GetDir(env, ps[n - 1]);
    FirstForLast(env, ps, n);
    assert forall i :: 0 <= i < |roots| ==> FirstFor(env, ps, roots[i]) < FirstFor(env, ps, k) by {
      forall i | 0 <= i < |roots| ensures FirstFor(env, ps, roots[i]) < FirstFor(env, ps, k) {
        assert roots[i] in tops;
      }
    }
    AppendOrdered(env, ps, roots, k);
  }

  /** A directory found after every listed one may be listed last. */
  lemma AppendOrdered(env: Env, ps: seq<PathArg>, roots: seq<PathArg>, k: PathArg)
    requires forall i, j :: 0 <= i < j < |roots| ==> FirstFor(env, ps, roots[i]) < FirstFor(env, ps, roots[j])
    requires forall i :: 0 <= i < |roots| ==> FirstFor(env, ps, roots[i]) < FirstFor(env, ps, k)
    ensures var rs := roots + [k];
            forall i, j :: 0 <= i < j < |rs| ==> FirstFor(env, ps, rs[i]) < FirstFor(env, ps, rs[j])
  {
    var rs := roots + [k];
    forall i, j | 0 <= i < j < |rs| ensures FirstFor(env, ps, rs[i]) < FirstFor(env, ps, rs[j]) {
      assert rs[i] == roots[i];
      if j < |roots| {
        assert rs[j] == roots[j];
      }
    }
  }

  /**
    `Grovestamps(config)`: a tree for each directory, made and loaded from
    the path the loop chose for it.  Loading one tree reads the filesystem
    and changes nothing another tree sees, so the trees can be made after
    the choice.
   */
  function New(env: Env, g: GroveConfig): (r: Grove)
    requires PostInitialised(g.common)
    ensures r.config == g
    ensures forall k :: k in r.trees <==> exists i :: 0 <= i < |g.paths| && GetDir(env, g.paths[i]) == k
    ensures forall k :: k in r.roots <==> k in r.trees
    ensures forall i, j :: 0 <= i < j < |r.roots| ==> FirstFor(env, g.paths, r.roots[i]) < FirstFor(env, g.paths, r.roots[j])
    ensures forall i, j :: 0 <= i < j < |r.roots| ==> r.roots[i] != r.roots[j]
    ensures forall k :: k in r.trees ==>
              FirstFor(env, g.paths, k) < |g.paths| && r.trees[k] == Planted(env, g.common, g.paths[FirstFor(env, g.paths, k)])
  {
    var (roots, tops) := Choose(env, g.paths);
    Grove(g, roots, Grow(env, g.common, tops))
  }

  /**
    The whole loop of `Grovestamps.__init__`: one directory for each
    distinct `get_dir` of the paths, listed once each in the order of the
    first path with that directory, and that first path chosen for it.
   */
  function Choose(env: Env, ps: seq<PathArg>): (r: (seq<PathArg>, map<PathArg, PathArg>))
    ensures forall k :: k in r.1 <==> exists i :: 0 <= i < |ps| && GetDir(env, ps[i]) == k
    ensures forall k :: k in r.0 <==> k in r.1
    ensures forall i, j :: 0 <= i < j < |r.0| ==> FirstFor(env, ps, r.0[i]) < FirstFor(env, ps, r.0[j])
    ensures forall k :: k in r.1 ==> FirstFor(env, ps, k) < |ps| && r.1[k] == ps[FirstFor(env, ps, k)]
  {
    FirstForFound(env, ps);
    Plant(env, ps, |ps|)
  }

  /** Each chosen path made into a loaded tree. */
  function Grow(env: Env, c: CommonConfig, tops: map<PathArg, PathArg>): (r: map<PathArg, Store>)
    requires PostInitialised(c)
    ensures r.Keys == tops.Keys
    ensures forall k :: k in r ==> r[k] == Planted(env, c, tops[k])
  {
    map k | k in tops :: Planted(env, c, tops[k])
  }

  /** `FirstFor` finds a path exactly when there is one. */
  lemma FirstForFound(env: Env, ps: seq<PathArg>)
    ensures forall k :: FirstFor(env, ps, k) < |ps| <==> exists i :: 0 <= i < |ps| && GetDir(env, ps[i]) == k
  {
    forall k ensures FirstFor(env, ps, k) < |ps| <==> exists i :: 0 <= i < |ps| && GetDir(env, ps[i]) == k {
      if exists i :: 0 <= i < |ps| && GetDir(env, ps[i]) == k {
        var i :| 0 <= i < |ps| && GetDir(env, ps[i]) == k;
        assert FirstFor(env, ps, k) <= i;
      }
    }
  }

  /** Taking one more path can only add the directory of that path. */
  lemma FirstForLast(env: Env, ps: seq<PathArg>, n: nat)
    requires 0 < n <= |ps|
    ensures FirstFor(env, ps, GetDir(env, ps[n - 1])) <= n - 1
    ensures forall k :: k != GetDir(env, ps[n - 1]) ==> (FirstFor(env, ps, k) < n <==> FirstFor(env, ps, k) < n - 1)
  {
  }

  /*
    Dumping.
  */

  /**
    What one tree's dump does to the files: the document `doc` is written
    at `path`, then the files the tree consumed are deleted, all but
    `path` itself.
   */
  datatype Job = Job(path: AbsPath, doc: Value, consumed: set<AbsPath>)

  /** The document a tree writes: its serialised table with its configuration blocks. */
  function Document(s: Store): Value {
    Map(PrepareDump(s, Serialize(s)).1)
  }

  function JobOf(s: Store): Job {
    Job(s.dumpPath, Document(s), s.consumed)
  }

  /** One tree's dump on the files, except that the files in `keep` are not deleted. */
  function RunJob(j: Job, fs: FileSystem, keep: set<AbsPath>): (r: FileSystem)
    ensures r == fs.(files := r.files)
    ensures j.path in r.files && r.files[j.path] == j.doc
    ensures forall f :: f in r.files <==> f == j.path || (f in fs.files && (f !in j.consumed || f in keep))
    ensures forall f :: f in r.files && f != j.path ==> r.files[f] == fs.files[f]
  {
    var written := fs.files[j.path := j.doc];
    fs.(files := map f | f in written && (f !in j.consumed || f == j.path || f in keep) :: written[f])
  }

  /** Sparing nothing, a tree's job is what its own `dumpf` does to the files. */
  lemma DumpfRunsJob(s: Store, fs: FileSystem)
    ensures Dumpf(s, fs).1 == RunJob(JobOf(s), fs, {})
  {
    var a, b := Dumpf(s, fs).1, RunJob(JobOf(s), fs, {});
    SameFiles(a, b);
  }

  /** Filesystems with the same directories and the same files holding the same values are equal. */
  lemma SameFiles(a: FileSystem, b: FileSystem)
    requires a == b.(files := a.files)
    requires forall f :: f in a.files <==> f in b.files
    requires forall f :: f in a.files ==> a.files[f] == b.files[f]
    ensures a == b
  {
    assert a.files == b.files;
  }

  /** No job of `js` writes `f`, and none deletes it: it is kept or none consumed it. */
  predicate Spared(js: seq<Job>, keep: set<AbsPath>, f: AbsPath) {
    forall j :: 0 <= j < |js| ==> js[j].path != f && (f !in js[j].consumed || f in keep)
  }

  /**
    The jobs run one after another, each sparing `keep`.  The last job's
    document is on disk at the end, as it wrote it; `RunJobsKeepsDocument`
    says the same of every job whose document no later job rewrites or
    consumes.
   */
  function RunJobs(js: seq<Job>, fs: FileSystem, keep: set<AbsPath>): (r: FileSystem)
    ensures r == fs.(files := r.files)
    ensures forall f :: f in keep && f in fs.files ==> f in r.files
    ensures forall i :: 0 <= i < |js| && js[i].path in keep ==> js[i].path in r.files
    ensures js != [] ==> js[|js| - 1].path in r.files && r.files[js[|js| - 1].path] == js[|js| - 1].doc
    decreases |js|
  {
    if js == [] then fs
    else
      var r := RunJobs(js[1..], RunJob(js[0], fs, keep), keep);
      assert forall i :: 0 < i < |js| ==> js[i] == js[1..][i - 1];
      r
  }

  /** A file no job writes or deletes keeps its content. */
  lemma {:induction false} RunJobsSpares(js: seq<Job>, fs: FileSystem, keep: set<AbsPath>, f: AbsPath)
    requires f in fs.files && Spared(js, keep, f)
    ensures f in RunJobs(js, fs, keep).files && RunJobs(js, fs, keep).files[f] == fs.files[f]
    decreases |js|
  {
    if js != [] {
      var fs1 := RunJob(js[0], fs, keep);
      assert js[0].path != f;
      assert forall j :: 0 <= j < |js[1..]| ==> js[1..][j] == js[j + 1];
      RunJobsSpares(js[1..], fs1, keep, f);
    }
  }

  /** The `i`th job's document survives as written when no later job rewrites or consumes it. */
  lemma {:induction false} RunJobsKeepsDocument(js: seq<Job>, fs: FileSystem, keep: set<AbsPath>, i: nat)
    requires i < |js| && Spared(js[i + 1..], keep, js[i].path)
    ensures js[i].path in RunJobs(js, fs, keep).files && RunJobs(js, fs, keep).files[js[i].path] == js[i].doc
    decreases |js|
  {
    var fs1 := RunJob(js[0], fs, keep);
    if i == 0 {
      RunJobsSpares(js[1..], fs1, keep, js[0].path);
    } else {
      assert js[1..][i - 1] == js[i];
      assert js[1..][i - 1 + 1..] == js[i + 1..];
      RunJobsKeepsDocument(js[1..], fs1, keep, i - 1);
    }
  }

  /** A file the jobs remove was consumed by one of them. */
  lemma {:induction false} RunJobsDeletesConsumed(js: seq<Job>, fs: FileSystem, keep: set<AbsPath>, f: AbsPath)
    requires f in fs.files && f !in RunJobs(js, fs, keep).files
    ensures exists i :: 0 <= i < |js| && f in js[i].consumed
    decreases |js|
  {
    var fs1 := RunJob(js[0], fs, keep);
    if f in fs1.files {
      RunJobsDeletesConsumed(js[1..], fs1, keep, f);
      var i :| 0 <= i < |js[1..]| && f in js[1..][i].consumed;
      assert js[i + 1] == js[1..][i];
    }
  }

  /** A file the jobs add is the document of one of them. */
  lemma {:induction false} RunJobsWritesDocuments(js: seq<Job>, fs: FileSystem, keep: set<AbsPath>, f: AbsPath)
    requires f !in fs.files && f in RunJobs(js, fs, keep).files
    ensures exists i :: 0 <= i < |js| && f == js[i].path
    decreases |js|
  {
    var fs1 := RunJob(js[0], fs, keep);
    if f !in fs1.files {
      RunJobsWritesDocuments(js[1..], fs1, keep, f);
      var i :| 0 <= i < |js[1..]| && f == js[1..][i].path;
      assert js[i + 1] == js[1..][i];
    }
  }

  /**
    The last job runs after every other has written its document: a file
    it consumed, other than its own document and the files kept, is gone
    at the end.
   */
  lemma {:induction false} RunJobsLastDeletes(js: seq<Job>, fs: FileSystem, keep: set<AbsPath>, f: AbsPath)
    requires js != []
    requires f in js[|js| - 1].consumed && f != js[|js| - 1].path && f !in keep
    ensures f !in RunJobs(js, fs, keep).files
    decreases |js|
  {
    if |js| > 1 {
      assert js[1..][|js| - 2] == js[|js| - 1];
      RunJobsLastDeletes(js[1..], RunJob(js[0], fs, keep), keep, f);
    }
  }

  /** The jobs of the trees at `ks`, in that order. */
  function Jobs(trees: map<PathArg, Store>, ks: seq<PathArg>): seq<Job>
    requires forall k :: k in ks ==> k in trees
  {
    seq(|ks|, i requires 0 <= i < |ks| => JobOf(trees[ks[i]]))
  }

  /** The `i`th job is the job of the `i`th tree. */
  lemma JobsAt(trees: map<PathArg, Store>, ks: seq<PathArg>)
    requires forall k :: k in ks ==> k in trees
    ensures var js := Jobs(trees, ks);
            && |js| == |ks|
            && forall i :: 0 <= i < |ks| ==>
                 js[i].path == trees[ks[i]].dumpPath && js[i].consumed == trees[ks[i]].consumed && js[i].doc == Document(trees[ks[i]])
  {
  }

  /** Every tree after its dump: the log closed and nothing consumed. */
  function Closed(trees: map<PathArg, Store>): (r: map<PathArg, Store>)
    ensures r.Keys == trees.Keys
    ensures forall k :: k in r ==> r[k] == trees[k].(walOpen := false, consumed := {})
  {
    map k | k in trees :: trees[k].(walOpen := false, consumed := {})
  }

  /** The documents of the grove's trees. */
  function Documents(g: Grove): set<AbsPath> {
    set k | k in g.trees :: g.trees[k].dumpPath
  }

  /** What `Grovestamps.__init__` leaves: one tree per directory listed, each listed once. */
  predicate OneTreePerRoot(g: Grove) {
    && (forall k :: k in g.roots ==> k in g.trees)
    && (forall k :: k in g.trees ==> k in g.roots)
    && (forall i, j :: 0 <= i < j < |g.roots| ==> g.roots[i] != g.roots[j])
  }

  /** No tree made after the `i`th rewrites or consumes the `i`th tree's document. */
  predicate LaterTreesSpare(g: Grove, i: int)
    requires OneTreePerRoot(g) && 0 <= i < |g.roots|
  {
    forall j :: i < j < |g.roots| ==>
      && g.trees[g.roots[j]].dumpPath != g.trees[g.roots[i]].dumpPath
      && g.trees[g.roots[i]].dumpPath !in g.trees[g.roots[j]].consumed
  }

  /**
    `Grovestamps.dump` as written: every tree's `dump()`, in the order the
    trees were made, each writing its document and deleting all it
    consumed.  A tree's document survives, as it wrote it, when no later
    tree rewrites or consumes it; the last tree's always does.
   */
  function DumpGroveAsWritten(g: Grove, fs: FileSystem): (r: (Grove, FileSystem))
    requires OneTreePerRoot(g)
    ensures r.0 == g.(trees := Closed(g.trees))
    ensures r.1 == fs.(files := r.1.files)
    ensures forall f :: f in fs.files && f !in r.1.files ==> exists k :: k in g.roots && f in g.trees[k].consumed
    ensures forall i :: 0 <= i < |g.roots| && LaterTreesSpare(g, i) ==>
              && g.trees[g.roots[i]].dumpPath in r.1.files
              && r.1.files[g.trees[g.roots[i]].dumpPath] == Document(g.trees[g.roots[i]])
    ensures g.roots != [] ==>
              var last := g.trees[g.roots[|g.roots| - 1]];
              last.dumpPath in r.1.files && r.1.files[last.dumpPath] == Document(last)
  {
    var js := GroveJobs(g);
    DumpedFiles(g, js, fs, {});
    GroveJobsDocs(g);
    AsWrittenDocuments(g, js, fs);
    assert g.roots != [] ==> LaterTreesSpare(g, |g.roots| - 1);
    (g.(trees := Closed(g.trees)), RunJobs(js, fs, {}))
  }

  /**
    `Grovestamps.dump` as intended: every tree dumped in the same order,
    but no tree's cleanup deletes the document of a tree of the grove.
    Afterwards every tree's document is on disk; `DumpGroveChanges` says
    what else the dump adds and removes.
   */
  function DumpGrove(g: Grove, fs: FileSystem): (r: (Grove, FileSystem))
    requires OneTreePerRoot(g)
    ensures r.0 == g.(trees := Closed(g.trees))
    ensures r.1 == fs.(files := r.1.files)
    ensures forall k :: k in g.trees ==> g.trees[k].dumpPath in r.1.files
  {
    var js := GroveJobs(g);
    DumpedFiles(g, js, fs, Documents(g));
    (g.(trees := Closed(g.trees)), RunJobs(js, fs, Documents(g)))
  }

  /**
    The corrected dump removes only files some tree consumed, never a
    document of the grove, and adds only documents.
   */
  lemma DumpGroveChanges(g: Grove, fs: FileSystem)
    requires OneTreePerRoot(g)
    ensures var r := DumpGrove(g, fs).1;
            && (forall f :: f in fs.files && f !in r.files ==>
                  f !in Documents(g) && exists k :: k in g.roots && f in g.trees[k].consumed)
            && (forall f :: f in r.files && f !in fs.files ==> f in Documents(g))
  {
    var js := GroveJobs(g);
    var r := RunJobs(js, fs, Documents(g));
    DumpedFiles(g, js, fs, Documents(g));
    assert DumpGrove(g, fs).1 == r;
  }

  /** `js` are the jobs of the grove's trees in order, as far as the files they delete and keep go. */
  ghost predicate JobsFor(js: seq<Job>, g: Grove) {
    && |js| == |g.roots|
    && forall i :: 0 <= i < |js| ==>
         && g.roots[i] in g.trees
         && js[i].path == g.trees[g.roots[i]].dumpPath
         && js[i].consumed == g.trees[g.roots[i]].consumed
  }

  /** ... and as far as the documents they write go. */
  ghost predicate DocsFor(js: seq<Job>, g: Grove)
    requires JobsFor(js, g)
  {
    forall i :: 0 <= i < |js| ==> js[i].doc == Document(g.trees[g.roots[i]])
  }

  /** The jobs of the grove's trees, in the order the trees were made. */
  function GroveJobs(g: Grove): (js: seq<Job>)
    requires OneTreePerRoot(g)
    ensures JobsFor(js, g)
  {
    JobsAt(g.trees, g.roots);
    Jobs(g.trees, g.roots)
  }

  /** Each of the grove's jobs writes its tree's document. */
  lemma GroveJobsDocs(g: Grove)
    requires OneTreePerRoot(g)
    ensures DocsFor(GroveJobs(g), g)
  {
    JobsAt(g.trees, g.roots);
  }

  /** A tree's document outlives the dump when no later tree rewrites or consumes it. */
  lemma AsWrittenDocuments(g: Grove, js: seq<Job>, fs: FileSystem)
    requires OneTreePerRoot(g) && JobsFor(js, g) && DocsFor(js, g)
    ensures var r := RunJobs(js, fs, {});
            forall i :: 0 <= i < |g.roots| && LaterTreesSpare(g, i) ==>
              && g.trees[g.roots[i]].dumpPath in r.files
              && r.files[g.trees[g.roots[i]].dumpPath] == Document(g.trees[g.roots[i]])
  {
    forall i | 0 <= i < |g.roots| && LaterTreesSpare(g, i)
      ensures var r := RunJobs(js, fs, {});
              && g.trees[g.roots[i]].dumpPath in r.files
              && r.files[g.trees[g.roots[i]].dumpPath] == Document(g.trees[g.roots[i]])
    {
      AsWrittenDocument(g, js, fs, i);
      assert js[i].doc == Document(g.trees[g.roots[i]]);
    }
  }

  /** The `i`th tree's document, when no later tree rewrites or consumes it. */
  lemma AsWrittenDocument(g: Grove, js: seq<Job>, fs: FileSystem, i: nat)
    requires OneTreePerRoot(g) && JobsFor(js, g)
    requires i < |g.roots| && LaterTreesSpare(g, i)
    ensures js[i].path in RunJobs(js, fs, {}).files && RunJobs(js, fs, {}).files[js[i].path] == js[i].doc
  {
    var later := js[i + 1..];
    forall j | 0 <= j < |later|
      ensures later[j].path != js[i].path && js[i].path !in later[j].consumed
    {
      assert later[j] == js[i + 1 + j];
      assert g.roots[i + 1 + j] in g.trees;
    }
    RunJobsKeepsDocument(js, fs, {}, i);
  }

  /** The grove's jobs, run in order and sparing `keep`, on the files. */
  lemma DumpedFiles(g: Grove, js: seq<Job>, fs: FileSystem, keep: set<AbsPath>)
    requires OneTreePerRoot(g) && JobsFor(js, g)
    ensures var r := RunJobs(js, fs, keep);
            && (forall k :: k in g.trees && g.trees[k].dumpPath in keep ==> g.trees[k].dumpPath in r.files)
            && (forall f :: f in fs.files && f !in r.files ==> exists k :: k in g.roots && f in g.trees[k].consumed)
            && (forall f :: f in r.files && f !in fs.files ==> exists k :: k in g.trees && f == g.trees[k].dumpPath)
  {
    var r := RunJobs(js, fs, keep);
    forall k | k in g.trees && g.trees[k].dumpPath in keep ensures g.trees[k].dumpPath in r.files {
      var i :| 0 <= i < |g.roots| && g.roots[i] == k;
      assert js[i].path == g.trees[k].dumpPath;
    }
    forall f | f in fs.files && f !in r.files ensures exists k :: k in g.roots && f in g.trees[k].consumed {
      RunJobsDeletesConsumed(js, fs, keep, f);
      var i :| 0 <= i < |js| && f in js[i].consumed;
      assert g.roots[i] in g.roots;
    }
    forall f | f in r.files && f !in fs.files ensures exists k :: k in g.trees && f == g.trees[k].dumpPath {
      RunJobsWritesDocuments(js, fs, keep, f);
      var i :| 0 <= i < |js| && f == js[i].path;
      assert g.roots[i] in g.trees;
    }
  }

  /*
    A grove whose dump deletes a document it just wrote: the directory
    /x/y and the file /x/f.  The tree for /x/y comes first; the tree for
    /x, made for the file, walks down into /x/y and consumes its document,
    so its cleanup, which runs second, deletes the document the tree for
    /x/y has just written.
  */

  /** The filesystem of the example: directories /x and /x/y, and the document of /x/y. */
  predicate ExampleEnv(env: Env, c: CommonConfig) {
    && env.cwd == []
    && env.fs == FileSystem({["x"], ["x", "y"]}, map[["x", "y", FileName(c.programName)] := Null], {})
  }

  /** The directory first, then the file. */
  lemma ExamplePaths(env: Env, c: CommonConfig)
    requires ExampleEnv(env, c)
    ensures var a, b := PathArg(true, ["x", "y"]), PathArg(true, ["x", "f"]);
            OrderPaths(env, c, [b, a]) == [a, b]
  {
    var a, b := PathArg(true, ["x", "y"]), PathArg(true, ["x", "f"]);
    assert IsDirArg(env, a) && !IsDirArg(env, b);
    assert DirsOf(env, c, [b, a]) == {a};
    assert FilesOf(env, c, [b, a]) == {b};
    ArgLeTotal();
    OneSorted(a);
    OneSorted(b);
  }

  /** Sorting one path gives that path. */
  lemma OneSorted(p: PathArg)
    requires TotalOrder(ArgLe)
    ensures SortedElements({p}, ArgLe) == [p]
  {
    var r := SortedElements({p}, ArgLe);
    assert r[0] in {p};
  }

  /** The directory stands for itself, the file for /x. */
  lemma ExampleDirs(env: Env, c: CommonConfig)
    requires ExampleEnv(env, c)
    ensures GetDir(env, PathArg(true, ["x", "y"])) == PathArg(true, ["x", "y"])
    ensures GetDir(env, PathArg(true, ["x", "f"])) == PathArg(true, ["x"])
  {
    assert ["x", "f"] != ["x"] && ["x", "f"] != ["x", "y"] by {
      assert ["x", "f"][1] == "f" != "y";
    }
  }

  /** The paths of the example choose /x/y, then /x. */
  lemma ExampleRoots(env: Env, c: CommonConfig)
    requires ExampleEnv(env, c)
    ensures var a, b, x := PathArg(true, ["x", "y"]), PathArg(true, ["x", "f"]), PathArg(true, ["x"]);
            var (roots, tops) := Plant(env, [a, b], 2);
            roots == [a, x] && tops == map[a := a, x := b]
  {
    var a, b, x := PathArg(true, ["x", "y"]), PathArg(true, ["x", "f"]), PathArg(true, ["x"]);
    ExampleFirstRoot(env, c);
    ExampleDirs(env, c);
    assert [a, b][1] == b;
    assert x !in map[a := a];
  }

  /** The first path of the example chooses /x/y. */
  lemma ExampleFirstRoot(env: Env, c: CommonConfig)
    requires ExampleEnv(env, c)
    ensures var a, b := PathArg(true, ["x", "y"]), PathArg(true, ["x", "f"]);
            Plant(env, [a, b], 1) == ([a], map[a := a])
  {
    var a, b := PathArg(true, ["x", "y"]), PathArg(true, ["x", "f"]);
    ExampleDirs(env, c);
    var ps := [a, b];
    assert ps[0] == a;
    assert Plant(env, ps, 0) == ([], map[]);
    assert GetDir(env, ps[0]) == a;
    assert a !in Plant(env, ps, 0).1;
    assert Plant(env, ps, 1).0 == [a];
  }

  /** The trees of the example: /x/y first, then /x, which consumed the document of /x/y. */
  lemma ExampleTrees(env: Env, c: CommonConfig)
    requires PostInitialised(c) && c.ignore == {}
    requires ExampleEnv(env, c)
    ensures var a, b, x := PathArg(true, ["x", "y"]), PathArg(true, ["x", "f"]), PathArg(true, ["x"]);
            var gr := New(env, GroveConfig(c, [a, b]));
            gr.roots == [a, x] && gr.trees == Grow(env, c, map[a := a, x := b])
  {
    ExampleRoots(env, c);
  }

  /** The tree for /x/y writes its document in /x/y, the tree for /x in /x. */
  lemma ExampleDumpPaths(env: Env, c: CommonConfig, ra: Store, rx: Store)
    requires ExampleEnv(env, c)
    requires ra.dumpPath == Absolute(env.cwd, GetDir(env, PathArg(true, ["x", "y"]))) + [FileName(c.programName)]
    requires rx.dumpPath == Absolute(env.cwd, GetDir(env, PathArg(true, ["x", "f"]))) + [FileName(c.programName)]
    ensures ra.dumpPath == ["x", "y", FileName(c.programName)]
    ensures rx.dumpPath == ["x", FileName(c.programName)]
  {
    ExampleDirs(env, c);
  }

  /** A store rooted at /x with the program's file names finds the document of /x/y. */
  lemma ExampleFound(env: Env, c: CommonConfig, s: Store)
    requires c.ignore == {} && ExampleEnv(env, c)
    requires s.config.common == c && s.rootDir == ["x"] && Parent(s.dumpPath) == ["x"]
    requires s.fileName == FileName(c.programName)
    ensures ["x", "y", FileName(c.programName)] in Found(env, s, ["x"])
  {
    var doc := ["x", "y", FileName(c.programName)];
    assert Parent(doc) == ["x", "y"];
    assert IsStampFile(s, doc) && doc != s.dumpPath;
    assert Reachable(env, c, ["x"], ["x", "y"]) by {
      forall k | 1 <= k <= 2 ensures ["x", "y"][..k] in env.fs.dirs && !Skipped(env, c, ["x", "y"][..k]) {
        if k == 1 { assert ["x", "y"][..k] == ["x"]; } else { assert ["x", "y"][..k] == ["x", "y"]; }
      }
    }
  }

  /**
    The grove dump as written deletes the document of /x/y that the tree
    for /x/y has just written; the corrected dump keeps it.
   */
  lemma GroveDumpLosesChildDocument(env: Env, c: CommonConfig)
    requires PostInitialised(c) && c.ignore == {}
    requires ExampleEnv(env, c)
    ensures var a, b := PathArg(true, ["x", "y"]), PathArg(true, ["x", "f"]);
            var gr := New(env, GroveConfig(c, OrderPaths(env, c, [b, a])));
            var doc := ["x", "y", FileName(c.programName)];
            && doc in env.fs.files
            && doc !in DumpGroveAsWritten(gr, env.fs).1.files
            && doc in DumpGrove(gr, env.fs).1.files
  {
    var a, b := PathArg(true, ["x", "y"]), PathArg(true, ["x", "f"]);
    ExampleGrove(env, c);
    var gr := New(env, GroveConfig(c, OrderPaths(env, c, [b, a])));
    LastTreeDeletesDocument(gr, env.fs, a, ["x", "y", FileName(c.programName)]);
  }

  /**
    The grove of the example: its last tree, for /x, consumed the document
    that the tree for /x/y writes.
   */
  lemma ExampleGrove(env: Env, c: CommonConfig)
    requires PostInitialised(c) && c.ignore == {}
    requires ExampleEnv(env, c)
    ensures var a, b, x := PathArg(true, ["x", "y"]), PathArg(true, ["x", "f"]), PathArg(true, ["x"]);
            var gr := New(env, GroveConfig(c, OrderPaths(env, c, [b, a])));
            var doc := ["x", "y", FileName(c.programName)];
            && OneTreePerRoot(gr) && gr.roots == [a, x]
            && a in gr.trees && gr.trees[a].dumpPath == doc
            && x in gr.trees && doc in gr.trees[x].consumed && doc != gr.trees[x].dumpPath
  {
    var a, b, x := PathArg(true, ["x", "y"]), PathArg(true, ["x", "f"]), PathArg(true, ["x"]);
    ExamplePaths(env, c);
    ExampleTrees(env, c);
    var gr := New(env, GroveConfig(c, [a, b]));
    PlantedDumpPath(env, c, a);
    PlantedDumpPath(env, c, b);
    ExampleDumpPaths(env, c, gr.trees[a], gr.trees[x]);
    PlantedConsumes(env, c, b);
    ExampleDirs(env, c);
    ExampleFound(env, c, Init(env, TreeConfig(c, b)));
  }

  /**
    When the last tree of a grove consumed the document another tree
    writes, the dump as written deletes that document and the corrected
    dump keeps it.
   */
  lemma LastTreeDeletesDocument(g: Grove, fs: FileSystem, k: PathArg, doc: AbsPath)
    requires OneTreePerRoot(g) && g.roots != []
    requires k in g.trees && g.trees[k].dumpPath == doc
    requires var last := g.trees[g.roots[|g.roots| - 1]];
             doc in last.consumed && doc != last.dumpPath
    ensures doc !in DumpGroveAsWritten(g, fs).1.files
    ensures doc in DumpGrove(g, fs).1.files
  {
    AsWrittenLastDeletes(g, fs, doc);
    assert g.trees[k].dumpPath in DumpGrove(g, fs).1.files;
  }

  /** The dump as written runs the grove's jobs, so the last one's deletions stand. */
  lemma AsWrittenLastDeletes(g: Grove, fs: FileSystem, doc: AbsPath)
    requires OneTreePerRoot(g) && g.roots != []
    requires var last := g.trees[g.roots[|g.roots| - 1]];
             doc in last.consumed && doc != last.dumpPath
    ensures doc !in DumpGroveAsWritten(g, fs).1.files
  {
    var js := GroveJobs(g);
    RunJobsLastDeletes(js, fs, {}, doc);
  }
}

=== FILE: load.dfy ===
/**
  Loading timestamps documents (treestamps/tree/load.py): the configuration
  gate, the write-ahead log replay, importing entries, and the walks that
  collect the documents of the parents and of the whole subtree.
 */
module Load {
  import opened Optional
  import opened Values
  import opened Normalize
  import opened Paths
  import opened Config
  import opened Fs
  import opened Timestamps
  import opened Tree
  import opened Documents

  const ConfigTag: string := "config"
  const TreestampsConfigTag: string := "treestamps_config"
  const WalTag: string := "wal"

  /*
    The configuration gate.
  */

  /**
    `_load_pop_config_matches`: both configuration blocks are popped; when
    `check_config` is set the document passes only if the normalised
    `treestamps_config` block (default `{}`) equals `get_config_dict()`
    and the normalised `config` block (default None) equals `program_config`.
   */
  function PopConfigMatches(c: CommonConfig, es: seq<Entry>): (r: (bool, seq<Entry>))
    ensures forall e :: e in r.1 <==> e in es && e.key != ConfigTag && e.key != TreestampsConfigTag
    ensures forall k :: k != ConfigTag && k != TreestampsConfigTag ==> Find(r.1, k) == Find(es, k)
    ensures UniqueKeys(es) ==> UniqueKeys(r.1)
    ensures Find(es, ConfigTag).None? && Find(es, TreestampsConfigTag).None? ==> r.1 == es
    ensures !c.checkConfig ==> r.0
    ensures c.checkConfig ==>
              (r.0 <==> && ConfigDict(c) == Normalize.Normalize(FindOr(es, TreestampsConfigTag, Map([])))
                        && c.programConfig == Normalize.Normalize(FindOr(es, ConfigTag, Null)))
  {
    var (tsConfig, es1) := Pop(es, TreestampsConfigTag, Map([]));
    var (programConfig, es2) := Pop(es1, ConfigTag, Null);
    assert Find(es1, ConfigTag) == Find(es, ConfigTag);
    (!c.checkConfig || (ConfigDict(c) == Normalize.Normalize(tsConfig) && c.programConfig == Normalize.Normalize(programConfig)),
     es2)
  }

  /** What the gate leaves: the document without its two configuration blocks. */
  lemma PopConfigMatchesRest(c: CommonConfig, es: seq<Entry>)
    ensures PopConfigMatches(c, es).1 == Remove(Remove(es, TreestampsConfigTag), ConfigTag)
  {
  }

  /** A document carrying the configuration's own blocks passes the gate. */
  lemma GateAcceptsOwnBlocks(c: CommonConfig, es: seq<Entry>)
    requires PostInitialised(c)
    requires Find(es, TreestampsConfigTag) == Some(ConfigDict(c))
    requires Find(es, ConfigTag) == if c.programConfig.Null? then None else Some(c.programConfig)
    ensures PopConfigMatches(c, es).0
  {
    NormalizeFixesExactlyNormal(ConfigDict(c));
    NormalizeFixesExactlyNormal(c.programConfig);
  }

  /** When configurations are checked, a document without a `treestamps_config` block is refused. */
  lemma GateRefusesMissingBlock(c: CommonConfig, es: seq<Entry>)
    requires c.checkConfig && Find(es, TreestampsConfigTag).None?
    ensures !PopConfigMatches(c, es).0
  {
    assert Normalize.Normalize(Map([])) == Map([]) by {
      NormalizeFixesExactlyNormal(Map([]));
    }
  }

  /** When configurations are checked, a document written under other `ignore` or `symlinks` settings is refused. */
  lemma GateRefusesOtherTreeSettings(c: CommonConfig, d: CommonConfig, es: seq<Entry>)
    requires c.checkConfig && Find(es, TreestampsConfigTag) == Some(ConfigDict(d))
    requires c.ignore != d.ignore || c.symlinks != d.symlinks
    ensures !PopConfigMatches(c, es).0
  {
    NormalizeFixesExactlyNormal(ConfigDict(d));
    ConfigDictFields(c, d);
  }

  /*
    The write-ahead log and the entries.
  */

  /**
    The items `for wal_entry in wal` visits: a list's or set's items; no
    item that can update for a mapping or a string, whose members are
    strings; None for a value that cannot be iterated, which aborts the load.
   */
  function WalItems(wal: Value): (r: Option<seq<Value>>)
    ensures r.None? <==> wal.Null? || wal.Bool? || wal.Int?
    ensures wal.List? ==> r == Some(wal.items)
    ensures wal.Set? ==> r == Some(wal.elems)
  {
    match wal
    case List(xs) => Some(xs)
    case Set(xs) => Some(xs)
    case Map(_) => Some([])
    case Str(_) => Some([])
    case _ => None
  }

  /** `dict(yaml)` of a mapping as read, where the first of repeated keys is the one kept. */
  function AsDict(es: seq<Entry>): (r: seq<Entry>)
    ensures UniqueKeys(r)
    ensures forall k :: Find(r, k) == Find(es, k)
    ensures UniqueKeys(es) ==> r == es
  {
    if es == [] then []
    else
      var rest := AsDict(es[1..]);
      var tail := Remove(rest, es[0].key);
      Cons(es[0], es[1..]);
      Cons(es[0], tail);
      ConsUnique(es[0], tail);
      ConsUnique(es[0], es[1..]);
      assert es == [es[0]] + es[1..];
      [es[0]] + tail
  }

  /** An entry whose value is a time. */
  predicate IsTime(e: Entry) {
    e.value.Int?
  }

  /** No path of the store's tree has an earlier time in `r` than in `s`. */
  ghost predicate Grows(s: Store, r: Store) {
    forall q :: IsRelativeTo(q, s.rootDir) ==>
      AtMost(Timestamps.Get(s.timestamps, q), Timestamps.Get(r.timestamps, q))
  }

  lemma GrowsTrans(a: Store, b: Store, c: Store)
    requires Grows(a, b) && Grows(b, c) && b.rootDir == a.rootDir
    ensures Grows(a, c)
  {
  }

  /** Two prefixes of one path are prefixes of one another. */
  lemma PrefixComparable(a: AbsPath, b: AbsPath, q: AbsPath)
    requires a <= q && b <= q
    ensures a <= b || b <= a
  {
    if |a| <= |b| {
      assert a == q[..|a|] == b[..|a|];
    } else {
      assert b == q[..|b|] == a[..|b|];
    }
  }

  /**
    An entry is stored only above the time `get` already gives its path, so
    no path of the tree loses time: an entry it governs lies in the tree or
    above its root, and `get` of either is at least that entry.
   */
  lemma ImportEntryGrows(s: Store, base: AbsPath, docDir: AbsPath, key: string, ts: int)
    ensures Grows(s, ImportEntry(s, base, docDir, key, ts))
  {
    var r := ImportEntry(s, base, docDir, key, ts);
    var t := s.timestamps;
    if r.timestamps != t {
      var a := Resolve(base, docDir, ParsePath(key)).value;
      var prior := Tree.Get(s, base, PathArg(true, a));
      assert r.timestamps == t[a := ts];
      forall q | IsRelativeTo(q, s.rootDir)
        ensures AtMost(Timestamps.Get(t, q), Timestamps.Get(r.timestamps, q))
      {
        if a in t && Governs(a, q) {
          PrefixComparable(a, s.rootDir, q);
          assert t[a] <= ts by {
            if IsRelativeTo(a, s.rootDir) {
              assert Resolve(base, s.rootDir, PathArg(true, a)) == Some(a);
              assert Governs(a, a);
            } else {
              assert Resolve(base, s.rootDir, PathArg(true, a)) == Some(s.rootDir);
              assert Governs(a, s.rootDir);
            }
          }
        }
        GetMonotone(t, r.timestamps, q);
      }
    }
  }

  /**
    `_load_timestamp_entry`: a key resolved against `base` as working
    directory and `docDir` as root is stored when the store has no time for
    it yet, or an earlier one.
   */
  function ImportEntry(s: Store, base: AbsPath, docDir: AbsPath, key: string, ts: int): (r: Store)
    ensures r == s.(timestamps := r.timestamps)
    ensures Resolve(base, docDir, ParsePath(key)).None? ==> r == s
    ensures Resolve(base, docDir, ParsePath(key)).Some? ==>
              var a := Resolve(base, docDir, ParsePath(key)).value;
              var prior := Tree.Get(s, base, PathArg(true, a));
              r.timestamps == if prior.None? || ts > prior.value then s.timestamps[a := ts] else s.timestamps
  {
    match Resolve(base, docDir, ParsePath(key))
    case None => s
    case Some(a) =>
      var prior := Tree.Get(s, base, PathArg(true, a));
      if prior.None? || ts > prior.value then s.(timestamps := s.timestamps[a := ts]) else s
  }

  /** Only integer times are imported; any other value makes the comparison raise and is skipped. */
  function ImportOne(s: Store, base: AbsPath, docDir: AbsPath, e: Entry): (r: Store)
    ensures !IsTime(e) ==> r == s
    ensures IsTime(e) ==> r == ImportEntry(s, base, docDir, e.key, e.value.i)
    ensures r == s.(timestamps := r.timestamps) && Grows(s, r)
  {
    if IsTime(e) then
      ImportEntryGrows(s, base, docDir, e.key, e.value.i);
      ImportEntry(s, base, docDir, e.key, e.value.i)
    else s
  }

  /** `for path_str, ts in entries.items()`. */
  function ImportAll(s: Store, base: AbsPath, docDir: AbsPath, es: seq<Entry>): (r: Store)
    ensures r == s.(timestamps := r.timestamps)
    ensures Grows(s, r)
    decreases |es|
  {
    if es == [] then s
    else
      var s1 := ImportOne(s, base, docDir, es[0]);
      var r := ImportAll(s1, base, docDir, es[1..]);
      GrowsTrans(s, s1, r);
      r
  }

  /*
    Importing is a join: it raises the times of the paths an entry governs
    to at least the entry's time and leaves every other path of the tree
    alone, so importing into a store that already has later times gives
    later times still.
  */

  /**
    For a path of the tree, importing an entry joins its time into the
    path's time when the resolved key governs the path, and changes nothing
    otherwise, whether or not the entry is stored.
   */
  lemma ImportEntryJoins(s: Store, base: AbsPath, docDir: AbsPath, key: string, ts: int, q: AbsPath)
    requires IsRelativeTo(q, s.rootDir)
    ensures var a := Resolve(base, docDir, ParsePath(key));
            Timestamps.Get(ImportEntry(s, base, docDir, key, ts).timestamps, q)
              == if a.Some? && Governs(a.value, q) then MaxNone(Timestamps.Get(s.timestamps, q), Some(ts))
                 else Timestamps.Get(s.timestamps, q)
  {
    var t := s.timestamps;
    var r := ImportEntry(s, base, docDir, key, ts);
    if Resolve(base, docDir, ParsePath(key)).Some? {
      var a := Resolve(base, docDir, ParsePath(key)).value;
      var prior := Tree.Get(s, base, PathArg(true, a));
      if Governs(a, q) {
        PrefixComparable(a, s.rootDir, q);
        // The path `get` reads the prior time from lies on the way down to `q`.
        var at := if IsRelativeTo(a, s.rootDir) then a else s.rootDir;
        assert Resolve(base, s.rootDir, PathArg(true, a)) == Some(at);
        assert Governs(a, at);
        if prior.None? || ts > prior.value {
          GetAfterPut(t, a, ts, q);
        } else {
          GetGrowsDownwards(t, at, q);
        }
      } else if r.timestamps != t {
        GetGoverned(t, r.timestamps, q);
      }
    }
  }

  /** Importing one entry into a store with later times gives later times. */
  lemma ImportEntryMonotone(s: Store, s2: Store, base: AbsPath, docDir: AbsPath, key: string, ts: int)
    requires s2.rootDir == s.rootDir && Grows(s, s2)
    ensures Grows(ImportEntry(s, base, docDir, key, ts), ImportEntry(s2, base, docDir, key, ts))
  {
    forall q | IsRelativeTo(q, s.rootDir)
      ensures AtMost(Timestamps.Get(ImportEntry(s, base, docDir, key, ts).timestamps, q),
                     Timestamps.Get(ImportEntry(s2, base, docDir, key, ts).timestamps, q))
    {
      ImportEntryJoins(s, base, docDir, key, ts, q);
      ImportEntryJoins(s2, base, docDir, key, ts, q);
    }
  }

  /** Importing the same entries into a store with later times gives later times. */
  lemma {:induction false} ImportAllMonotone(s: Store, s2: Store, base: AbsPath, docDir: AbsPath, es: seq<Entry>)
    requires s2.rootDir == s.rootDir && Grows(s, s2)
    ensures Grows(ImportAll(s, base, docDir, es), ImportAll(s2, base, docDir, es))
    decreases |es|
  {
    if es != [] {
      var s1, s3 := ImportOne(s, base, docDir, es[0]), ImportOne(s2, base, docDir, es[0]);
      if IsTime(es[0]) {
        ImportEntryMonotone(s, s2, base, docDir, es[0].key, es[0].value.i);
      }
      ImportAllMonotone(s1, s3, base, docDir, es[1..]);
    }
  }

  /**
    `load_map` with keys resolved against `base` as working directory: an
    empty or non-mapping document, a document failing the gate, or a log
    that cannot be iterated changes nothing; otherwise the log is replayed
    over the remaining entries and every entry is imported.
   */
  function LoadMapWith(s: Store, base: AbsPath, docDir: AbsPath, doc: Value): (r: Store)
    ensures r == s.(timestamps := r.timestamps)
    ensures !Truthy(doc) || !doc.Map? ==> r == s
    ensures doc.Map? && !PopConfigMatches(s.config.common, AsDict(doc.entries)).0 ==> r == s
    ensures Grows(s, r)
  {
    if !Truthy(doc) || !doc.Map? then s
    else
      var (ok, rest) := PopConfigMatches(s.config.common, AsDict(doc.entries));
      if !ok then s else ReplayAndImport(s, base, docDir, rest)
  }

  /**
    The rest of `load_map` once the gate is passed: the log (default
    empty) is popped and replayed over the remaining entries, which are
    then imported; a log that cannot be iterated aborts the document.
   */
  function ReplayAndImport(s: Store, base: AbsPath, docDir: AbsPath, rest: seq<Entry>): (r: Store)
    ensures r == s.(timestamps := r.timestamps)
    ensures Grows(s, r)
    ensures Find(rest, WalTag).None? ==> r == ImportAll(s, base, docDir, rest)
    ensures Find(rest, WalTag).Some? && WalItems(Find(rest, WalTag).value).None? ==> r == s
  {
    var (wal, entries) := Pop(rest, WalTag, List([]));
    match WalItems(wal)
    case None => s
    case Some(items) =>
      ReplayNothing(entries);
      ImportAll(s, base, docDir, Replay(entries, items))
  }

  /** A dict that passes the gate goes on to the log and the import with what the gate left. */
  lemma GatePassed(s: Store, base: AbsPath, docDir: AbsPath, es: seq<Entry>, rest: seq<Entry>)
    requires es != [] && UniqueKeys(es)
    requires PopConfigMatches(s.config.common, es) == (true, rest)
    ensures LoadMapWith(s, base, docDir, Map(es)) == ReplayAndImport(s, base, docDir, rest)
  {
    var doc := Map(es);
    assert Truthy(doc) && doc.Map?;
    var d := AsDict(doc.entries);
    assert d == es;
    var g := PopConfigMatches(s.config.common, d);
    assert g.0 && g.1 == rest;
  }

  /** Loading one document into a store of the same configuration with later times gives later times. */
  lemma LoadMapWithMonotone(s: Store, s2: Store, base: AbsPath, docDir: AbsPath, doc: Value)
    requires s2.rootDir == s.rootDir && s2.config == s.config && Grows(s, s2)
    ensures Grows(LoadMapWith(s, base, docDir, doc), LoadMapWith(s2, base, docDir, doc))
  {
    if Truthy(doc) && doc.Map? {
      var (ok, rest) := PopConfigMatches(s.config.common, AsDict(doc.entries));
      if ok {
        var (wal, entries) := Pop(rest, WalTag, List([]));
        if WalItems(wal).Some? {
          ImportAllMonotone(s, s2, base, docDir, Replay(entries, WalItems(wal).value));
        }
      }
    }
  }

  /** `load_map` as written: relative keys are made absolute against the process's working directory. */
  function LoadMapAsWritten(s: Store, cwd: AbsPath, docDir: AbsPath, doc: Value): (r: Store)
    ensures r == s.(timestamps := r.timestamps)
    ensures Grows(s, r)
  {
    LoadMapWith(s, cwd, docDir, doc)
  }

  /** `load_map` with relative keys taken under the document's directory, as `_serialize_timestamps` wrote them. */
  function LoadMap(s: Store, docDir: AbsPath, doc: Value): (r: Store)
    ensures r == s.(timestamps := r.timestamps)
    ensures Grows(s, r)
  {
    LoadMapWith(s, docDir, docDir, doc)
  }

  /** With the gate off, a dict without the three reserved keys is imported entry by entry. */
  lemma PlainDocument(s: Store, base: AbsPath, docDir: AbsPath, es: seq<Entry>)
    requires !s.config.common.checkConfig && es != [] && UniqueKeys(es)
    requires Find(es, ConfigTag).None? && Find(es, TreestampsConfigTag).None? && Find(es, WalTag).None?
    ensures LoadMapWith(s, base, docDir, Map(es)) == ImportAll(s, base, docDir, es)
  {
    assert AsDict(es) == es;
    assert PopConfigMatches(s.config.common, es) == (true, es);
  }

  /** A document holding one time under a plain name imports just that entry. */
  lemma SingleEntryDocument(s: Store, base: AbsPath, docDir: AbsPath, n: string, ts: int)
    requires !s.config.common.checkConfig
    requires n != ConfigTag && n != TreestampsConfigTag && n != WalTag
    ensures LoadMapWith(s, base, docDir, Map([Entry(n, Int(ts))]))
              == ImportEntry(s, base, docDir, n, ts)
  {
    var es := [Entry(n, Int(ts))];
    Cons(es[0], []);
    assert es == [es[0]] + [];
    assert UniqueKeys(es);
    PlainDocument(s, base, docDir, es);
    assert ImportAll(s, base, docDir, es) == ImportOne(s, base, docDir, es[0]);
  }

  /** Into an empty table, a plain name is imported under the working directory it is resolved against, when that lies in the document's tree. */
  lemma ImportIntoEmpty(s: Store, base: AbsPath, docDir: AbsPath, n: string, ts: int)
    requires s.timestamps == map[] && ValidName(n) && IsRelativeTo(base, docDir)
    ensures ImportEntry(s, base, docDir, n, ts).timestamps == map[base + [n] := ts]
  {
    ParsePrintRoundTrip(PathArg(false, [n]));
    assert ParsePath(n) == PathArg(false, [n]);
    assert Resolve(base, docDir, PathArg(false, [n])) == Some(base + [n]);
  }

  /** The keys resolved against the document's directory land where they were written from. */
  lemma LoadMapPlacesUnderDocument(s: Store, docDir: AbsPath, n: string, ts: int)
    requires s.timestamps == map[] && !s.config.common.checkConfig
    requires ValidName(n) && n != ConfigTag && n != TreestampsConfigTag && n != WalTag
    ensures LoadMap(s, docDir, Map([Entry(n, Int(ts))])).timestamps == map[docDir + [n] := ts]
  {
    SingleEntryDocument(s, docDir, docDir, n, ts);
    ImportIntoEmpty(s, docDir, docDir, n, ts);
  }

  /** As written, a plain name is placed under the working directory whenever that lies in the document's tree. */
  lemma LoadAsWrittenUnderWorkingDirectory(s: Store, cwd: AbsPath, n: string, ts: int)
    requires s.timestamps == map[] && !s.config.common.checkConfig
    requires IsRelativeTo(cwd, s.rootDir)
    requires ValidName(n) && n != ConfigTag && n != TreestampsConfigTag && n != WalTag
    ensures LoadMapAsWritten(s, cwd, s.rootDir, Map([Entry(n, Int(ts))])).timestamps == map[cwd + [n] := ts]
  {
    SingleEntryDocument(s, cwd, s.rootDir, n, ts);
    ImportIntoEmpty(s, cwd, s.rootDir, n, ts);
  }

  /**
    The document `dumpf` writes for a tree holding only `root/n` has the
    key "n".  Loaded from a working directory `root/sub` inside the tree,
    the key is taken as `root/sub/n`: the time lands on the wrong path.
   */
  lemma LoadFromSubdirectoryMisplaces(s: Store, sub: string, n: string, ts: int)
    requires s.timestamps == map[] && !s.config.common.checkConfig
    requires ValidName(sub) && ValidName(n)
    requires n != ConfigTag && n != TreestampsConfigTag && n != WalTag
    ensures var doc := Map([Entry(n, Int(ts))]);
            var root := s.rootDir;
            && LoadMapAsWritten(s, root + [sub], root, doc).timestamps == map[root + [sub] + [n] := ts]
            && LoadMap(s, root, doc).timestamps == map[root + [n] := ts]
            && Timestamps.Get(LoadMapAsWritten(s, root + [sub], root, doc).timestamps, root + [n]).None?
  {
    var root := s.rootDir;
    LoadAsWrittenUnderWorkingDirectory(s, root + [sub], n, ts);
    LoadMapPlacesUnderDocument(s, root, n, ts);
    DeeperEntryUnseen(root, sub, n, ts);
  }

  /** A time recorded at `root/sub/n` says nothing about `root/n`. */
  lemma DeeperEntryUnseen(root: AbsPath, sub: string, n: string, ts: int)
    ensures Timestamps.Get(map[root + [sub] + [n] := ts], root + [n]).None?
  {
    assert !Governs(root + [sub] + [n], root + [n]) by {
      assert |root + [sub] + [n]| > |root + [n]|;
    }
  }

  /*
    Files and walks.
  */

  /**
    `loadf`: a document file is loaded with its own directory as root and
    its relative keys made absolute against the working directory `cwd`,
    as `load_map` does; a missing file is reported and changes nothing.
   */
  function Loadf(s: Store, fs: FileSystem, cwd: AbsPath, path: AbsPath): (r: Store)
    ensures r == s.(timestamps := r.timestamps)
    ensures Grows(s, r)
    ensures path !in fs.files ==> r == s
    ensures path in fs.files ==> r == LoadMapAsWritten(s, cwd, Parent(path), fs.files[path])
  {
    if path in fs.files then LoadMapAsWritten(s, cwd, Parent(path), fs.files[path]) else s
  }

  /** Loading a file into a store of the same configuration with later times gives later times. */
  lemma LoadfMonotone(s: Store, s2: Store, fs: FileSystem, cwd: AbsPath, path: AbsPath)
    requires s2.rootDir == s.rootDir && s2.config == s.config && Grows(s, s2)
    ensures Grows(Loadf(s, fs, cwd, path), Loadf(s2, fs, cwd, path))
  {
    if path in fs.files {
      LoadMapWithMonotone(s, s2, cwd, Parent(path), fs.files[path]);
    }
  }

  /** With configurations checked, a document file without a `treestamps_config` block loads nothing. */
  lemma LoadfRefusesMissingBlock(s: Store, fs: FileSystem, cwd: AbsPath, path: AbsPath)
    requires s.config.common.checkConfig
    requires path in fs.files && fs.files[path].Map?
    requires Find(fs.files[path].entries, TreestampsConfigTag).None?
    ensures Loadf(s, fs, cwd, path) == s
  {
    GateRefusesMissingBlock(s.config.common, AsDict(fs.files[path].entries));
  }

  /** `path`, when it is a file other than the store's own document. */
  function Consumable(fs: FileSystem, s: Store, path: AbsPath): set<AbsPath> {
    if path in fs.files && path != s.dumpPath then {path} else {}
  }

  /** `_consume_child_timestamps`: a file is loaded and, unless it is the store's own document, marked consumed. */
  function ConsumeChild(s: Store, env: Env, path: AbsPath): (r: Store)
    ensures r == s.(timestamps := r.timestamps, consumed := r.consumed)
    ensures Grows(s, r)
    ensures r.timestamps == Loadf(s, env.fs, env.cwd, path).timestamps
    ensures r.consumed == s.consumed + Consumable(env.fs, s, path)
  {
    if path !in env.fs.files then s
    else
      var s1 := Loadf(s, env.fs, env.cwd, path);
      if path != s.dumpPath then s1.(consumed := s1.consumed + {path}) else s1
  }

  /**
    Every directory from `top` down to `d` exists and is not skipped: the
    walk from `top` enters `d`.
   */
  ghost predicate Reachable(env: Env, c: CommonConfig, top: AbsPath, d: AbsPath) {
    && |top| <= |d| && d[..|top|] == top
    && forall k :: |top| <= k <= |d| ==> d[..k] in env.fs.dirs && !Skipped(env, c, d[..k])
  }

  /** A timestamps or log file name of the store. */
  predicate IsStampFile(s: Store, f: AbsPath) {
    f != [] && (f[|f| - 1] == s.fileName || f[|f| - 1] == s.walFileName)
  }

  /** The files a walk from `top` consumes: timestamps and log files in entered directories, but not the store's own document. */
  ghost function Found(env: Env, s: Store, top: AbsPath): set<AbsPath> {
    set f | f in env.fs.files && f != s.dumpPath && IsStampFile(s, f) && Reachable(env, s.config.common, top, Parent(f))
  }

  ghost function FoundIn(env: Env, s: Store, cs: seq<AbsPath>): set<AbsPath>
    decreases |cs|
  {
    if cs == [] then {} else Found(env, s, cs[0]) + FoundIn(env, s, cs[1..])
  }

  /** The files consumed in `path` itself. */
  function Local(fs: FileSystem, s: Store, path: AbsPath): set<AbsPath> {
    Consumable(fs, s, path + [s.fileName]) + Consumable(fs, s, path + [s.walFileName])
  }

  /** Stores with the same configuration and file names find the same files. */
  predicate SameLayout(s: Store, r: Store) {
    r.config == s.config && r.fileName == s.fileName && r.walFileName == s.walFileName && r.dumpPath == s.dumpPath
  }

  lemma FoundSame(env: Env, s: Store, r: Store, top: AbsPath)
    requires SameLayout(s, r)
    ensures Found(env, r, top) == Found(env, s, top)
  {
  }

  lemma {:induction false} FoundInSame(env: Env, s: Store, r: Store, cs: seq<AbsPath>)
    requires SameLayout(s, r)
    ensures FoundIn(env, r, cs) == FoundIn(env, s, cs)
    decreases |cs|
  {
    if cs != [] {
      FoundSame(env, s, r, cs[0]);
      FoundInSame(env, s, r, cs[1..]);
    }
  }

  lemma {:induction false} FoundInMember(env: Env, s: Store, cs: seq<AbsPath>, f: AbsPath)
    ensures f in FoundIn(env, s, cs) <==> exists i :: 0 <= i < |cs| && f in Found(env, s, cs[i])
    decreases |cs|
  {
    if cs != [] {
      FoundInMember(env, s, cs[1..], f);
      if f in FoundIn(env, s, cs[1..]) {
        var i :| 0 <= i < |cs| - 1 && f in Found(env, s, cs[1..][i]);
        assert cs[1..][i] == cs[i + 1];
      }
      if exists i :: 0 <= i < |cs| && f in Found(env, s, cs[i]) {
        var i :| 0 <= i < |cs| && f in Found(env, s, cs[i]);
        if i > 0 {
          assert cs[i] == cs[1..][i - 1];
        }
      }
    }
  }

  /** A walk from a path that is no directory, or is skipped, finds nothing. */
  lemma FoundOutside(env: Env, s: Store, path: AbsPath)
    requires path !in env.fs.dirs || Skipped(env, s.config.common, path)
    ensures Found(env, s, path) == {}
  {
  }

  /** A file found from `path` in a deeper directory is found from the child directory on the way. */
  lemma FoundFromChild(env: Env, s: Store, path: AbsPath, f: AbsPath)
    requires f in Found(env, s, path) && |Parent(f)| > |path|
    ensures var child := Parent(f)[..|path| + 1];
            child in env.fs.dirs && path <= child && |child| == |path| + 1 && f in Found(env, s, child)
  {
    var c := s.config.common;
    var d := Parent(f);
    var child := d[..|path| + 1];
    assert child[..|path|] == d[..|path|];
    assert Reachable(env, c, child, d) by {
      forall k | |child| <= k <= |d| ensures d[..k] in env.fs.dirs && !Skipped(env, c, d[..k]) {
        assert |path| <= k;
      }
    }
  }

  /** A file found from an entered directory is in the directory itself or found from one of its child directories. */
  lemma FoundDown(env: Env, s: Store, path: AbsPath, f: AbsPath)
    requires path in env.fs.dirs && !Skipped(env, s.config.common, path)
    requires f in Found(env, s, path)
    ensures f in Local(env.fs, s, path) + FoundIn(env, s, ChildDirs(env.fs, path))
  {
    var d := Parent(f);
    if |d| == |path| {
      assert d == d[..|path|] == path;
      assert f == path + [f[|f| - 1]];
    } else {
      var cs := ChildDirs(env.fs, path);
      FoundFromChild(env, s, path, f);
      var i :| 0 <= i < |cs| && cs[i] == d[..|path| + 1];
      FoundInMember(env, s, cs, f);
    }
  }

  /** A file found from a child directory is found from its parent when the parent is entered. */
  lemma FoundUp(env: Env, s: Store, path: AbsPath, child: AbsPath, f: AbsPath)
    requires path in env.fs.dirs && !Skipped(env, s.config.common, path)
    requires child in Below(env.fs, path) && |child| == |path| + 1
    requires f in Found(env, s, child)
    ensures f in Found(env, s, path)
  {
    var c := s.config.common;
    var d := Parent(f);
    assert child[..|path|] == path;
    assert d[..|child|] == child;
    assert d[..|path|] == path;
    forall k | |path| <= k <= |d| ensures d[..k] in env.fs.dirs && !Skipped(env, c, d[..k]) {
      if k == |path| {
        assert d[..k] == path;
      } else {
        assert |child| <= k;
      }
    }
  }

  /** Everything found from an entered directory is in it or found from a child directory. */
  lemma FoundBelow(env: Env, s: Store, path: AbsPath)
    requires path in env.fs.dirs && !Skipped(env, s.config.common, path)
    ensures Found(env, s, path) <= Local(env.fs, s, path) + FoundIn(env, s, ChildDirs(env.fs, path))
  {
    forall f | f in Found(env, s, path)
      ensures f in Local(env.fs, s, path) + FoundIn(env, s, ChildDirs(env.fs, path))
    {
      FoundDown(env, s, path, f);
    }
  }

  /** The files of an entered directory are found from it. */
  lemma LocalFound(env: Env, s: Store, path: AbsPath)
    requires path in env.fs.dirs && !Skipped(env, s.config.common, path)
    ensures Local(env.fs, s, path) <= Found(env, s, path)
  {
    assert Reachable(env, s.config.common, path, path) by {
      assert path[..|path|] == path;
    }
    var f1, f2 := path + [s.fileName], path + [s.walFileName];
    assert Parent(f1) == path && IsStampFile(s, f1);
    assert Parent(f2) == path && IsStampFile(s, f2);
  }

  /** What the walks from child directories find is found from their entered parent. */
  lemma {:induction false} FoundInUp(env: Env, s: Store, path: AbsPath, cs: seq<AbsPath>)
    requires path in env.fs.dirs && !Skipped(env, s.config.common, path)
    requires forall i :: 0 <= i < |cs| ==> cs[i] in Below(env.fs, path) && |cs[i]| == |path| + 1
    ensures FoundIn(env, s, cs) <= Found(env, s, path)
    decreases |cs|
  {
    if cs != [] {
      forall f | f in Found(env, s, cs[0]) ensures f in Found(env, s, path) {
        FoundUp(env, s, path, cs[0], f);
      }
      FoundInUp(env, s, path, cs[1..]);
    }
  }

  /** A walk from an entered directory finds the files there and what the walks from its child directories find. */
  lemma FoundSplit(env: Env, s: Store, path: AbsPath)
    requires path in env.fs.dirs && !Skipped(env, s.config.common, path)
    ensures Found(env, s, path) == Local(env.fs, s, path) + FoundIn(env, s, ChildDirs(env.fs, path))
  {
    FoundBelow(env, s, path);
    LocalFound(env, s, path);
    FoundInUp(env, s, path, ChildDirs(env.fs, path));
  }

  /** The consumed set after a directory's own files and its children's walks. */
  lemma ConsumedStep(env: Env, s: Store, s1: Store, s2: Store, r: Store, path: AbsPath)
    requires path in env.fs.dirs && !Skipped(env, s.config.common, path)
    requires SameLayout(s, s1) && SameLayout(s, s2)
    requires s1.consumed == s.consumed + Consumable(env.fs, s, path + [s.fileName])
    requires s2.consumed == s1.consumed + Consumable(env.fs, s1, path + [s.walFileName])
    requires r.consumed == s2.consumed + FoundIn(env, s2, ChildDirs(env.fs, path))
    ensures r.consumed == s.consumed + Found(env, s, path)
  {
    FoundInSame(env, s, s2, ChildDirs(env.fs, path));
    FoundSplit(env, s, path);
  }

  /**
    `_consume_all_child_timestamps`: a directory that exists and is not
    skipped has its two files consumed, then every directory inside it.
   */
  function ConsumeAll(s: Store, env: Env, path: AbsPath): (r: Store)
    ensures r == s.(timestamps := r.timestamps, consumed := r.consumed)
    ensures Grows(s, r)
    ensures r.consumed == s.consumed + Found(env, s, path)
    decreases |Below(env.fs, path)|, 1, 0
  {
    if path !in env.fs.dirs || Skipped(env, s.config.common, path) then
      FoundOutside(env, s, path);
      s
    else
      var s1 := ConsumeChild(s, env, path + [s.fileName]);
      var s2 := ConsumeChild(s1, env, path + [s.walFileName]);
      var cs := ChildDirs(env.fs, path);
      var r := ConsumeChildren(s2, env, path, cs);
      GrowsTrans(s, s1, s2);
      GrowsTrans(s, s2, r);
      ConsumedStep(env, s, s1, s2, r, path);
      r
  }

  /** `for dir_entry in path.iterdir()`, the directories among them. */
  function ConsumeChildren(s: Store, env: Env, parent: AbsPath, cs: seq<AbsPath>): (r: Store)
    requires forall i :: 0 <= i < |cs| ==> cs[i] in Below(env.fs, parent)
    ensures r == s.(timestamps := r.timestamps, consumed := r.consumed)
    ensures Grows(s, r)
    ensures r.consumed == s.consumed + FoundIn(env, s, cs)
    decreases |Below(env.fs, parent)|, 0, |cs|
  {
    if cs == [] then s
    else
      BelowShrinks(env.fs, parent, cs[0]);
      var s1 := ConsumeAll(s, env, cs[0]);
      var r := ConsumeChildren(s1, env, parent, cs[1..]);
      GrowsTrans(s, s1, r);
      FoundInSame(env, s, s1, cs[1..]);
      r
  }

  /**
    `_load_parent_timestamps`: from `path` upwards, while the path is not
    skipped and its parent is not "/", the parent's two files are loaded.
   */
  function LoadParents(s: Store, env: Env, path: AbsPath): (r: Store)
    ensures r == s.(timestamps := r.timestamps)
    ensures Grows(s, r)
    decreases |path|
  {
    if Parent(path) == Parent(Parent(path)) || Skipped(env, s.config.common, path) then s
    else
      var parent := Parent(path);
      var s1 := Loadf(s, env.fs, env.cwd, parent + [s.fileName]);
      var s2 := Loadf(s1, env.fs, env.cwd, parent + [s.walFileName]);
      var r := LoadParents(s2, env, parent);
      GrowsTrans(s, s1, s2);
      GrowsTrans(s, s2, r);
      r
  }

  /** `a` is a directory above `path` whose files the upward walk from `path` loads. */
  ghost predicate ParentLoaded(env: Env, c: CommonConfig, path: AbsPath, a: AbsPath) {
    && 1 <= |a| < |path| && path[..|a|] == a
    && forall k :: |a| < k <= |path| ==> !Skipped(env, c, path[..k])
  }

  /** The upward walk reads only the two files of the directories it loads. */
  lemma {:induction false} LoadParentsReadsOnlyLoaded(s: Store, env: Env, files: map<AbsPath, Value>, path: AbsPath)
    requires forall f :: IsStampFile(s, f) && ParentLoaded(env, s.config.common, path, Parent(f)) ==>
               (f in env.fs.files <==> f in files) && (f in files ==> env.fs.files[f] == files[f])
    ensures LoadParents(s, env, path) == LoadParents(s, env.(fs := env.fs.(files := files)), path)
    decreases |path|
  {
    var env2 := env.(fs := env.fs.(files := files));
    var c := s.config.common;
    if !(Parent(path) == Parent(Parent(path)) || Skipped(env, c, path)) {
      var parent := Parent(path);
      var f1, f2 := parent + [s.fileName], parent + [s.walFileName];
      assert Parent(f1) == parent && Parent(f2) == parent;
      assert ParentLoaded(env, c, path, parent) by {
        assert path[..|path|] == path;
      }
      assert Loadf(s, env.fs, env.cwd, f1) == Loadf(s, env2.fs, env.cwd, f1);
      var s1 := Loadf(s, env.fs, env.cwd, f1);
      assert Loadf(s1, env.fs, env.cwd, f2) == Loadf(s1, env2.fs, env.cwd, f2);
      var s2 := Loadf(s1, env.fs, env.cwd, f2);
      forall f | IsStampFile(s2, f) && ParentLoaded(env, s2.config.common, parent, Parent(f))
        ensures ParentLoaded(env, c, path, Parent(f))
      {
        var a := Parent(f);
        assert path[..|a|] == parent[..|a|];
        forall k | |a| < k <= |path| ensures !Skipped(env, c, path[..k]) {
          if k < |path| {
            assert path[..k] == parent[..k];
          }
        }
      }
      LoadParentsReadsOnlyLoaded(s2, env, files, parent);
    }
  }

  /** `loadf_tree`: the documents of the parents, then the whole subtree from the root. */
  function LoadTree(s: Store, env: Env): (r: Store)
    ensures r == s.(timestamps := r.timestamps, consumed := r.consumed)
    ensures Grows(s, r)
    ensures r.consumed == s.consumed + Found(env, s, s.rootDir)
  {
    var s1 := LoadParents(s, env, s.rootDir);
    var r := ConsumeAll(s1, env, s.rootDir);
    GrowsTrans(s, s1, r);
    FoundSame(env, s, s1, s.rootDir);
    r
  }

  /*
    What the walks load: every file a walk reads leaves its times in the
    result.  A file read later into a store that has grown meanwhile gives
    at least what it would give read first, since loading is monotone.
  */

  /**
    Files whose times a store that has grown since `s` carries into `r`
    have their times carried into `r` when read into `s` as well.
   */
  lemma LoadedEarlier(s: Store, s2: Store, env: Env, fs: set<AbsPath>, r: Store)
    requires s2.rootDir == s.rootDir && s2.config == s.config && Grows(s, s2)
    requires forall f :: f in fs ==> Grows(Loadf(s2, env.fs, env.cwd, f), r)
    ensures forall f :: f in fs ==> Grows(Loadf(s, env.fs, env.cwd, f), r)
  {
    forall f | f in fs ensures Grows(Loadf(s, env.fs, env.cwd, f), r) {
      LoadfMonotone(s, s2, env.fs, env.cwd, f);
      GrowsTrans(Loadf(s, env.fs, env.cwd, f), Loadf(s2, env.fs, env.cwd, f), r);
    }
  }

  /** The two files of an entered directory, read first, have their times in any store grown from the reads. */
  lemma LocalLoads(s: Store, env: Env, path: AbsPath, r: Store)
    requires r.rootDir == s.rootDir
    requires Grows(ConsumeChild(ConsumeChild(s, env, path + [s.fileName]), env, path + [s.walFileName]), r)
    ensures forall f :: f in Local(env.fs, s, path) ==> Grows(Loadf(s, env.fs, env.cwd, f), r)
  {
    var f1, f2 := path + [s.fileName], path + [s.walFileName];
    var s1 := ConsumeChild(s, env, f1);
    var s2 := ConsumeChild(s1, env, f2);
    GrowsTrans(s1, s2, r);
    LoadfMonotone(s, s1, env.fs, env.cwd, f2);
    GrowsTrans(Loadf(s, env.fs, env.cwd, f2), s2, r);
  }

  /** Every document the walk down from `path` finds has its times loaded into the result. */
  lemma {:induction false} ConsumeAllLoads(s: Store, env: Env, path: AbsPath)
    ensures forall f :: f in Found(env, s, path) ==> Grows(Loadf(s, env.fs, env.cwd, f), ConsumeAll(s, env, path))
    decreases |Below(env.fs, path)|, 1, 0
  {
    if path !in env.fs.dirs || Skipped(env, s.config.common, path) {
      FoundOutside(env, s, path);
    } else {
      var s2 := ConsumeChild(ConsumeChild(s, env, path + [s.fileName]), env, path + [s.walFileName]);
      var cs := ChildDirs(env.fs, path);
      var r := ConsumeChildren(s2, env, path, cs);
      assert r == ConsumeAll(s, env, path);
      FoundSplit(env, s, path);
      FoundInSame(env, s, s2, cs);
      ConsumeChildrenLoads(s2, env, path, cs);
      LocalLoads(s, env, path, r);
      GrowsTrans(s, ConsumeChild(s, env, path + [s.fileName]), s2);
      LoadedEarlier(s, s2, env, FoundIn(env, s, cs), r);
    }
  }

  /** Every document the walks from the directories `cs` find has its times loaded into the result. */
  lemma {:induction false} ConsumeChildrenLoads(s: Store, env: Env, parent: AbsPath, cs: seq<AbsPath>)
    requires forall i :: 0 <= i < |cs| ==> cs[i] in Below(env.fs, parent)
    ensures forall f :: f in FoundIn(env, s, cs) ==>
              Grows(Loadf(s, env.fs, env.cwd, f), ConsumeChildren(s, env, parent, cs))
    decreases |Below(env.fs, parent)|, 0, |cs|
  {
    if cs != [] {
      BelowShrinks(env.fs, parent, cs[0]);
      var s1 := ConsumeAll(s, env, cs[0]);
      var r := ConsumeChildren(s1, env, parent, cs[1..]);
      ConsumeAllLoads(s, env, cs[0]);
      ConsumeChildrenLoads(s1, env, parent, cs[1..]);
      FoundInSame(env, s, s1, cs[1..]);
      forall f | f in FoundIn(env, s, cs) ensures Grows(Loadf(s, env.fs, env.cwd, f), r) {
        if f in Found(env, s, cs[0]) {
          GrowsTrans(Loadf(s, env.fs, env.cwd, f), s1, r);
        } else {
          LoadfMonotone(s, s1, env.fs, env.cwd, f);
          GrowsTrans(Loadf(s, env.fs, env.cwd, f), Loadf(s1, env.fs, env.cwd, f), r);
        }
      }
    }
  }

  /** Where the walk up stops, it enters no directory. */
  lemma NoParentLoaded(env: Env, c: CommonConfig, path: AbsPath)
    requires Parent(path) == Parent(Parent(path)) || Skipped(env, c, path)
    ensures forall a :: !ParentLoaded(env, c, path, a)
  {
    forall a ensures !ParentLoaded(env, c, path, a) {
      if Skipped(env, c, path) {
        assert path[..|path|] == path;
      }
    }
  }

  /** Both files of every directory the walk up from `path` enters have their times loaded into the result. */
  lemma {:induction false} LoadParentsLoads(s: Store, env: Env, path: AbsPath)
    ensures forall a :: ParentLoaded(env, s.config.common, path, a) ==>
              && Grows(Loadf(s, env.fs, env.cwd, a + [s.fileName]), LoadParents(s, env, path))
              && Grows(Loadf(s, env.fs, env.cwd, a + [s.walFileName]), LoadParents(s, env, path))
    decreases |path|
  {
    var c := s.config.common;
    if Parent(path) == Parent(Parent(path)) || Skipped(env, c, path) {
      NoParentLoaded(env, c, path);
    } else {
      var parent := Parent(path);
      var f1, f2 := parent + [s.fileName], parent + [s.walFileName];
      var s1 := Loadf(s, env.fs, env.cwd, f1);
      var s2 := Loadf(s1, env.fs, env.cwd, f2);
      var r := LoadParents(s2, env, parent);
      assert r == LoadParents(s, env, path);
      LoadParentsLoads(s2, env, parent);
      GrowsTrans(s, s1, s2);
      GrowsTrans(s1, s2, r);
      forall a | ParentLoaded(env, c, path, a)
        ensures && Grows(Loadf(s, env.fs, env.cwd, a + [s.fileName]), r)
                && Grows(Loadf(s, env.fs, env.cwd, a + [s.walFileName]), r)
      {
        if a == parent {
          LoadfMonotone(s, s1, env.fs, env.cwd, f2);
          GrowsTrans(Loadf(s, env.fs, env.cwd, f2), s2, r);
        } else {
          assert ParentLoaded(env, c, parent, a) by {
            assert path[..|path| - 1] == parent;
            assert parent[..|a|] == path[..|a|];
            forall k | |a| < k <= |parent| ensures !Skipped(env, c, parent[..k]) {
              assert parent[..k] == path[..k];
            }
          }
          var g1, g2 := a + [s.fileName], a + [s.walFileName];
          LoadfMonotone(s, s2, env.fs, env.cwd, g1);
          LoadfMonotone(s, s2, env.fs, env.cwd, g2);
          GrowsTrans(Loadf(s, env.fs, env.cwd, g1), Loadf(s2, env.fs, env.cwd, g1), r);
          GrowsTrans(Loadf(s, env.fs, env.cwd, g2), Loadf(s2, env.fs, env.cwd, g2), r);
        }
      }
    }
  }

  /**
    `loadf_tree` loads every timestamp file up and down the tree: both
    files of each ancestor directory the walk up enters, the store's own
    document when the root is entered, and every file the walk down finds.
   */
  lemma LoadTreeLoads(s: Store, env: Env)
    ensures forall a :: ParentLoaded(env, s.config.common, s.rootDir, a) ==>
              && Grows(Loadf(s, env.fs, env.cwd, a + [s.fileName]), LoadTree(s, env))
              && Grows(Loadf(s, env.fs, env.cwd, a + [s.walFileName]), LoadTree(s, env))
    ensures s.rootDir in env.fs.dirs && !Skipped(env, s.config.common, s.rootDir) && s.dumpPath == s.rootDir + [s.fileName] ==>
              Grows(Loadf(s, env.fs, env.cwd, s.dumpPath), LoadTree(s, env))
    ensures forall f :: f in Found(env, s, s.rootDir) ==> Grows(Loadf(s, env.fs, env.cwd, f), LoadTree(s, env))
  {
    var s1 := LoadParents(s, env, s.rootDir);
    var r := ConsumeAll(s1, env, s.rootDir);
    assert r == LoadTree(s, env);
    LoadParentsLoads(s, env, s.rootDir);
    ConsumeAllLoads(s1, env, s.rootDir);
    FoundSame(env, s, s1, s.rootDir);
    forall a | ParentLoaded(env, s.config.common, s.rootDir, a)
      ensures && Grows(Loadf(s, env.fs, env.cwd, a + [s.fileName]), r)
              && Grows(Loadf(s, env.fs, env.cwd, a + [s.walFileName]), r)
    {
      GrowsTrans(Loadf(s, env.fs, env.cwd, a + [s.fileName]), s1, r);
      GrowsTrans(Loadf(s, env.fs, env.cwd, a + [s.walFileName]), s1, r);
    }
    forall f | f in Found(env, s, s.rootDir) ensures Grows(Loadf(s, env.fs, env.cwd, f), r) {
      LoadfMonotone(s, s1, env.fs, env.cwd, f);
      GrowsTrans(Loadf(s, env.fs, env.cwd, f), Loadf(s1, env.fs, env.cwd, f), r);
    }
    if s.rootDir in env.fs.dirs && !Skipped(env, s.config.common, s.rootDir) && s.dumpPath == s.rootDir + [s.fileName] {
      var own := ConsumeChild(s1, env, s.dumpPath);
      var s2 := ConsumeChild(own, env, s.rootDir + [s.walFileName]);
      var rest := ConsumeChildren(s2, env, s.rootDir, ChildDirs(env.fs, s.rootDir));
      assert r == rest;
      GrowsTrans(own, s2, r);
      LoadfMonotone(s, s1, env.fs, env.cwd, s.dumpPath);
      GrowsTrans(Loadf(s, env.fs, env.cwd, s.dumpPath), own, r);
    }
  }

  /** The store's own document is never marked consumed by loading, so cleanup never deletes it. */
  lemma LoadTreeKeepsOwnDocument(s: Store, env: Env)
    requires s.dumpPath !in s.consumed
    ensures s.dumpPath !in LoadTree(s, env).consumed
  {
  }
}

=== FILE: normalize.dfy ===
/**
  The config normaliser of treestamps/config.py: mappings get their items
  sorted, lists and tuples become sorted tuples (duplicates kept), sets
  become frozensets, scalars and None pass through.  Comparing normalised
  values is the only check that decides whether a stored timestamps file was
  written under the current configuration.
 */
module Normalize {
  import opened Ordering
  import opened Values

  function Normalize(v: Value): (r: Value)
    ensures !(v.List? || v.Set? || v.Map?) ==> r == v
    ensures r.List? == v.List? && r.Set? == v.Set? && r.Map? == v.Map?
  {
    match v
    case List(xs) => List(SortValues(NormalizeAll(xs)))
    case Set(xs) => Set(SortValueSet(NormalizeAll(xs)))
    case Map(es) => Map(SortEntries(NormalizeEntries(es)))
    case _ => v
  }

  /** `sorted(xs)`. */
  function SortValues(xs: seq<Value>): (r: seq<Value>)
    ensures multiset(r) == multiset(xs) && Sorted(r, Le)
  {
    LeTotal();
    Sort(xs, Le)
  }

  /** The elements of `frozenset(xs)` in ascending order. */
  function SortValueSet(xs: seq<Value>): (r: seq<Value>)
    ensures (forall x :: x in r <==> x in xs) && StrictlySorted(r, Le)
  {
    LeTotal();
    var s := Sort(xs, Le);
    assert forall x :: x in s <==> x in multiset(s);
    Dedup(s, Le)
  }

  /** `sorted(items)` for the items of a mapping. */
  function SortEntries(es: seq<Entry>): (r: seq<Entry>)
    ensures multiset(r) == multiset(es) && Sorted(r, EntryLe)
  {
    EntryLeTotal();
    Sort(es, EntryLe)
  }

  lemma SortedValuesUnique(a: seq<Value>, b: seq<Value>)
    requires Sorted(a, Le) && Sorted(b, Le) && multiset(a) == multiset(b)
    ensures a == b
  {
    LeTotal();
    SortedUnique(a, b, Le);
  }

  lemma StrictValuesUnique(a: seq<Value>, b: seq<Value>)
    requires StrictlySorted(a, Le) && StrictlySorted(b, Le)
    requires forall x :: x in a <==> x in b
    ensures a == b
  {
    LeTotal();
    StrictlySortedUnique(a, b, Le);
  }

  lemma SortedEntriesUnique(a: seq<Entry>, b: seq<Entry>)
    requires Sorted(a, EntryLe) && Sorted(b, EntryLe) && multiset(a) == multiset(b)
    ensures a == b
  {
    EntryLeTotal();
    SortedUnique(a, b, EntryLe);
  }

  lemma SameMultisetSameElements<T>(a: seq<T>, b: seq<T>)
    requires multiset(a) == multiset(b)
    ensures forall x :: x in a <==> x in b
  {
    forall x ensures x in a <==> x in b {
      assert x in a <==> x in multiset(a);
      assert x in b <==> x in multiset(b);
    }
  }

  function NormalizeAll(xs: seq<Value>): (r: seq<Value>)
    ensures |r| == |xs|
    ensures forall i :: 0 <= i < |xs| ==> r[i] == Normalize(xs[i])
  {
    seq(|xs|, i requires 0 <= i < |xs| => Normalize(xs[i]))
  }

  function NormalizeEntries(es: seq<Entry>): (r: seq<Entry>)
    ensures |r| == |es|
    ensures forall i :: 0 <= i < |es| ==> r[i] == Entry(es[i].key, Normalize(es[i].value))
  {
    seq(|es|, i requires 0 <= i < |es| => Entry(es[i].key, Normalize(es[i].value)))
  }

  /**
    The canonical forms, defined independently of the normaliser: every
    list sorted, every set strictly sorted, every mapping's items sorted,
    all the way down.
   */
  predicate IsNormal(v: Value) {
    match v
    case List(xs) => Sorted(xs, Le) && forall i :: 0 <= i < |xs| ==> IsNormal(xs[i])
    case Set(xs) => StrictlySorted(xs, Le) && forall i :: 0 <= i < |xs| ==> IsNormal(xs[i])
    case Map(es) => Sorted(es, EntryLe) && forall i :: 0 <= i < |es| ==> IsNormal(es[i].value)
    case _ => true
  }

  /** A list or tuple becomes a tuple of its normalised items ... */
  lemma NormalizeListItems(xs: seq<Value>)
    ensures multiset(Normalize(List(xs)).items) == multiset(NormalizeAll(xs))
  {
  }

  /** ... in ascending order. */
  lemma NormalizeListSorted(xs: seq<Value>)
    ensures Sorted(Normalize(List(xs)).items, Le)
  {
  }

  /** A set becomes the frozenset of its normalised elements ... */
  lemma NormalizeSetElements(xs: seq<Value>)
    ensures forall x :: x in Normalize(Set(xs)).elems <==> x in NormalizeAll(xs)
  {
  }

  /** ... held once each, in ascending order. */
  lemma NormalizeSetSorted(xs: seq<Value>)
    ensures StrictlySorted(Normalize(Set(xs)).elems, Le)
  {
  }

  /** A mapping becomes the items of its normalised values ... */
  lemma NormalizeMapItems(es: seq<Entry>)
    ensures multiset(Normalize(Map(es)).entries) == multiset(NormalizeEntries(es))
  {
  }

  /** ... sorted by key. */
  lemma NormalizeMapSorted(es: seq<Entry>)
    ensures Sorted(Normalize(Map(es)).entries, EntryLe)
  {
  }

  /** A normalised mapping has the same keys ... */
  lemma NormalizeMapKeys(es: seq<Entry>)
    ensures Keys(Normalize(Map(es)).entries) == Keys(es)
  {
    NormalizeMapItems(es);
    var r := Normalize(Map(es)).entries;
    var n := NormalizeEntries(es);
    SameMultisetSameElements(r, n);
    SameElementsSameKeys(r, n);
    NormalizeEntriesKeys(es);
  }

  /** Entry sequences with the same elements have the same keys. */
  lemma SameElementsSameKeys(a: seq<Entry>, b: seq<Entry>)
    requires forall x :: x in a <==> x in b
    ensures Keys(a) == Keys(b)
  {
    assert forall k :: k in Keys(a) ==> k in Keys(b);
  }

  /** Normalising the values keeps the keys. */
  lemma NormalizeEntriesKeys(es: seq<Entry>)
    ensures Keys(NormalizeEntries(es)) == Keys(es)
  {
    var n := NormalizeEntries(es);
    forall k | k in Keys(es) ensures k in Keys(n) {
      var i :| 0 <= i < |es| && es[i].key == k;
      assert n[i] in n;
    }
    forall k | k in Keys(n) ensures k in Keys(es) {
      var i :| 0 <= i < |n| && n[i].key == k;
      assert es[i] in es;
    }
  }

  /** ... and each value is the normalised value of that key in the original. */
  lemma NormalizeMapValues(es: seq<Entry>)
    ensures forall e :: e in Normalize(Map(es)).entries ==>
      exists i :: 0 <= i < |es| && es[i].key == e.key && e.value == Normalize(es[i].value)
  {
    NormalizeMapItems(es);
    var r := Normalize(Map(es)).entries;
    var n := NormalizeEntries(es);
    SameMultisetSameElements(r, n);
    forall e | e in r
      ensures exists i :: 0 <= i < |es| && es[i].key == e.key && e.value == Normalize(es[i].value)
    {
      var i :| 0 <= i < |n| && n[i] == e;
      assert es[i].key == e.key && e.value == Normalize(es[i].value);
    }
  }

  /** Every normalised value is in canonical form. */
  lemma {:induction false} NormalizeIsNormal(v: Value)
    ensures IsNormal(Normalize(v))
    decreases v
  {
    match v
    case List(xs) =>
      NormalizeListItems(xs);
      NormalizeListSorted(xs);
      var r := Normalize(v).items;
      forall k | 0 <= k < |r| ensures IsNormal(r[k]) {
        assert r[k] in multiset(NormalizeAll(xs));
        var i :| 0 <= i < |xs| && NormalizeAll(xs)[i] == r[k];
        NormalizeIsNormal(xs[i]);
      }
    case Set(xs) =>
      NormalizeSetElements(xs);
      NormalizeSetSorted(xs);
      var r := Normalize(v).elems;
      forall k | 0 <= k < |r| ensures IsNormal(r[k]) {
        assert r[k] in NormalizeAll(xs);
        var i :| 0 <= i < |xs| && NormalizeAll(xs)[i] == r[k];
        NormalizeIsNormal(xs[i]);
      }
    case Map(es) =>
      NormalizeMapItems(es);
      NormalizeMapSorted(es);
      var r := Normalize(v).entries;
      forall k | 0 <= k < |r| ensures IsNormal(r[k].value) {
        assert r[k] in multiset(NormalizeEntries(es));
        var i :| 0 <= i < |es| && NormalizeEntries(es)[i] == r[k];
        NormalizeIsNormal(es[i].value);
      }
    case _ =>
  }

  /** A value already in canonical form is left as it is. */
  lemma {:induction false} NormalFixpoint(v: Value)
    requires IsNormal(v)
    ensures Normalize(v) == v
    decreases v
  {
    match v
    case List(xs) =>
      forall i | 0 <= i < |xs| ensures Normalize(xs[i]) == xs[i] {
        NormalFixpoint(xs[i]);
      }
      assert NormalizeAll(xs) == xs;
      NormalizeListItems(xs);
      NormalizeListSorted(xs);
      SortedValuesUnique(Normalize(v).items, xs);
    case Set(xs) =>
      forall i | 0 <= i < |xs| ensures Normalize(xs[i]) == xs[i] {
        NormalFixpoint(xs[i]);
      }
      assert NormalizeAll(xs) == xs;
      NormalizeSetElements(xs);
      NormalizeSetSorted(xs);
      StrictValuesUnique(Normalize(v).elems, xs);
    case Map(es) =>
      forall i | 0 <= i < |es| ensures Normalize(es[i].value) == es[i].value {
        NormalFixpoint(es[i].value);
      }
      assert NormalizeEntries(es) == es;
      NormalizeMapItems(es);
      NormalizeMapSorted(es);
      SortedEntriesUnique(Normalize(v).entries, es);
    case _ =>
  }

  /** The normaliser fixes exactly the canonical forms. */
  lemma NormalizeFixesExactlyNormal(v: Value)
    ensures Normalize(v) == v <==> IsNormal(v)
  {
    NormalizeIsNormal(v);
    if IsNormal(v) {
      NormalFixpoint(v);
    }
  }

  /** Normalising twice is normalising once. */
  lemma NormalizeIdempotent(v: Value)
    ensures Normalize(Normalize(v)) == Normalize(v)
  {
    NormalizeIsNormal(v);
    NormalFixpoint(Normalize(v));
  }

  /** Normalising element-wise preserves "same elements with the same multiplicities". */
  lemma NormalizeAllPermutation(xs: seq<Value>, ys: seq<Value>)
    requires multiset(xs) == multiset(ys)
    ensures multiset(NormalizeAll(xs)) == multiset(NormalizeAll(ys))
  {
    assert NormalizeAll(xs) == MapSeq(xs, Normalize);
    assert NormalizeAll(ys) == MapSeq(ys, Normalize);
    MapSeqPermutation(xs, ys, Normalize);
  }

  /** Any reordering of a list or tuple normalises to the same tuple. */
  lemma NormalizeListPermutation(xs: seq<Value>, ys: seq<Value>)
    requires multiset(xs) == multiset(ys)
    ensures Normalize(List(xs)) == Normalize(List(ys))
  {
    NormalizeAllPermutation(xs, ys);
    NormalizeListItems(xs);
    NormalizeListItems(ys);
    NormalizeListSorted(xs);
    NormalizeListSorted(ys);
    SortedValuesUnique(Normalize(List(xs)).items, Normalize(List(ys)).items);
  }

  lemma NormalizeAllSameElements(xs: seq<Value>, ys: seq<Value>)
    requires forall x :: x in xs ==> x in ys
    ensures forall x :: x in NormalizeAll(xs) ==> x in NormalizeAll(ys)
  {
    var a, b := NormalizeAll(xs), NormalizeAll(ys);
    forall x | x in a ensures x in b {
      var i :| 0 <= i < |xs| && a[i] == x;
      assert xs[i] in ys;
      var j :| 0 <= j < |ys| && ys[j] == xs[i];
      assert b[j] == x;
    }
  }

  /** A set normalises to the same frozenset whatever its insertion order and repeats. */
  lemma NormalizeSetOrder(xs: seq<Value>, ys: seq<Value>)
    requires forall x :: x in xs <==> x in ys
    ensures Normalize(Set(xs)) == Normalize(Set(ys))
  {
    NormalizeAllSameElements(xs, ys);
    NormalizeAllSameElements(ys, xs);
    NormalizeSetElements(xs);
    NormalizeSetElements(ys);
    NormalizeSetSorted(xs);
    NormalizeSetSorted(ys);
    StrictValuesUnique(Normalize(Set(xs)).elems, Normalize(Set(ys)).elems);
  }

  lemma NormalizeAllInts(xs: seq<Value>)
    requires forall i :: 0 <= i < |xs| ==> xs[i].Int?
    ensures NormalizeAll(xs) == xs
  {
  }

  lemma SortedExample(a: int, b: int, c: int)
    requires a < b < c
    ensures Sorted([Int(a), Int(b), Int(b), Int(c)], Le)
  {
    assert Le(Int(a), Int(b)) && Le(Int(b), Int(b)) && Le(Int(b), Int(c)) && Le(Int(a), Int(c));
  }

  /** A list of integers normalises to the one sorted rearrangement of it. */
  lemma NormalizeIntList(xs: seq<Value>, want: seq<Value>)
    requires forall i :: 0 <= i < |xs| ==> xs[i].Int?
    requires Sorted(want, Le) && multiset(want) == multiset(xs)
    ensures Normalize(List(xs)) == List(want)
  {
    NormalizeAllInts(xs);
    NormalizeListItems(xs);
    NormalizeListSorted(xs);
    SortedValuesUnique(Normalize(List(xs)).items, want);
  }

  /**
    Lists keep their duplicates: [c, b, a, b] normalises to (a, b, b, c),
    not to the de-duplicated (a, b, c) the docstring describes.
   */
  lemma NormalizeKeepsDuplicates(a: int, b: int, c: int)
    requires a < b < c
    ensures Normalize(List([Int(c), Int(b), Int(a), Int(b)])) == List([Int(a), Int(b), Int(b), Int(c)])
  {
    var xs := [Int(c), Int(b), Int(a), Int(b)];
    var want := [Int(a), Int(b), Int(b), Int(c)];
    assert multiset(want) == multiset(xs) by {
      assert want == [xs[2], xs[1], xs[3], xs[0]];
    }
    SortedExample(a, b, c);
    NormalizeIntList(xs, want);
  }
}

=== FILE: option.dfy ===
/** Python's `X | None`. */
module Optional {
  datatype Option<T> = None | Some(value: T)
}

=== FILE: ordering.dfy ===
/**
  Orders and sorting shared by the config normaliser, the dumper and the
  grove.  Every ordered type of the model (config values, mapping entries,
  paths) is ordered through an injective encoding into integer sequences
  compared by `LexLe`, so one lexicographic order carries all the proofs.
 */
module Ordering {

  /** `le` is a total order: total, antisymmetric and transitive. */
  ghost predicate TotalOrder<T(!new)>(le: (T, T) -> bool) {
    && (forall a, b :: le(a, b) || le(b, a))
    && (forall a, b :: le(a, b) && le(b, a) ==> a == b)
    && (forall a, b, c :: le(a, b) && le(b, c) ==> le(a, c))
  }

  /** Lexicographic order on integer sequences; a proper prefix comes first. */
  function LexLe(a: seq<int>, b: seq<int>): bool {
    if a == [] then true
    else if b == [] then false
    else if a[0] != b[0] then a[0] < b[0]
    else LexLe(a[1..], b[1..])
  }

  lemma {:induction false} LexConnex(a: seq<int>, b: seq<int>)
    ensures LexLe(a, b) || LexLe(b, a)
  {
    if a != [] && b != [] && a[0] == b[0] {
      LexConnex(a[1..], b[1..]);
    }
  }

  lemma {:induction false} LexAntisymmetric(a: seq<int>, b: seq<int>)
    requires LexLe(a, b) && LexLe(b, a)
    ensures a == b
  {
    if a != [] && b != [] {
      LexAntisymmetric(a[1..], b[1..]);
      assert a == [a[0]] + a[1..] && b == [b[0]] + b[1..];
    }
  }

  lemma {:induction false} LexTransitive(a: seq<int>, b: seq<int>, c: seq<int>)
    requires LexLe(a, b) && LexLe(b, c)
    ensures LexLe(a, c)
  {
    if a != [] && b != [] && c != [] && a[0] == b[0] && b[0] == c[0] {
      LexTransitive(a[1..], b[1..], c[1..]);
    }
  }

  /** Sequences that differ before either ends are ordered where they differ, whatever follows them. */
  lemma {:induction false} LexLeAppend(x: seq<int>, y: seq<int>, r1: seq<int>, r2: seq<int>)
    requires !(x <= y) && !(y <= x)
    ensures LexLe(x + r1, y + r2) == LexLe(x, y)
  {
    assert x != [] && y != [];
    assert (x + r1)[0] == x[0] && (y + r2)[0] == y[0];
    if x[0] == y[0] {
      assert (x + r1)[1..] == x[1..] + r1 && (y + r2)[1..] == y[1..] + r2;
      assert x == [x[0]] + x[1..] && y == [y[0]] + y[1..];
      LexLeAppend(x[1..], y[1..], r1, r2);
    }
  }

  /** The lexicographic order is a total order. */
  lemma LexTotal()
    ensures TotalOrder(LexLe)
  {
    forall a, b ensures LexLe(a, b) || LexLe(b, a) {
      LexConnex(a, b);
    }
    forall a, b | LexLe(a, b) && LexLe(b, a) ensures a == b {
      LexAntisymmetric(a, b);
    }
    forall a, b, c | LexLe(a, b) && LexLe(b, c) ensures LexLe(a, c) {
      LexTransitive(a, b, c);
    }
  }

  predicate Sorted<T>(s: seq<T>, le: (T, T) -> bool) {
    forall i, j :: 0 <= i < j < |s| ==> le(s[i], s[j])
  }

  /** Sorted and free of duplicates. */
  predicate StrictlySorted<T(==)>(s: seq<T>, le: (T, T) -> bool) {
    forall i, j :: 0 <= i < j < |s| ==> le(s[i], s[j]) && s[i] != s[j]
  }

  /** A sorted tail under a head that is below all of it is sorted. */
  lemma SortedCons<T>(h: T, t: seq<T>, le: (T, T) -> bool)
    requires Sorted(t, le)
    requires forall k :: 0 <= k < |t| ==> le(h, t[k])
    ensures Sorted([h] + t, le)
  {
    var r := [h] + t;
    forall i, j | 0 <= i < j < |r| ensures le(r[i], r[j]) {
      if i > 0 {
        assert r[i] == t[i - 1] && r[j] == t[j - 1];
      } else {
        assert r[j] == t[j - 1];
      }
    }
  }

  /** A strictly sorted tail under a head that is strictly below all of it is strictly sorted. */
  lemma StrictlySortedCons<T>(h: T, t: seq<T>, le: (T, T) -> bool)
    requires StrictlySorted(t, le)
    requires forall y :: y in t ==> le(h, y) && h != y
    ensures StrictlySorted([h] + t, le)
  {
    var r := [h] + t;
    forall i, j | 0 <= i < j < |r| ensures le(r[i], r[j]) && r[i] != r[j] {
      assert r[j] == t[j - 1] && r[j] in t;
      if i > 0 {
        assert r[i] == t[i - 1];
      }
    }
  }

  /** Inserts `x` before the first element it does not exceed. */
  function Insert<T(!new)>(x: T, s: seq<T>, le: (T, T) -> bool): (r: seq<T>)
    requires TotalOrder(le)
    requires Sorted(s, le)
    ensures multiset(r) == multiset(s) + multiset{x}
    ensures Sorted(r, le)
  {
    if s == [] || le(x, s[0]) then
      SortedCons(x, s, le);
      [x] + s
    else
      var rest := Insert(x, s[1..], le);
      assert s == [s[0]] + s[1..];
      assert forall k :: 0 <= k < |rest| ==> le(s[0], rest[k]) by {
        forall k | 0 <= k < |rest| ensures le(s[0], rest[k]) {
          assert rest[k] in multiset(rest);
          if rest[k] != x {
            assert rest[k] in s[1..];
          }
        }
      }
      SortedCons(s[0], rest, le);
      [s[0]] + rest
  }

  /** Insertion sort: the sorted permutation of `s`. */
  function Sort<T(!new)>(s: seq<T>, le: (T, T) -> bool): (r: seq<T>)
    requires TotalOrder(le)
    ensures multiset(r) == multiset(s)
    ensures Sorted(r, le)
  {
    if s == [] then []
    else
      assert s == [s[0]] + s[1..];
      Insert(s[0], Sort(s[1..], le), le)
  }

  /** The head of a sorted sequence is below every element. */
  lemma SortedHeadLeast<T(!new)>(a: seq<T>, x: T, le: (T, T) -> bool)
    requires TotalOrder(le)
    requires Sorted(a, le) && x in a
    ensures le(a[0], x)
  {
    var k :| 0 <= k < |a| && a[k] == x;
    if k == 0 { assert le(x, x) || le(x, x); } else { assert le(a[0], a[k]); }
  }

  lemma SortedHeadsEqual<T(!new)>(a: seq<T>, b: seq<T>, le: (T, T) -> bool)
    requires TotalOrder(le)
    requires Sorted(a, le) && Sorted(b, le)
    requires a != [] && multiset(a) == multiset(b)
    ensures b != [] && a[0] == b[0]
  {
    assert a[0] in multiset(a);
    assert b[0] in multiset(b) by { assert |b| == |multiset(b)| > 0; }
    SortedHeadLeast(b, a[0], le);
    SortedHeadLeast(a, b[0], le);
  }

  lemma TailsSameMultiset<T>(a: seq<T>, b: seq<T>)
    requires a != [] && b != [] && a[0] == b[0] && multiset(a) == multiset(b)
    ensures multiset(a[1..]) == multiset(b[1..])
  {
    assert a == [a[0]] + a[1..] && b == [b[0]] + b[1..];
    calc {
      multiset(a[1..]);
      multiset([a[0]] + a[1..]) - multiset{a[0]};
      multiset(b) - multiset{b[0]};
      multiset([b[0]] + b[1..]) - multiset{b[0]};
      multiset(b[1..]);
    }
  }

  /** A sorted sequence is determined by its multiset of elements. */
  lemma {:induction false} SortedUnique<T(!new)>(a: seq<T>, b: seq<T>, le: (T, T) -> bool)
    requires TotalOrder(le)
    requires Sorted(a, le) && Sorted(b, le)
    requires multiset(a) == multiset(b)
    ensures a == b
  {
    if a != [] {
      SortedHeadsEqual(a, b, le);
      TailsSameMultiset(a, b);
      SortedUnique(a[1..], b[1..], le);
      assert a == [a[0]] + a[1..] && b == [b[0]] + b[1..];
    } else {
      assert |b| == |multiset(b)| == 0;
    }
  }

  /** Sorting an already sorted sequence changes nothing. */
  lemma SortSorted<T(!new)>(s: seq<T>, le: (T, T) -> bool)
    requires TotalOrder(le)
    requires Sorted(s, le)
    ensures Sort(s, le) == s
  {
    SortedUnique(Sort(s, le), s, le);
  }

  /** Sorting forgets the input order. */
  lemma SortPermutation<T(!new)>(a: seq<T>, b: seq<T>, le: (T, T) -> bool)
    requires TotalOrder(le)
    requires multiset(a) == multiset(b)
    ensures Sort(a, le) == Sort(b, le)
  {
    SortedUnique(Sort(a, le), Sort(b, le), le);
  }

  /** Drops adjacent repeats; on a sorted input the result is strictly sorted. */
  function Dedup<T(==,!new)>(s: seq<T>, le: (T, T) -> bool): (r: seq<T>)
    requires TotalOrder(le)
    requires Sorted(s, le)
    ensures forall x :: x in r <==> x in s
    ensures StrictlySorted(r, le)
  {
    if |s| <= 1 then s
    else
      var rest := Dedup(s[1..], le);
      assert forall y :: y in s[1..] ==> le(s[1], y) by {
        forall y | y in s[1..] ensures le(s[1], y) {
          var k :| 1 <= k < |s| && s[k] == y;
          if k > 1 { assert le(s[1], s[k]); }
        }
      }
      if s[0] == s[1] then
        assert forall x :: x in s <==> x in s[1..] by {
          assert s == [s[0]] + s[1..];
        }
        rest
      else
        assert s == [s[0]] + s[1..];
        assert forall y :: y in rest ==> le(s[0], y) && s[0] != y by {
          forall y | y in rest ensures le(s[0], y) && s[0] != y {
            assert le(s[1], y);
            assert le(s[0], s[1]);
          }
        }
        [s[0]] + rest
  }

  /** A strictly sorted sequence is determined by its set of elements. */
  lemma {:induction false} StrictlySortedUnique<T(!new)>(a: seq<T>, b: seq<T>, le: (T, T) -> bool)
    requires TotalOrder(le)
    requires StrictlySorted(a, le) && StrictlySorted(b, le)
    requires forall x :: x in a <==> x in b
    ensures a == b
  {
    if a == [] {
      assert forall k :: 0 <= k < |b| ==> b[k] in b;
    } else {
      assert a[0] in b;
      assert b != [];
      assert b[0] in a;
      SortedHeadLeast(b, a[0], le);
      SortedHeadLeast(a, b[0], le);
      assert a[0] == b[0];
      assert a == [a[0]] + a[1..] && b == [b[0]] + b[1..];
      assert forall x :: x in a[1..] <==> x in b[1..] by {
        forall x ensures x in a[1..] <==> x in b[1..] {
          if x in a[1..] {
            var k :| 1 <= k < |a| && a[k] == x;
            assert x != a[0] && x in b;
          }
          if x in b[1..] {
            var k :| 1 <= k < |b| && b[k] == x;
            assert x != b[0] && x in a;
          }
        }
      }
      StrictlySortedUnique(a[1..], b[1..], le);
    }
  }

  /** Every non-empty finite set has a least element. */
  lemma {:induction false} LeastExists<T(!new)>(s: set<T>, le: (T, T) -> bool)
    requires TotalOrder(le)
    requires s != {}
    ensures exists m :: m in s && forall y :: y in s ==> le(m, y)
    decreases s
  {
    var x :| x in s;
    if s == {x} {
      assert le(x, x);
      assert forall y :: y in s ==> y == x;
    } else {
      LeastExists(s - {x}, le);
      var m :| m in s - {x} && forall y :: y in s - {x} ==> le(m, y);
      LeastAdd(s, x, m, le);
    }
  }

  /** The lesser of one element and the least of the others is least in the whole set. */
  lemma LeastAdd<T(!new)>(s: set<T>, x: T, m: T, le: (T, T) -> bool)
    requires TotalOrder(le)
    requires x in s && m in s - {x} && forall y :: y in s - {x} ==> le(m, y)
    ensures exists l :: l in s && forall y :: y in s ==> le(l, y)
  {
    var l := if le(m, x) then m else x;
    forall y | y in s ensures le(l, y) {
      if y != x {
        assert le(m, y);
      }
    }
  }

  /** The elements of a finite set in ascending order. */
  function SortedElements<T(==,!new)>(s: set<T>, le: (T, T) -> bool): (r: seq<T>)
    requires TotalOrder(le)
    ensures forall x :: x in r <==> x in s
    ensures StrictlySorted(r, le)
    ensures |r| == |s|
    decreases s
  {
    if s == {} then []
    else
      LeastExists(s, le);
      var m :| m in s && forall y :: y in s ==> le(m, y);
      var rest := SortedElements(s - {m}, le);
      assert forall y :: y in rest ==> le(m, y) && m != y;
      StrictlySortedCons(m, rest, le);
      [m] + rest
  }

  /** `f` applied to every element. */
  function MapSeq<A, B>(xs: seq<A>, f: A -> B): (r: seq<B>)
    ensures |r| == |xs|
    ensures forall i :: 0 <= i < |xs| ==> r[i] == f(xs[i])
  {
    seq(|xs|, i requires 0 <= i < |xs| => f(xs[i]))
  }

  lemma MultisetRemove<T>(ys: seq<T>, j: int)
    requires 0 <= j < |ys|
    ensures multiset(ys[..j] + ys[j + 1..]) == multiset(ys) - multiset{ys[j]}
  {
    assert ys == ys[..j] + [ys[j]] + ys[j + 1..];
  }

  /** Two sequences agree as multisets when they do after removing one equal element from each. */
  lemma MultisetRestore<T>(a: seq<T>, i: int, b: seq<T>, j: int)
    requires 0 <= i < |a| && 0 <= j < |b| && a[i] == b[j]
    requires multiset(a[..i] + a[i + 1..]) == multiset(b[..j] + b[j + 1..])
    ensures multiset(a) == multiset(b)
  {
    assert a == a[..i] + [a[i]] + a[i + 1..];
    assert b == b[..j] + [b[j]] + b[j + 1..];
    calc {
      multiset(a);
      multiset(a[..i] + a[i + 1..]) + multiset{a[i]};
      multiset(b[..j] + b[j + 1..]) + multiset{b[j]};
      multiset(b);
    }
  }

  lemma MapSeqRemove<A, B>(ys: seq<A>, j: int, f: A -> B)
    requires 0 <= j < |ys|
    ensures multiset(MapSeq(ys[..j] + ys[j + 1..], f)) + multiset{f(ys[j])} == multiset(MapSeq(ys, f))
  {
    var my := MapSeq(ys, f);
    assert MapSeq(ys[..j] + ys[j + 1..], f) == my[..j] + my[j + 1..];
    assert my == my[..j] + [my[j]] + my[j + 1..];
  }

  lemma MapSeqPermutationStep<A, B>(xs: seq<A>, ys: seq<A>, j: int, f: A -> B)
    requires xs != [] && 0 <= j < |ys| && ys[j] == xs[0]
    requires multiset(MapSeq(xs[1..], f)) == multiset(MapSeq(ys[..j] + ys[j + 1..], f))
    ensures multiset(MapSeq(xs, f)) == multiset(MapSeq(ys, f))
  {
    assert MapSeq(xs, f) == [f(xs[0])] + MapSeq(xs[1..], f);
    MapSeqRemove(ys, j, f);
    calc {
      multiset(MapSeq(xs, f));
      multiset(MapSeq(xs[1..], f)) + multiset{f(xs[0])};
      multiset(MapSeq(ys[..j] + ys[j + 1..], f)) + multiset{f(ys[j])};
      multiset(MapSeq(ys, f));
    }
  }

  /** Mapping a function over two rearrangements of one sequence gives rearrangements of one sequence. */
  lemma {:induction false} MapSeqPermutation<A, B>(xs: seq<A>, ys: seq<A>, f: A -> B)
    requires multiset(xs) == multiset(ys)
    ensures multiset(MapSeq(xs, f)) == multiset(MapSeq(ys, f))
    decreases |xs|
  {
    if xs == [] {
      assert |ys| == |multiset(ys)| == 0;
    } else {
      assert xs[0] in multiset(ys);
      var j :| 0 <= j < |ys| && ys[j] == xs[0];
      assert xs == [xs[0]] + xs[1..];
      MultisetRemove(ys, j);
      MapSeqPermutation(xs[1..], ys[..j] + ys[j + 1..], f);
      MapSeqPermutationStep(xs, ys, j, f);
    }
  }
}

=== FILE: paths.dfy ===
/**
  Paths as pathlib holds them, purely lexically: a path is its list of
  components, `is_relative_to` is a prefix test, and the parent of "/" is
  "/" itself.  Symlinks are never resolved (treestamps/tree/init.py keeps
  symlinked paths as given), so ".." is an ordinary component.
 */
module Paths {
  import opened Ordering
  import opened Values
  import opened Optional

  /** A component pathlib keeps after parsing: non-empty, no separator, not ".". */
  predicate ValidName(s: string) {
    s != [] && s != "." && '/' !in s
  }

  predicate ValidPath(p: seq<string>) {
    forall i :: 0 <= i < |p| ==> ValidName(p[i])
  }

  /** An absolute path as its components below "/"; [] is "/" itself. */
  type AbsPath = seq<string>

  /** A `PurePosixPath`: absolute or relative, and its components. */
  datatype PathArg = PathArg(absolute: bool, parts: seq<string>)

  /** `path.is_relative_to(root)`, lexically. */
  predicate IsRelativeTo(path: AbsPath, root: AbsPath): (r: bool)
    ensures r <==> |root| <= |path| && root + path[|root|..] == path
  {
    root <= path
  }

  /** `path.parent`; "/" is its own parent. */
  function Parent(p: AbsPath): (r: AbsPath)
    ensures p == [] ==> r == []
    ensures p != [] ==> r + [p[|p| - 1]] == p
  {
    if p == [] then [] else p[..|p| - 1]
  }

  /** `path.absolute()`: a relative path is joined to the working directory. */
  function Absolute(cwd: AbsPath, p: PathArg): (r: AbsPath)
    ensures p.absolute ==> r == p.parts
    ensures !p.absolute ==> IsRelativeTo(r, cwd) && r[|cwd|..] == p.parts
  {
    if p.absolute then p.parts else cwd + p.parts
  }

  /*
    Parsing and printing.
  */

  /** Index of the first '/' in `s`, or |s| when there is none. */
  function SlashIndex(s: string): (k: nat)
    ensures k <= |s|
    ensures k < |s| ==> s[k] == '/'
    ensures forall i :: 0 <= i < k ==> s[i] != '/'
  {
    if s == [] || s[0] == '/' then 0 else 1 + SlashIndex(s[1..])
  }

  /** The components of a path string: split at '/', dropping empty and "." parts. */
  function Components(s: string): (r: seq<string>)
    ensures ValidPath(r)
    decreases |s|
  {
    if s == [] then []
    else
      var k := SlashIndex(s);
      var name := s[..k];
      var rest := if k < |s| then s[k + 1..] else [];
      assert forall i :: 0 <= i < |name| ==> name[i] == s[i];
      (if name == [] || name == "." then [] else [name]) + Components(rest)
  }

  /**
    `Path(s)`.  pathlib keeps exactly two leading slashes as a root of their
    own ("//x" is not "/x"); here any number of leading slashes reads as "/".
   */
  function ParsePath(s: string): (r: PathArg)
    ensures ValidPath(r.parts)
    ensures r.absolute <==> s != [] && s[0] == '/'
  {
    PathArg(s != [] && s[0] == '/', Components(s))
  }

  /** Components joined with '/'. */
  function Join(parts: seq<string>): string {
    if parts == [] then []
    else if |parts| == 1 then parts[0]
    else parts[0] + "/" + Join(parts[1..])
  }

  /** Proper components join to a text that starts with the first one's first character and is not ".". */
  lemma JoinStart(parts: seq<string>)
    ensures parts != [] && ValidPath(parts) ==>
              Join(parts) != [] && Join(parts)[0] == parts[0][0] && Join(parts) != "."
  {
    if |parts| > 1 && ValidPath(parts) {
      assert Join(parts) == parts[0] + "/" + Join(parts[1..]);
      assert |Join(parts)| >= 2;
    }
  }

  /** `str(path)`: "/" before an absolute path, "." for the empty relative path. */
  function PathStr(p: PathArg): string {
    if p.absolute then "/" + Join(p.parts)
    else if p.parts == [] then "."
    else Join(p.parts)
  }

  lemma SlashIndexAfterName(a: string, x: string)
    requires '/' !in a
    requires x != [] && x[0] == '/'
    ensures SlashIndex(a + x) == |a|
    decreases |a|
  {
    if a != [] {
      assert (a + x)[1..] == a[1..] + x;
      SlashIndexAfterName(a[1..], x);
    }
  }

  lemma SlashIndexNone(a: string)
    requires '/' !in a
    ensures SlashIndex(a) == |a|
  {
    if a != [] {
      SlashIndexNone(a[1..]);
    }
  }

  /** Splitting a joined list of valid components gives the components back. */
  lemma {:induction false} ComponentsJoin(parts: seq<string>)
    requires ValidPath(parts)
    ensures Components(Join(parts)) == parts
    decreases |parts|
  {
    if parts == [] {
    } else if |parts| == 1 {
      var a := parts[0];
      SlashIndexNone(a);
      assert a[..|a|] == a;
    } else {
      var a := parts[0];
      var x := "/" + Join(parts[1..]);
      assert Join(parts) == a + x;
      SlashIndexAfterName(a, x);
      assert (a + x)[..|a|] == a;
      assert (a + x)[|a| + 1..] == Join(parts[1..]);
      ComponentsJoin(parts[1..]);
      assert parts == [a] + parts[1..];
    }
  }

  lemma ComponentsLeadingSlash(s: string)
    ensures Components("/" + s) == Components(s)
  {
    var t := "/" + s;
    assert SlashIndex(t) == 0;
    assert t[1..] == s;
  }

  /** `Path(str(p)) == p` for every path with valid components. */
  lemma ParsePrintRoundTrip(p: PathArg)
    requires ValidPath(p.parts)
    ensures ParsePath(PathStr(p)) == p
  {
    ComponentsJoin(p.parts);
    if p.absolute {
      ComponentsLeadingSlash(Join(p.parts));
    } else if p.parts == [] {
      assert Components(".") == [] by {
        assert SlashIndex(".") == 1;
        assert "."[..1] == ".";
      }
    } else {
      assert Join(p.parts)[0] != '/' by {
        if |p.parts| == 1 {
          assert Join(p.parts) == p.parts[0];
        } else {
          assert Join(p.parts) == p.parts[0] + "/" + Join(p.parts[1..]);
        }
        assert p.parts[0][0] != '/';
      }
    }
  }

  /** Distinct paths with proper components print differently. */
  lemma PathStrInjective(p: PathArg, q: PathArg)
    requires ValidPath(p.parts) && ValidPath(q.parts)
    requires PathStr(p) == PathStr(q)
    ensures p == q
  {
    ParsePrintRoundTrip(p);
    ParsePrintRoundTrip(q);
  }

  /*
    The resolver of treestamps/tree/init.py.
  */

  /**
    `_get_absolute_path(root, path)`: an input whose absolute form lies in
    `root`'s tree is kept; another relative input is taken under `root`; an
    absolute input above `root` is clamped to `root`; any other absolute
    input is outside the tree.
   */
  function Resolve(cwd: AbsPath, root: AbsPath, p: PathArg): (r: Option<AbsPath>)
    ensures r.Some? ==> IsRelativeTo(r.value, root)
    ensures r.None? <==> p.absolute && !IsRelativeTo(p.parts, root) && !IsRelativeTo(root, p.parts)
    ensures p.absolute && IsRelativeTo(p.parts, root) ==> r == Some(p.parts)
    ensures p.absolute && !IsRelativeTo(p.parts, root) && IsRelativeTo(root, p.parts) ==> r == Some(root)
    ensures !p.absolute ==> r == Some(if IsRelativeTo(cwd + p.parts, root) then cwd + p.parts else root + p.parts)
  {
    var abs := Absolute(cwd, p);
    if IsRelativeTo(abs, root) then Some(abs)
    else if !p.absolute then Some(root + p.parts)
    else if IsRelativeTo(root, p.parts) then Some(root)
    else None
  }

  /** A path inside the tree given absolutely resolves to itself, whatever the working directory. */
  lemma ResolveInside(cwd: AbsPath, root: AbsPath, p: AbsPath)
    requires IsRelativeTo(p, root)
    ensures Resolve(cwd, root, PathArg(true, p)) == Some(p)
  {
  }

  /** Resolving twice changes nothing: a result is an absolute path inside the tree. */
  lemma ResolveIdempotent(cwd: AbsPath, root: AbsPath, p: PathArg)
    requires Resolve(cwd, root, p).Some?
    ensures Resolve(cwd, root, PathArg(true, Resolve(cwd, root, p).value)) == Resolve(cwd, root, p)
  {
  }

  /** `abs_path.relative_to(root)` for a path inside the tree. */
  function RelativeTo(p: AbsPath, root: AbsPath): (r: seq<string>)
    requires IsRelativeTo(p, root)
    ensures root + r == p
    ensures ValidPath(p) ==> ValidPath(r)
  {
    p[|root|..]
  }

  /** `str(abs_path.relative_to(root))`: "." for the root itself. */
  function RelativePathStr(p: AbsPath, root: AbsPath): (r: string)
    requires IsRelativeTo(p, root)
    ensures p == root ==> r == "."
    ensures ValidPath(p) && p != root ==> r != "." && r != [] && r[0] != '/'
  {
    JoinStart(RelativeTo(p, root));
    PathStr(PathArg(false, RelativeTo(p, root)))
  }

  /** A relative key written for a path inside the tree resolves back to that path under the tree's root. */
  lemma RelativePathStrRoundTrip(p: AbsPath, root: AbsPath)
    requires ValidPath(p) && IsRelativeTo(p, root)
    ensures ParsePath(RelativePathStr(p, root)) == PathArg(false, RelativeTo(p, root))
    ensures root + ParsePath(RelativePathStr(p, root)).parts == p
  {
    var rel := RelativeTo(p, root);
    assert forall i :: 0 <= i < |rel| ==> rel[i] == p[|root| + i];
    ParsePrintRoundTrip(PathArg(false, rel));
  }

  /** Two paths of one tree get the same relative key only if they are the same path. */
  lemma RelativePathStrInjective(p: AbsPath, q: AbsPath, root: AbsPath)
    requires ValidPath(p) && ValidPath(q)
    requires IsRelativeTo(p, root) && IsRelativeTo(q, root)
    requires RelativePathStr(p, root) == RelativePathStr(q, root)
    ensures p == q
  {
    RelativePathStrRoundTrip(p, root);
    RelativePathStrRoundTrip(q, root);
  }

  /**
    The working directories from which every relative key written for a
    path of the tree resolves back to that path: the root itself, or a
    directory that is neither inside the tree nor above its root.
   */
  predicate KeysResolveFrom(cwd: AbsPath, root: AbsPath) {
    cwd == root || (!IsRelativeTo(cwd, root) && !IsRelativeTo(root, cwd))
  }

  /** From such a working directory, the relative key of a path of the tree resolves to the path. */
  lemma ResolveRelativeKey(cwd: AbsPath, root: AbsPath, p: AbsPath)
    requires ValidPath(p) && IsRelativeTo(p, root) && KeysResolveFrom(cwd, root)
    ensures Resolve(cwd, root, ParsePath(RelativePathStr(p, root))) == Some(p)
  {
    RelativePathStrRoundTrip(p, root);
  }

  /**
    A working directory inside the tree, or above its root, misplaces the
    key of some path: `KeysResolveFrom` is exactly the condition under
    which every key resolves back.
   */
  lemma KeysResolveExactly(cwd: AbsPath, root: AbsPath)
    requires ValidPath(root)
    ensures (forall p :: ValidPath(p) && IsRelativeTo(p, root) ==>
               Resolve(cwd, root, ParsePath(RelativePathStr(p, root))) == Some(p))
            <==> KeysResolveFrom(cwd, root)
  {
    if KeysResolveFrom(cwd, root) {
      forall p | ValidPath(p) && IsRelativeTo(p, root)
        ensures Resolve(cwd, root, ParsePath(RelativePathStr(p, root))) == Some(p)
      {
        ResolveRelativeKey(cwd, root, p);
      }
    } else if IsRelativeTo(cwd, root) {
      var p := root + ["x"];
      RelativePathStrRoundTrip(p, root);
      assert RelativeTo(p, root) == ["x"];
      assert (cwd + ["x"])[..|root|] == root;
      assert Resolve(cwd, root, ParsePath(RelativePathStr(p, root))) == Some(cwd + ["x"]);
    } else {
      var d := root[|cwd|..];
      var p := root + d;
      assert root == cwd + d;
      assert ValidPath(p);
      RelativePathStrRoundTrip(p, root);
      assert RelativeTo(p, root) == d;
      assert Resolve(cwd, root, ParsePath(RelativePathStr(p, root))) == Some(root);
    }
  }

  /*
    Ordering of absolute paths, component by component.
  */

  function PathLe(a: AbsPath, b: AbsPath): bool {
    Le(List(Strs(a)), List(Strs(b)))
  }

  lemma StrsInjective(a: seq<string>, b: seq<string>)
    requires Strs(a) == Strs(b)
    ensures a == b
  {
    assert |a| == |b|;
    forall i | 0 <= i < |a| ensures a[i] == b[i] {
      assert Strs(a)[i] == Str(a[i]) && Strs(b)[i] == Str(b[i]);
    }
  }

  lemma PathLeTotal()
    ensures TotalOrder(PathLe)
  {
    LeTotal();
    forall a, b | PathLe(a, b) && PathLe(b, a) ensures a == b {
      StrsInjective(a, b);
    }
  }

  /*
    File names of treestamps/tree/init.py.
  */

  const FileSuffix: string := "_treestamps.yaml"
  const WalFileSuffix: string := "_treestamps.wal.yaml"

  /** `get_filename`: ".{program_name}_treestamps.yaml". */
  function FileName(programName: string): string {
    "." + programName + FileSuffix
  }

  /** `get_wal_filename`: ".{program_name}_treestamps.wal.yaml". */
  function WalFileName(programName: string): string {
    "." + programName + WalFileSuffix
  }

  /** `get_filenames`: the pair of names the program writes. */
  function FileNames(programName: string): (r: (string, string))
    ensures r.0 != r.1
  {
    FileNamesDiffer(programName, programName);
    (FileName(programName), WalFileName(programName))
  }

  /** The program name inside a timestamps file name. */
  function ProgramOfFileName(name: string): Option<string> {
    if |name| >= 1 + |FileSuffix| && name[0] == '.' && name[|name| - |FileSuffix|..] == FileSuffix
    then Some(name[1..|name| - |FileSuffix|])
    else None
  }

  /** The file name determines the program name. */
  lemma FileNameRoundTrip(programName: string)
    ensures ProgramOfFileName(FileName(programName)) == Some(programName)
  {
    var n := FileName(programName);
    assert n[|n| - |FileSuffix|..] == FileSuffix;
    assert n[1..|n| - |FileSuffix|] == programName;
  }

  /** No timestamps file name of one program is the log file name of any program. */
  lemma FileNamesDiffer(n: string, m: string)
    ensures FileName(n) != WalFileName(m)
  {
    var a, b := FileName(n), WalFileName(m);
    assert a[|a| - 6] == FileSuffix[|FileSuffix| - 6] == 's';
    assert b[|b| - 6] == WalFileSuffix[|WalFileSuffix| - 6] == 'l';
  }

  /** Distinct programs use distinct file names. */
  lemma FileNameInjective(n: string, m: string)
    requires FileName(n) == FileName(m)
    ensures n == m
  {
    FileNameRoundTrip(n);
    FileNameRoundTrip(m);
  }
}

=== FILE: table.dfy ===
/**
  The timestamp table of treestamps/tree/get.py and treestamps/tree/set.py:
  a map from absolute paths to times, read hierarchically.  The time of a
  path is the largest time recorded at the path or at any of its
  ancestors, except that an entry at "/" itself never counts: the walk in
  `get` stops when it reaches a path that is its own parent.
 */
module Timestamps {
  import opened Optional
  import opened Paths

  type Table = map<AbsPath, int>

  /** `max_none`: the larger of the present arguments, None when neither is. */
  function MaxNone(a: Option<int>, b: Option<int>): (r: Option<int>)
    ensures r.None? <==> a.None? && b.None?
    ensures r.Some? ==> r == a || r == b
    ensures a.Some? ==> r.Some? && a.value <= r.value
    ensures b.Some? ==> r.Some? && b.value <= r.value
  {
    if a.None? then b
    else if b.None? then a
    else if a.value < b.value then b
    else a
  }

  /** `timestamps.get(p)`. */
  function Lookup(t: Table, p: AbsPath): Option<int> {
    if p in t then Some(t[p]) else None
  }

  /** An entry at `d` bears on `p`: `d` is `p` or an ancestor of it, and not "/". */
  predicate Governs(d: AbsPath, p: AbsPath) {
    d != [] && d <= p
  }

  /** `a` is None or at most `b`. */
  predicate AtMost(a: Option<int>, b: Option<int>) {
    a.None? || (b.Some? && a.value <= b.value)
  }

  /**
    The loop of `get` from `p` upwards with `acc` as the time so far:
    the maximum of `acc` and of every entry governing `p`.
   */
  function Walk(t: Table, acc: Option<int>, p: AbsPath): (r: Option<int>)
    ensures r.None? <==> acc.None? && forall d :: d in t ==> !Governs(d, p)
    ensures r.Some? ==> r == acc || exists d :: d in t && Governs(d, p) && t[d] == r.value
    ensures AtMost(acc, r)
    ensures forall d :: d in t && Governs(d, p) ==> r.Some? && t[d] <= r.value
    decreases |p|
  {
    if p == Parent(p) then acc
    else
      var up := Parent(p);
      assert forall d :: Governs(d, p) && d != p ==> Governs(d, up) by {
        forall d | Governs(d, p) && d != p ensures Governs(d, up) {
          assert up == p[..|p| - 1];
        }
      }
      assert forall d :: Governs(d, up) ==> Governs(d, p);
      Walk(t, MaxNone(acc, Lookup(t, p)), up)
  }

  /** The hierarchical time of an absolute path. */
  function Get(t: Table, p: AbsPath): (r: Option<int>)
    ensures r.None? <==> forall d :: d in t ==> !Governs(d, p)
    ensures r.Some? ==> exists d :: d in t && Governs(d, p) && t[d] == r.value
    ensures forall d :: d in t && Governs(d, p) ==> r.Some? && t[d] <= r.value
  {
    Walk(t, None, p)
  }

  /** `Get` is pinned down by the entries governing the path. */
  lemma GetUnique(t: Table, p: AbsPath, r: Option<int>)
    requires r.None? <==> forall d :: d in t ==> !Governs(d, p)
    requires r.Some? ==> exists d :: d in t && Governs(d, p) && t[d] == r.value
    requires forall d :: d in t && Governs(d, p) ==> r.Some? && t[d] <= r.value
    ensures Get(t, p) == r
  {
    var g := Get(t, p);
    if r.Some? {
      var d :| d in t && Governs(d, p) && t[d] == r.value;
      var e :| e in t && Governs(e, p) && t[e] == g.value;
      assert t[e] <= r.value && t[d] <= g.value;
    }
  }

  /** Entries that do not govern a path do not change its time. */
  lemma GetGoverned(t: Table, u: Table, p: AbsPath)
    requires forall d :: Governs(d, p) ==> (d in t <==> d in u)
    requires forall d :: Governs(d, p) && d in t ==> t[d] == u[d]
    ensures Get(t, p) == Get(u, p)
  {
    var r := Get(u, p);
    if r.Some? {
      var d :| d in u && Governs(d, p) && u[d] == r.value;
      assert d in t;
    }
    GetUnique(t, p, r);
  }

  /** Ancestor dominance: a recorded time holds for everything below its path. */
  lemma GetDominates(t: Table, d: AbsPath, p: AbsPath)
    requires d in t && d != [] && IsRelativeTo(p, d)
    ensures Get(t, p).Some? && t[d] <= Get(t, p).value
  {
    assert Governs(d, p);
  }

  /** A time below a path is at most the time of the path: `Get` grows downwards. */
  lemma GetGrowsDownwards(t: Table, p: AbsPath, q: AbsPath)
    requires IsRelativeTo(q, p)
    ensures AtMost(Get(t, p), Get(t, q))
  {
    var g := Get(t, p);
    if g.Some? {
      var d :| d in t && Governs(d, p) && t[d] == g.value;
      assert Governs(d, q);
    }
  }

  /** Raising or adding governing entries never lowers the time of a path. */
  lemma GetMonotone(t: Table, u: Table, p: AbsPath)
    requires forall d :: d in t && Governs(d, p) ==> d in u && t[d] <= u[d]
    ensures AtMost(Get(t, p), Get(u, p))
  {
    var g := Get(t, p);
    if g.Some? {
      var d :| d in t && Governs(d, p) && t[d] == g.value;
      assert d in u;
    }
  }

  /**
    Storing `ts` at `q`, where any earlier entry at `q` was at most `ts`,
    joins `ts` into the time of every path `q` governs and changes no other.
   */
  lemma GetAfterPut(t: Table, q: AbsPath, ts: int, p: AbsPath)
    requires q != [] && q in t ==> t[q] <= ts
    ensures Get(t[q := ts], p) == if Governs(q, p) then MaxNone(Get(t, p), Some(ts)) else Get(t, p)
  {
    var u := t[q := ts];
    if Governs(q, p) {
      var r := MaxNone(Get(t, p), Some(ts));
      if r != Some(ts) {
        var g := Get(t, p);
        var d :| d in t && Governs(d, p) && t[d] == g.value;
        assert d in u && u[d] == r.value;
      }
      assert forall d :: d in u && Governs(d, p) ==> u[d] <= r.value by {
        forall d | d in u && Governs(d, p) ensures u[d] <= r.value {
          if d != q {
            assert d in t;
          }
        }
      }
      GetUnique(u, p, r);
    } else {
      GetGoverned(t, u, p);
    }
  }

  /*
    Compaction.
  */

  /**
    `_compact_timestamps_below(root)`: when `root` is a directory with an
    entry, every entry at or below `root` whose time is below the root's is
    dropped; the root's own entry, ties and entries elsewhere stay.
   */
  function Compact(t: Table, root: AbsPath, rootIsDir: bool): (r: Table)
    ensures !rootIsDir || root !in t ==> r == t
    ensures rootIsDir && root in t ==>
              forall p :: p in r <==> p in t && !(IsRelativeTo(p, root) && t[p] < t[root])
    ensures forall p :: p in r ==> p in t && r[p] == t[p]
  {
    if !rootIsDir || root !in t then t
    else map p | p in t && !(IsRelativeTo(p, root) && t[p] < t[root]) :: t[p]
  }

  /** Compaction below any path but "/" changes the time of no path. */
  lemma CompactPreservesGet(t: Table, root: AbsPath, rootIsDir: bool, p: AbsPath)
    requires root != []
    ensures Get(Compact(t, root, rootIsDir), p) == Get(t, p)
  {
    var c := Compact(t, root, rootIsDir);
    if rootIsDir && root in t {
      var g := Get(t, p);
      if g.Some? {
        var d :| d in t && Governs(d, p) && t[d] == g.value;
        if IsRelativeTo(d, root) {
          assert Governs(root, p);
          assert t[root] <= t[d];
        }
        assert d in c;
      }
      GetUnique(c, p, g);
    }
  }

  /** Compaction below every path: `Get` is unchanged everywhere. */
  lemma CompactPreservesAllGets(t: Table, root: AbsPath, rootIsDir: bool)
    requires root != []
    ensures forall p :: Get(Compact(t, root, rootIsDir), p) == Get(t, p)
  {
    forall p ensures Get(Compact(t, root, rootIsDir), p) == Get(t, p) {
      CompactPreservesGet(t, root, rootIsDir, p);
    }
  }

  /**
    Compaction below "/" drops entries that only the entry at "/" dominated,
    but `get` never counts that entry: a later time below "/" is lost.
   */
  lemma CompactAtFilesystemRootLoses(name: string, lo: int, hi: int)
    requires lo < hi
    ensures var t := map[[] := hi, [name] := lo];
            Get(t, [name]) == Some(lo) && Get(Compact(t, [], true), [name]) == None
  {
    var t := map[[] := hi, [name] := lo];
    var c := Compact(t, [], true);
    assert [name] !in c;
    assert Governs([name], [name]);
    assert forall d :: d in c ==> d == [];
  }

  /**
    Compaction as `set` should apply it: below any directory but "/",
    whose own entry `get` ignores.
   */
  function CompactKeepingGet(t: Table, root: AbsPath, rootIsDir: bool): (r: Table)
    ensures forall p :: Get(r, p) == Get(t, p)
    ensures forall p :: p in r ==> p in t && r[p] == t[p]
    ensures root in t ==> root in r
  {
    if root == [] then t
    else
      CompactPreservesAllGets(t, root, rootIsDir);
      Compact(t, root, rootIsDir)
  }
}

=== FILE: tree.dfy ===
/**
  The state of one `Treestamps` object (treestamps/tree/init.py) and the
  operations that read and record times: `get` (treestamps/tree/get.py),
  `set` with its write-ahead log (treestamps/tree/set.py) and closing the
  log (treestamps/tree/dump.py).  The open log file is modelled by the
  lines written to it so far.
 */
module Tree {
  import opened Optional
  import opened Paths
  import opened Config
  import opened Fs
  import opened Timestamps
  import opened Wal

  datatype Store = Store(
    config: TreeConfig,
    rootDir: AbsPath,
    fileName: string,
    walFileName: string,
    dumpPath: AbsPath,
    walPath: AbsPath,
    walOpen: bool,             // `_wal` is an open file
    walText: seq<string>,      // the lines written to the log file
    consumed: set<AbsPath>,    // `_consumed_paths`
    timestamps: Table)

  /** What `__init__` establishes and every operation keeps. */
  predicate Valid(s: Store) {
    && PostInitialised(s.config.common)
    && s.fileName == FileName(s.config.common.programName)
    && s.walFileName == WalFileName(s.config.common.programName)
    && s.dumpPath == s.rootDir + [s.fileName]
    && s.walPath == s.rootDir + [s.walFileName]
    && (s.walOpen ==> s.walPath in s.consumed)
  }

  /** `__init__`: the root is the directory of the configured path, made absolute. */
  function Init(env: Env, config: TreeConfig): (s: Store)
    requires PostInitialised(config.common)
    ensures Valid(s)
    ensures s.config == config
    ensures s.rootDir == Absolute(env.cwd, GetDir(env, config.path))
    ensures Parent(s.dumpPath) == s.rootDir && Parent(s.walPath) == s.rootDir
    ensures s.dumpPath != s.walPath
    ensures !s.walOpen && s.walText == [] && s.consumed == {} && s.timestamps == map[]
  {
    var root := Absolute(env.cwd, GetDir(env, config.path));
    var names := FileNames(config.common.programName);
    Store(config, root, names.0, names.1, root + [names.0], root + [names.1],
          false, [], {}, map[])
  }

  /**
    `get`: the hierarchical time of a path resolved against the root; None
    for a path outside the tree.
   */
  function Get(s: Store, cwd: AbsPath, p: PathArg): (r: Option<int>)
    ensures Resolve(cwd, s.rootDir, p).None? ==> r.None?
    ensures Resolve(cwd, s.rootDir, p).Some? ==>
              var a := Resolve(cwd, s.rootDir, p).value;
              && (r.None? <==> forall d :: d in s.timestamps ==> !Governs(d, a))
              && (r.Some? ==> exists d :: d in s.timestamps && Governs(d, a) && s.timestamps[d] == r.value)
              && (forall d :: d in s.timestamps && Governs(d, a) ==> r.Some? && s.timestamps[d] <= r.value)
  {
    match Resolve(cwd, s.rootDir, p)
    case None => None
    case Some(a) => Timestamps.Get(s.timestamps, a)
  }

  /** `_close_wal`: only the log handle changes. */
  function CloseWal(s: Store): (r: Store)
    ensures !r.walOpen
    ensures r.(walOpen := s.walOpen) == s
    ensures Valid(s) ==> Valid(r)
  {
    s.(walOpen := false)
  }

  /**
    `_write_ahead_log`: open the log on first use, remembering it as
    consumed and writing its header, then append one line for the path,
    its key quoted only when it holds a ':'.
   */
  function WriteAheadLog(s: Store, a: AbsPath, mtime: int): (r: Store)
    requires Valid(s) && IsRelativeTo(a, s.rootDir)
    ensures Valid(r) && r.walOpen
    ensures r.walText == s.walText + (if s.walOpen then [] else [WalHeader])
                         + [WalLineAsWritten(RelativePathStr(a, s.rootDir), mtime)]
    ensures r.consumed == s.consumed + {s.walPath}
    ensures r == s.(walOpen := true, walText := r.walText, consumed := r.consumed)
  {
    var open := if s.walOpen then s
                  else s.(consumed := s.consumed + {s.walPath}, walOpen := true,
                          walText := s.walText + [WalHeader]);
    open.(walText := open.walText + [WalLineAsWritten(RelativePathStr(a, s.rootDir), mtime)])
  }

  /** The time `set` records: the given one, or the clock's. */
  function TimeOf(mtime: Option<int>, now: int): int {
    if mtime.Some? then mtime.value else now
  }

  /**
    `set` goes ahead unless a non-zero later time is already recorded at
    exactly that path: a path without an entry of its own is always
    accepted, even below a later time, and a refused path has a later time
    by `get` too.
   */
  predicate Accepts(s: Store, a: AbsPath, m: int): (r: bool)
    ensures a !in s.timestamps ==> r
    ensures a in s.timestamps && s.timestamps[a] <= m ==> r
    ensures a in s.timestamps && s.timestamps[a] == 0 ==> r
    ensures a in s.timestamps && s.timestamps[a] != 0 && s.timestamps[a] > m ==> !r
    ensures !r && a != [] ==> Timestamps.Get(s.timestamps, a).Some? && m < Timestamps.Get(s.timestamps, a).value
  {
    !(a in s.timestamps && s.timestamps[a] != 0 && s.timestamps[a] > m)
  }

  /**
    `set`: record a time for a path of the tree when `Accepts` allows it;
    optionally compact below it with `_compact_timestamps_below`; log it.
    Returns the time recorded, None when nothing was.  Every path keeps the
    time the new entry gives it, except when compacting at "/".
   */
  function Set(s: Store, env: Env, p: PathArg, mtime: Option<int>, now: int, compact: bool): (r: (Store, Option<int>))
    requires Valid(s)
    ensures var a := Resolve(env.cwd, s.rootDir, p);
            r.1.None? <==> a.None? || !Accepts(s, a.value, TimeOf(mtime, now))
    ensures r.1.None? ==> r.0 == s
    ensures r.1.Some? ==>
              var a := Resolve(env.cwd, s.rootDir, p).value;
              var m := TimeOf(mtime, now);
              var stored := s.timestamps[a := m];
              && r.1 == Some(m)
              && Valid(r.0)
              && a in r.0.timestamps && r.0.timestamps[a] == m
              && (forall q :: q in r.0.timestamps <==>
                    q in stored && !(compact && a in env.fs.dirs && IsRelativeTo(q, a) && stored[q] < m))
              && (forall q :: q in r.0.timestamps ==> r.0.timestamps[q] == stored[q])
              && (!compact || a != [] ==> forall q :: Timestamps.Get(r.0.timestamps, q) == Timestamps.Get(stored, q))
              && r.0.walText == s.walText + (if s.walOpen then [] else [WalHeader])
                                + [WalLineAsWritten(RelativePathStr(a, s.rootDir), m)]
              && r.0.consumed == s.consumed + {s.walPath}
              && r.0 == s.(timestamps := r.0.timestamps, walOpen := true, walText := r.0.walText,
                           consumed := r.0.consumed)
  {
    match Resolve(env.cwd, s.rootDir, p)
    case None => (s, None)
    case Some(a) =>
      var m := TimeOf(mtime, now);
      if !Accepts(s, a, m) then (s, None)
      else
        var stored := s.timestamps[a := m];
        var t := if compact then Compact(stored, a, a in env.fs.dirs) else stored;
        assert a != [] ==> forall q :: Timestamps.Get(Compact(stored, a, a in env.fs.dirs), q) == Timestamps.Get(stored, q) by {
          if a != [] {
            CompactPreservesAllGets(stored, a, a in env.fs.dirs);
          }
        }
        (WriteAheadLog(s.(timestamps := t), a, m), Some(m))
  }

  /**
    A store rooted at "/" holding only `/n`: setting "/" to a later time
    with compaction drops `/n`, whose time `get` then loses, since the
    entry at "/" itself is never counted.
   */
  lemma SetAtFilesystemRootLoses(s: Store, env: Env, n: string, lo: int, hi: int)
    requires Valid(s) && s.rootDir == [] && [] in env.fs.dirs
    requires s.timestamps == map[[n] := lo] && lo < hi
    ensures Timestamps.Get(s.timestamps, [n]) == Some(lo)
    ensures var r := Set(s, env, PathArg(true, []), Some(hi), 0, true);
            r.1 == Some(hi) && Timestamps.Get(r.0.timestamps, [n]) == None
  {
    assert Governs([n], [n]);
    var r := Set(s, env, PathArg(true, []), Some(hi), 0, true);
    assert Resolve(env.cwd, [], PathArg(true, [])) == Some([]);
    assert [n] !in r.0.timestamps;
    assert forall d :: d in r.0.timestamps ==> d == [];
  }

  /**
    `set` with compaction applied only below directories other than "/",
    whose own entry `get` ignores: the same outcome, store and log, and
    every path keeps the time the new entry gives it.
   */
  function SetKeepingGet(s: Store, env: Env, p: PathArg, mtime: Option<int>, now: int, compact: bool): (r: (Store, Option<int>))
    requires Valid(s)
    ensures var w := Set(s, env, p, mtime, now, compact);
            r.1 == w.1 && r.0 == w.0.(timestamps := r.0.timestamps)
    ensures r.1.Some? ==>
              var a := Resolve(env.cwd, s.rootDir, p).value;
              var m := TimeOf(mtime, now);
              && a in r.0.timestamps && r.0.timestamps[a] == m
              && (forall q :: Timestamps.Get(r.0.timestamps, q) == Timestamps.Get(s.timestamps[a := m], q))
    ensures !compact || Resolve(env.cwd, s.rootDir, p) != Some([]) ==> r == Set(s, env, p, mtime, now, compact)
  {
    match Resolve(env.cwd, s.rootDir, p)
    case None => (s, None)
    case Some(a) =>
      var m := TimeOf(mtime, now);
      if !Accepts(s, a, m) then (s, None)
      else
        var stored := s.timestamps[a := m];
        var t := if compact then CompactKeepingGet(stored, a, a in env.fs.dirs) else stored;
        (WriteAheadLog(s.(timestamps := t), a, m), Some(m))
  }

  /**
    A recorded time joins into the time of every path the recorded path
    governs and leaves every other path alone, when times are not negative
    and no compaction happens at "/".
   */
  lemma SetJoins(s: Store, env: Env, p: PathArg, mtime: Option<int>, now: int, compact: bool, q: AbsPath)
    requires Valid(s) && TimeOf(mtime, now) >= 0
    requires Set(s, env, p, mtime, now, compact).1.Some?
    requires !compact || Resolve(env.cwd, s.rootDir, p) != Some([])
    ensures var a := Resolve(env.cwd, s.rootDir, p).value;
            Timestamps.Get(Set(s, env, p, mtime, now, compact).0.timestamps, q)
              == if Governs(a, q) then MaxNone(Timestamps.Get(s.timestamps, q), Some(TimeOf(mtime, now)))
                 else Timestamps.Get(s.timestamps, q)
  {
    var a := Resolve(env.cwd, s.rootDir, p).value;
    GetAfterPut(s.timestamps, a, TimeOf(mtime, now), q);
  }

  /** With times that are not negative and no compaction at "/", `set` never lowers the time of any path. */
  lemma SetMonotone(s: Store, env: Env, p: PathArg, mtime: Option<int>, now: int, compact: bool, q: AbsPath)
    requires Valid(s) && TimeOf(mtime, now) >= 0
    requires !compact || Resolve(env.cwd, s.rootDir, p) != Some([])
    ensures AtMost(Timestamps.Get(s.timestamps, q), Timestamps.Get(Set(s, env, p, mtime, now, compact).0.timestamps, q))
  {
    if Set(s, env, p, mtime, now, compact).1.Some? {
      SetJoins(s, env, p, mtime, now, compact, q);
    }
  }

  /** Setting twice keeps the later of the two times, once a non-zero time is in place. */
  lemma SetTwice(s: Store, env: Env, p: PathArg, m1: int, m2: int, c1: bool, c2: bool)
    requires Valid(s) && Resolve(env.cwd, s.rootDir, p).Some?
    requires var a := Resolve(env.cwd, s.rootDir, p).value;
             a in s.timestamps ==> s.timestamps[a] == 0 || s.timestamps[a] <= m1
    requires m1 != 0
    ensures var s1 := Set(s, env, p, Some(m1), 0, c1).0;
            var s2 := Set(s1, env, p, Some(m2), 0, c2).0;
            var a := Resolve(env.cwd, s.rootDir, p).value;
            a in s2.timestamps && s2.timestamps[a] == if m1 < m2 then m2 else m1
  {
  }

  /**
    The line `set` logs: the key resolves back to the path; the line reads
    back as the key and the time when the key holds a ':' or may be written
    plain, and is misread when the key starts with a quote and holds no ':'.
   */
  lemma SetLogReadsBack(s: Store, env: Env, p: PathArg, mtime: Option<int>, now: int, compact: bool)
    requires Valid(s) && ValidPath(s.rootDir)
    requires Set(s, env, p, mtime, now, compact).1.Some?
    requires ValidPath(Resolve(env.cwd, s.rootDir, p).value)
    ensures var r := Set(s, env, p, mtime, now, compact).0;
            var a := Resolve(env.cwd, s.rootDir, p).value;
            var key := RelativePathStr(a, s.rootDir);
            var line := ParseWalLine(r.walText[|r.walText| - 1]);
            && Resolve(s.rootDir, s.rootDir, ParsePath(key)) == Some(a)
            && (Printable(key) && (':' in key || PlainSafe(key)) ==> line == Some((key, TimeOf(mtime, now))))
            && (key != [] && key[0] == '\'' && ':' !in key ==> line != Some((key, TimeOf(mtime, now))))
  {
    var a := Resolve(env.cwd, s.rootDir, p).value;
    var key := RelativePathStr(a, s.rootDir);
    WalLineAsWrittenReadsBack(key, TimeOf(mtime, now));
    RelativePathStrRoundTrip(a, s.rootDir);
  }
}

=== FILE: values.dfy ===
/**
  Loosely typed configuration data as a tagged recursive value: the shape of
  a caller's `program_config`, of the `treestamps_config` block and of a
  parsed timestamps document.
 */
module Values {
  import opened Ordering

  datatype Value =
    | Null                        // None
    | Bool(b: bool)
    | Int(i: int)
    | Str(s: string)
    | List(items: seq<Value>)     // list or tuple
    | Set(elems: seq<Value>)      // set, in insertion order
    | Map(entries: seq<Entry>)    // mapping, in insertion order

  /** A mapping entry; keys are strings, as every key the writer produces is. */
  datatype Entry = Entry(key: string, value: Value)

  /** The keys of a mapping's entries. */
  function Keys(es: seq<Entry>): set<string> {
    set e | e in es :: e.key
  }

  /** Python truthiness of a value. */
  predicate Truthy(v: Value) {
    match v
    case Null => false
    case Bool(b) => b
    case Int(i) => i != 0
    case Str(s) => s != []
    case List(xs) => xs != []
    case Set(xs) => xs != []
    case Map(es) => es != []
  }

  function Strs(ss: seq<string>): (r: seq<Value>)
    ensures |r| == |ss|
    ensures forall i :: 0 <= i < |ss| ==> r[i] == Str(ss[i])
  {
    if ss == [] then [] else [Str(ss[0])] + Strs(ss[1..])
  }

  /*
    The order.  Each value is written as a prefix-free code over integers
    (a tag, then the contents, sequences closed by 0) and codes are compared
    lexicographically.  Ints are ordered numerically, strings by code point,
    lists and tuples element-wise with a proper prefix first, and mapping
    items by key and then value, as Python orders them.  Where Python has no
    total order the model picks one: values of different types, which Python
    refuses to compare, are ordered by tag; None, like dicts, is ordered
    although Python refuses to compare two of them; and sets are ordered
    element-wise on their normalised sequence, where Python's `<` on sets is
    inclusion, so that sorting a list of sets in Python can depend on the
    order of the list.
  */

  function EncodeStr(s: string): (r: seq<int>)
    ensures r != [] && r[0] >= 0
    ensures s == [] <==> r[0] == 0
  {
    if s == [] then [0] else [s[0] as int + 1] + EncodeStr(s[1..])
  }

  function Encode(v: Value): (r: seq<int>)
    ensures r != [] && r[0] >= 1
  {
    match v
    case Null => [1]
    case Bool(b) => [2, if b then 1 else 0]
    case Int(i) => [3, i]
    case Str(s) => [4] + EncodeStr(s)
    case List(xs) => [5] + EncodeSeq(xs)
    case Set(xs) => [6] + EncodeSeq(xs)
    case Map(es) => [7] + EncodeEntries(es)
  }

  function EncodeSeq(xs: seq<Value>): (r: seq<int>)
    ensures r != [] && r[0] >= 0
    ensures xs == [] <==> r[0] == 0
  {
    if xs == [] then [0] else Encode(xs[0]) + EncodeSeq(xs[1..])
  }

  function EncodeEntries(es: seq<Entry>): (r: seq<int>)
    ensures r != [] && r[0] >= 0
    ensures es == [] <==> r[0] == 0
  {
    if es == [] then [0] else EncodeEntry(es[0]) + EncodeEntries(es[1..])
  }

  function EncodeEntry(e: Entry): (r: seq<int>)
    ensures r != [] && r[0] == 1
  {
    [1] + EncodeStr(e.key) + Encode(e.value)
  }

  /** Equal sequences with equal-length heads have equal tails. */
  lemma SplitEqual(p: seq<int>, a: seq<int>, q: seq<int>, b: seq<int>)
    requires p + a == q + b && |p| == |q|
    ensures p == q && a == b
  {
    assert p == (p + a)[..|p|] && q == (q + b)[..|q|];
    assert a == (p + a)[|p|..] && b == (q + b)[|q|..];
  }

  lemma {:induction false} EncodeStrPrefixFree(s: string, t: string, r1: seq<int>, r2: seq<int>)
    requires EncodeStr(s) + r1 == EncodeStr(t) + r2
    ensures s == t && r1 == r2
  {
    assert (EncodeStr(s) + r1)[0] == (EncodeStr(t) + r2)[0];
    if s != [] {
      assert EncodeStr(s) + r1 == [s[0] as int + 1] + (EncodeStr(s[1..]) + r1);
      assert EncodeStr(t) + r2 == [t[0] as int + 1] + (EncodeStr(t[1..]) + r2);
      SplitEqual([s[0] as int + 1], EncodeStr(s[1..]) + r1, [t[0] as int + 1], EncodeStr(t[1..]) + r2);
      EncodeStrPrefixFree(s[1..], t[1..], r1, r2);
      assert s == [s[0]] + s[1..] && t == [t[0]] + t[1..];
    } else {
      SplitEqual([0], r1, [0], r2);
    }
  }

  lemma {:induction false} EncodePrefixFree(a: Value, b: Value, r1: seq<int>, r2: seq<int>)
    requires Encode(a) + r1 == Encode(b) + r2
    ensures a == b && r1 == r2
    decreases a
  {
    EncodeTag(a, b, r1, r2);
    match a
    case Null =>
      SplitEqual([1], r1, [1], r2);
    case Bool(x) =>
      SplitEqual(Encode(a), r1, Encode(b), r2);
    case Int(x) =>
      SplitEqual(Encode(a), r1, Encode(b), r2);
    case Str(x) =>
      PeelTag(4, EncodeStr(x), r1, EncodeStr(b.s), r2);
      EncodeStrPrefixFree(x, b.s, r1, r2);
    case List(xs) =>
      PeelTag(5, EncodeSeq(xs), r1, EncodeSeq(b.items), r2);
      EncodeSeqPrefixFree(xs, b.items, r1, r2);
    case Set(xs) =>
      PeelTag(6, EncodeSeq(xs), r1, EncodeSeq(b.elems), r2);
      EncodeSeqPrefixFree(xs, b.elems, r1, r2);
    case Map(es) =>
      PeelTag(7, EncodeEntries(es), r1, EncodeEntries(b.entries), r2);
      EncodeEntriesPrefixFree(es, b.entries, r1, r2);
  }

  /** Equal codes that start with the same tag agree after it. */
  lemma PeelTag(t: int, x: seq<int>, r1: seq<int>, y: seq<int>, r2: seq<int>)
    requires [t] + x + r1 == [t] + y + r2
    ensures x + r1 == y + r2
  {
    assert [t] + x + r1 == [t] + (x + r1);
    assert [t] + y + r2 == [t] + (y + r2);
    SplitEqual([t], x + r1, [t], y + r2);
  }

  /** Codes that agree on their first number are of values of one kind. */
  lemma EncodeTag(a: Value, b: Value, r1: seq<int>, r2: seq<int>)
    requires Encode(a) + r1 == Encode(b) + r2
    ensures a.Null? == b.Null? && a.Bool? == b.Bool? && a.Int? == b.Int? && a.Str? == b.Str?
    ensures a.List? == b.List? && a.Set? == b.Set? && a.Map? == b.Map?
  {
    assert (Encode(a) + r1)[0] == (Encode(b) + r2)[0];
  }

  lemma {:induction false} EncodeSeqPrefixFree(xs: seq<Value>, ys: seq<Value>, r1: seq<int>, r2: seq<int>)
    requires EncodeSeq(xs) + r1 == EncodeSeq(ys) + r2
    ensures xs == ys && r1 == r2
    decreases xs
  {
    assert (EncodeSeq(xs) + r1)[0] == (EncodeSeq(ys) + r2)[0];
    if xs != [] {
      assert EncodeSeq(xs) + r1 == Encode(xs[0]) + (EncodeSeq(xs[1..]) + r1);
      assert EncodeSeq(ys) + r2 == Encode(ys[0]) + (EncodeSeq(ys[1..]) + r2);
      EncodePrefixFree(xs[0], ys[0], EncodeSeq(xs[1..]) + r1, EncodeSeq(ys[1..]) + r2);
      EncodeSeqPrefixFree(xs[1..], ys[1..], r1, r2);
      assert xs == [xs[0]] + xs[1..] && ys == [ys[0]] + ys[1..];
    } else {
      SplitEqual([0], r1, [0], r2);
    }
  }

  lemma {:induction false} EncodeEntryPrefixFree(x: Entry, y: Entry, r1: seq<int>, r2: seq<int>)
    requires EncodeEntry(x) + r1 == EncodeEntry(y) + r2
    ensures x == y && r1 == r2
    decreases x
  {
    var a, b := EncodeStr(x.key) + Encode(x.value), EncodeStr(y.key) + Encode(y.value);
    assert EncodeEntry(x) == [1] + a && EncodeEntry(y) == [1] + b;
    PeelTag(1, a, r1, b, r2);
    assert a + r1 == EncodeStr(x.key) + (Encode(x.value) + r1);
    assert b + r2 == EncodeStr(y.key) + (Encode(y.value) + r2);
    EncodeStrPrefixFree(x.key, y.key, Encode(x.value) + r1, Encode(y.value) + r2);
    EncodePrefixFree(x.value, y.value, r1, r2);
  }

  lemma {:induction false} EncodeEntriesPrefixFree(xs: seq<Entry>, ys: seq<Entry>, r1: seq<int>, r2: seq<int>)
    requires EncodeEntries(xs) + r1 == EncodeEntries(ys) + r2
    ensures xs == ys && r1 == r2
    decreases xs
  {
    assert (EncodeEntries(xs) + r1)[0] == (EncodeEntries(ys) + r2)[0];
    if xs != [] {
      assert EncodeEntries(xs) + r1 == EncodeEntry(xs[0]) + (EncodeEntries(xs[1..]) + r1);
      assert EncodeEntries(ys) + r2 == EncodeEntry(ys[0]) + (EncodeEntries(ys[1..]) + r2);
      EncodeEntryPrefixFree(xs[0], ys[0], EncodeEntries(xs[1..]) + r1, EncodeEntries(ys[1..]) + r2);
      EncodeEntriesPrefixFree(xs[1..], ys[1..], r1, r2);
      assert xs == [xs[0]] + xs[1..] && ys == [ys[0]] + ys[1..];
    } else {
      SplitEqual([0], r1, [0], r2);
    }
  }

  /** The code of one sequence of values is never a prefix of the code of another. */
  lemma EncodeSeqNoPrefix(xs: seq<Value>, ys: seq<Value>)
    requires xs != ys
    ensures !(EncodeSeq(xs) <= EncodeSeq(ys))
  {
    var x, y := EncodeSeq(xs), EncodeSeq(ys);
    if x <= y {
      var rest := y[|x|..];
      assert x + rest == y + [];
      EncodeSeqPrefixFree(xs, ys, rest, []);
    }
  }

  /** Values are ordered by their codes. */
  function Le(a: Value, b: Value): bool {
    LexLe(Encode(a), Encode(b))
  }

  /** Mapping items are ordered as Python orders `(key, value)` tuples. */
  function EntryLe(a: Entry, b: Entry): bool {
    LexLe(EncodeEntry(a), EncodeEntry(b))
  }

  /** Strings are ordered by code point, a proper prefix first. */
  function StrLe(a: string, b: string): bool {
    LexLe(EncodeStr(a), EncodeStr(b))
  }

  lemma LeTotal()
    ensures TotalOrder(Le)
  {
    LexTotal();
    forall a, b | Le(a, b) && Le(b, a) ensures a == b {
      EncodePrefixFree(a, b, [], []);
      assert Encode(a) + [] == Encode(a) && Encode(b) + [] == Encode(b);
    }
  }

  lemma EntryLeTotal()
    ensures TotalOrder(EntryLe)
  {
    LexTotal();
    forall a, b | EntryLe(a, b) && EntryLe(b, a) ensures a == b {
      EncodeEntryPrefixFree(a, b, [], []);
      assert EncodeEntry(a) + [] == EncodeEntry(a) && EncodeEntry(b) + [] == EncodeEntry(b);
    }
  }

  lemma StrLeTotal()
    ensures TotalOrder(StrLe)
  {
    LexTotal();
    forall a, b | StrLe(a, b) && StrLe(b, a) ensures a == b {
      EncodeStrPrefixFree(a, b, [], []);
      assert EncodeStr(a) + [] == EncodeStr(a) && EncodeStr(b) + [] == EncodeStr(b);
    }
  }
}

=== FILE: wal.dfy ===
/**
  The text of the write-ahead log of treestamps/tree/set.py.  The log is a
  YAML document written by hand: a "wal:" header, then one block-sequence
  item per accepted `set`, a one-entry mapping from the root-relative path
  to the time.  A key that a YAML reader would misread must be written as a
  single-quoted flow scalar (section 7.3.2 of YAML 1.2): wrapped in `'`,
  with every `'` inside doubled.

  The reader modelled here knows the two key forms the writer produces: a
  single-quoted scalar when the key starts with `'`, otherwise a plain
  scalar that ends at the first ": ".  It reads every plain scalar as a
  string, which a YAML reader does only for the keys `PlainSafe` admits:
  other plain scalars may be read as numbers, booleans or null, or lose
  their trailing spaces, so the round trips below are stated for those
  keys only.
 */
module Wal {
  import opened Optional

  const WalHeader: string := "wal:\n"

  /*
    Single-quoted scalars.
  */

  /** Every `'` written as `''`. */
  function DoubleQuotes(s: string): (r: string)
    ensures |r| >= |s|
  {
    if s == [] then []
    else (if s[0] == '\'' then "''" else [s[0]]) + DoubleQuotes(s[1..])
  }

  /** `'` + the doubled text + `'`. */
  function Quote(s: string): string {
    "'" + DoubleQuotes(s) + "'"
  }

  /**
    Reads a single-quoted scalar whose opening quote is already consumed:
    its text, and what follows the closing quote.  None when no closing
    quote comes.
   */
  function ReadQuoted(s: string): (r: Option<(string, string)>)
    ensures r.Some? ==> |r.value.0| + |r.value.1| < |s|
    ensures r.Some? ==> r.value.1 == s[|s| - |r.value.1|..]
    ensures r.Some? ==> s[|s| - |r.value.1| - 1] == '\''
    decreases |s|
  {
    if s == [] then None
    else if s[0] == '\'' then
      if |s| >= 2 && s[1] == '\'' then
        match ReadQuoted(s[2..])
        case None => None
        case Some(p) => Some(("'" + p.0, p.1))
      else Some(([], s[1..]))
    else
      match ReadQuoted(s[1..])
      case None => None
      case Some(p) => Some(([s[0]] + p.0, p.1))
  }

  /** The doubled text of a non-empty string is its first character's doubling followed by the rest's. */
  lemma DoubleQuotesCons(s: string, tail: string)
    requires s != []
    ensures DoubleQuotes(s) + tail == (if s[0] == '\'' then "''" else [s[0]]) + (DoubleQuotes(s[1..]) + tail)
  {
  }

  /** A doubled quote reads as one quote inside the scalar. */
  lemma ReadQuotedPair(y: string)
    ensures ReadQuoted("''" + y) == if ReadQuoted(y).None? then None
                                     else Some(("'" + ReadQuoted(y).value.0, ReadQuoted(y).value.1))
  {
    var x := "''" + y;
    assert x[0] == '\'' && x[1] == '\'' && x[2..] == y;
  }

  /** Any other character is read as itself. */
  lemma ReadQuotedOther(c: char, y: string)
    requires c != '\''
    ensures ReadQuoted([c] + y) == if ReadQuoted(y).None? then None
                                   else Some(([c] + ReadQuoted(y).value.0, ReadQuoted(y).value.1))
  {
    var x := [c] + y;
    assert x[0] == c && x[1..] == y;
  }

  /** One character of the body: reading it back extends what the rest reads back to. */
  lemma ReadQuotedStep(s: string, t: string, rest: string)
    requires s != []
    requires ReadQuoted(DoubleQuotes(s[1..]) + t) == Some((s[1..], rest))
    ensures ReadQuoted(DoubleQuotes(s) + t) == Some((s, rest))
  {
    var y := DoubleQuotes(s[1..]) + t;
    DoubleQuotesCons(s, t);
    if s[0] == '\'' {
      ReadQuotedPair(y);
      assert s == "'" + s[1..];
    } else {
      ReadQuotedOther(s[0], y);
      assert s == [s[0]] + s[1..];
    }
  }

  lemma {:induction false} ReadQuotedBody(s: string, rest: string)
    requires rest == [] || rest[0] != '\''
    ensures ReadQuoted(DoubleQuotes(s) + ("'" + rest)) == Some((s, rest))
  {
    if s == [] {
      assert DoubleQuotes(s) + ("'" + rest) == "'" + rest;
    } else {
      ReadQuotedBody(s[1..], rest);
      ReadQuotedStep(s, "'" + rest, rest);
    }
  }

  /** A quoted body followed by anything that does not start with a quote reads back. */
  lemma ReadQuotedDoubled(s: string, rest: string)
    requires rest == [] || rest[0] != '\''
    ensures ReadQuoted(DoubleQuotes(s) + "'" + rest) == Some((s, rest))
  {
    ReadQuotedBody(s, rest);
    assert DoubleQuotes(s) + "'" + rest == DoubleQuotes(s) + ("'" + rest);
  }

  /** Reads a plain scalar key: the text before the first ": ", and the rest from that ": " on. */
  function ReadPlain(s: string): (r: Option<(string, string)>)
    ensures r.Some? ==> |r.value.0| + |r.value.1| == |s| && s == r.value.0 + r.value.1
    decreases |s|
  {
    if |s| >= 2 && s[0] == ':' && s[1] == ' ' then Some(([], s))
    else if s == [] then None
    else
      match ReadPlain(s[1..])
      case None => None
      case Some(p) => Some(([s[0]] + p.0, p.1))
  }

  lemma {:induction false} ReadPlainNoColon(k: string, rest: string)
    requires ':' !in k
    requires |rest| >= 2 && rest[0] == ':' && rest[1] == ' '
    ensures ReadPlain(k + rest) == Some((k, rest))
  {
    if k == [] {
      assert k + rest == rest;
    } else {
      assert (k + rest)[1..] == k[1..] + rest;
      ReadPlainNoColon(k[1..], rest);
      assert k == [k[0]] + k[1..];
    }
  }

  /** A key as the reader sees it: single-quoted if it starts with a quote, plain otherwise. */
  function ReadKey(s: string): Option<(string, string)> {
    if s != [] && s[0] == '\'' then ReadQuoted(s[1..]) else ReadPlain(s)
  }

  /*
    Times as decimal text.
  */

  function DigitChar(d: nat): char
    requires d < 10
  {
    "0123456789"[d]
  }

  function DigitValue(c: char): Option<nat> {
    if '0' <= c <= '9' then Some((c as int - '0' as int) as nat) else None
  }

  lemma DigitRoundTrip(d: nat)
    requires d < 10
    ensures DigitValue(DigitChar(d)) == Some(d)
  {
  }

  function NatText(n: nat): (r: string)
    ensures r != [] && '-' !in r && ':' !in r && '\'' !in r
  {
    if n < 10 then [DigitChar(n)] else NatText(n / 10) + [DigitChar(n % 10)]
  }

  /** `f"{mtime}"` for a whole number of seconds. */
  function IntText(n: int): (r: string)
    ensures r != [] && ':' !in r && '\'' !in r
  {
    if n < 0 then "-" + NatText(-n) else NatText(n)
  }

  function ParseNat(s: string): (r: Option<int>)
    ensures r.Some? ==> r.value >= 0
    decreases |s|
  {
    if s == [] then None
    else
      var last := DigitValue(s[|s| - 1]);
      if last.None? then None
      else if |s| == 1 then last
      else
        match ParseNat(s[..|s| - 1])
        case None => None
        case Some(n) => Some(n * 10 + last.value)
  }

  function ParseInt(s: string): Option<int> {
    if s != [] && s[0] == '-' then
      match ParseNat(s[1..])
      case None => None
      case Some(n) => Some(-n)
    else ParseNat(s)
  }

  /** A digit after a non-empty text: the text's value times ten plus the digit. */
  lemma ParseNatSnoc(t: string, c: char)
    requires t != []
    ensures ParseNat(t + [c]) == if DigitValue(c).None? || ParseNat(t).None? then None
                                 else Some(ParseNat(t).value * 10 + DigitValue(c).value)
  {
    var s := t + [c];
    assert s[|s| - 1] == c && s[..|s| - 1] == t && |s| > 1;
  }

  lemma {:induction false} NatTextRoundTrip(n: nat)
    ensures ParseNat(NatText(n)) == Some(n)
    decreases n
  {
    if n < 10 {
      DigitRoundTrip(n);
      assert NatText(n) == [DigitChar(n)];
    } else {
      var q, d := n / 10, n % 10;
      DigitRoundTrip(d);
      NatTextRoundTrip(q);
      ParseNatSnoc(NatText(q), DigitChar(d));
      assert NatText(n) == NatText(q) + [DigitChar(d)];
      assert q * 10 + d == n;
    }
  }

  /** A leading '-' negates what the rest reads as. */
  lemma ParseIntMinus(t: string)
    ensures ParseInt("-" + t) == if ParseNat(t).None? then None else Some(-ParseNat(t).value)
  {
    var s := "-" + t;
    assert s != [] && s[0] == '-' && s[1..] == t;
  }

  lemma NegativeTextRoundTrip(n: int)
    requires n < 0
    ensures ParseInt(IntText(n)) == Some(n)
  {
    var m: nat := -n;
    var t := NatText(m);
    assert IntText(n) == "-" + t;
    NatTextRoundTrip(m);
    ParseIntMinus(t);
  }

  /** The decimal text of a time reads back as that time. */
  lemma IntTextRoundTrip(n: int)
    ensures ParseInt(IntText(n)) == Some(n)
  {
    if n < 0 {
      NegativeTextRoundTrip(n);
    } else {
      NatTextRoundTrip(n);
    }
  }

  /*
    Log lines.
  */

  /** Reads one log line `"- " + key + ": " + time + "\n"`. */
  function ParseWalLine(line: string): Option<(string, int)> {
    if |line| >= 3 && line[..2] == "- " && line[|line| - 1] == '\n' then
      match ReadKey(line[2..|line| - 1])
      case None => None
      case Some(p) =>
        if |p.1| >= 2 && p.1[..2] == ": " then
          match ParseInt(p.1[2..])
          case None => None
          case Some(n) => Some((p.0, n))
        else None
    else None
  }

  /** The key as `_write_ahead_log` writes it: quoted only when it holds a ':'. */
  function KeyTextAsWritten(key: string): (r: string)
    ensures ':' in key ==> r == Quote(key)
    ensures ':' !in key ==> r == key
  {
    if ':' in key then Quote(key) else key
  }

  /**
    The log line `_write_ahead_log` writes: one list item, opened with a
    quote when the key holds a ':' and with the key itself otherwise.
   */
  function WalLineAsWritten(key: string, mtime: int): (r: string)
    ensures |r| >= 3 && r[..2] == "- " && r[|r| - 1] == '\n'
    ensures ':' in key ==> r[2] == '\''
    ensures ':' !in key ==> |r| > |key| + 2 && r[2..|key| + 2] == key
  {
    "- " + KeyTextAsWritten(key) + ": " + IntText(mtime) + "\n"
  }

  /*
    Which keys may be written plain.
  */

  /** A character YAML lets a node start with, or that a plain scalar may not start with. */
  predicate IndicatorChar(c: char) {
    c in "-?:,[]{}#&*!|>'\"%@`"
  }

  /** A printable character of section 5.1 of YAML 1.2, other than tab and the line breaks. */
  predicate PrintableChar(c: char) {
    var n := c as int;
    (0x20 <= n <= 0x7E) || (0xA0 <= n <= 0xFFFD) || n >= 0x10000
  }

  /** A key that fits on one line of a YAML document. */
  predicate Printable(key: string) {
    forall i :: 0 <= i < |key| ==> PrintableChar(key[i])
  }

  /** Plain scalars that the YAML 1.2 core schema, or YAML 1.1, reads as null, a boolean or a merge or value key. */
  const TypedWords: set<string> := {
    "~", "null", "Null", "NULL", "true", "True", "TRUE", "false", "False", "FALSE",
    "yes", "Yes", "YES", "no", "No", "NO", "on", "On", "ON", "off", "Off", "OFF",
    "y", "Y", "n", "N", "<<", "="}

  /** The special floats of the YAML 1.2 core schema that start with a dot. */
  const DotFloats: set<string> := {".inf", ".Inf", ".INF", ".nan", ".NaN", ".NAN"}

  /**
    A key that a YAML reader reads back, written plain, as this very
    string: printable, no ':' and no " #", no leading indicator, no space
    at either end, and nothing the resolver would take as a number, a
    boolean or null.  Keys that start with a digit, a sign or "." followed
    by a digit are all excluded, which is more than the resolver types.
   */
  predicate PlainSafe(key: string) {
    && key != [] && Printable(key)
    && ':' !in key
    && !IndicatorChar(key[0])
    && key[0] != ' ' && key[|key| - 1] != ' '
    && !('0' <= key[0] <= '9') && key[0] != '+'
    && !(key[0] == '.' && |key| >= 2 && '0' <= key[1] <= '9')
    && key !in DotFloats && key !in TypedWords
    && (forall i :: 1 <= i < |key| ==> !(key[i] == '#' && key[i - 1] == ' '))
  }

  /** The key written plain only when a YAML reader would read it back as itself, quoted otherwise. */
  function KeyText(key: string): (r: string)
    ensures PlainSafe(key) ==> r == key
    ensures !PlainSafe(key) ==> r == Quote(key)
  {
    if PlainSafe(key) then key else Quote(key)
  }

  /** A log line with the quoting of `KeyText`. */
  function WalLine(key: string, mtime: int): string {
    "- " + KeyText(key) + ": " + IntText(mtime) + "\n"
  }

  /** The body of a line: what lies between "- " and the newline. */
  lemma LineBody(k: string, n: string)
    ensures ("- " + k + ": " + n + "\n")[2..|"- " + k + ": " + n + "\n"| - 1] == k + (": " + n)
    ensures ("- " + k + ": " + n + "\n")[..2] == "- "
  {
  }

  /** A line whose key text reads as `key` up to the ": " before the time reads back as `key` and the time. */
  lemma ParseLine(k: string, key: string, mtime: int)
    requires ReadKey(k + (": " + IntText(mtime))) == Some((key, ": " + IntText(mtime)))
    ensures ParseWalLine("- " + k + ": " + IntText(mtime) + "\n") == Some((key, mtime))
  {
    var tail := ": " + IntText(mtime);
    LineBody(k, IntText(mtime));
    assert tail[2..] == IntText(mtime);
    IntTextRoundTrip(mtime);
  }

  lemma ReadKeyQuoted(key: string, tail: string)
    requires tail == [] || tail[0] != '\''
    ensures ReadKey(Quote(key) + tail) == Some((key, tail))
  {
    var body := Quote(key) + tail;
    assert body[0] == '\'';
    assert body[1..] == DoubleQuotes(key) + "'" + tail;
    ReadQuotedDoubled(key, tail);
  }

  /**
    Every line written with `KeyText` reads back as the key and time it was
    written from, for any key that fits on one line.
   */
  lemma WalLineRoundTrip(key: string, mtime: int)
    requires Printable(key)
    ensures ParseWalLine(WalLine(key, mtime)) == Some((key, mtime))
  {
    var tail := ": " + IntText(mtime);
    if !PlainSafe(key) {
      ReadKeyQuoted(key, tail);
    } else {
      ReadPlainNoColon(key, tail);
      assert (key + tail)[0] == key[0];
    }
    ParseLine(KeyText(key), key, mtime);
  }

  /**
    A key that starts with a quote and holds no ':' is read as a quoted
    scalar that closes inside the key, if at all, so what is read is
    shorter than the key.
   */
  lemma MisreadKeyShorter(key: string, tail: string)
    requires key != [] && key[0] == '\'' && ':' !in key
    requires tail != [] && tail[0] == ':' && '\'' !in tail
    ensures var r := ReadQuoted(key[1..] + tail);
            r.Some? && r.value.1 != [] && r.value.1[0] == ':' ==> |r.value.0| < |key|
  {
    var s := key[1..] + tail;
    var r := ReadQuoted(s);
    forall j | 0 <= j < |key| - 1 ensures s[j] != ':' {
      assert s[j] == key[j + 1];
    }
    forall j | |key| - 1 <= j < |s| ensures s[j] != '\'' {
      assert s[j] == tail[j - (|key| - 1)];
    }
    if r.Some? && r.value.1 != [] && r.value.1[0] == ':' {
      var rest := r.value.1;
      assert s[|s| - |rest|] == ':';
      assert s[|s| - |rest| - 1] == '\'';
    }
  }

  /**
    The line as written is misread when the key starts with a quote and
    holds no ':'; it reads back when the key holds a ':', so that it is
    quoted, or may be written plain.
   */
  lemma WalLineAsWrittenReadsBack(key: string, mtime: int)
    ensures key != [] && key[0] == '\'' && ':' !in key ==>
              ParseWalLine(WalLineAsWritten(key, mtime)) != Some((key, mtime))
    ensures Printable(key) && (':' in key || PlainSafe(key)) ==>
              ParseWalLine(WalLineAsWritten(key, mtime)) == Some((key, mtime))
  {
    if key != [] && key[0] == '\'' && ':' !in key {
      var tail := ": " + IntText(mtime);
      var body := key + tail;
      LineBody(key, IntText(mtime));
      assert body[1..] == key[1..] + tail;
      MisreadKeyShorter(key, tail);
    } else if Printable(key) && (':' in key || PlainSafe(key)) {
      assert WalLineAsWritten(key, mtime) == WalLine(key, mtime);
      WalLineRoundTrip(key, mtime);
    }
  }

  /** A file named `'x` is written as "- 'x: 5", which opens a quote that never closes. */
  lemma LeadingQuoteCounterexample()
    ensures WalLineAsWritten("'x", 5) == "- 'x: 5\n"
    ensures ParseWalLine(WalLineAsWritten("'x", 5)) == None
  {
    assert ':' !in "'x";
    assert IntText(5) == "5";
    LineBody("'x", "5");
    assert ReadQuoted("x: 5") == None by {
      assert "x: 5"[1..] == ": 5";
      assert ": 5"[1..] == " 5";
      assert " 5"[1..] == "5";
      assert "5"[1..] == "";
    }
  }
}
